=== FILE: README.md ===
# Card system: a Dafny model of the table, the deck builder and the record store

This project models the logic of a browser card-game tool in Dafny. Users write cards into a
library, collect card ids into decks, and play decks out on a zoomable table. There, cards
and decks can be dragged as stacks and snapped onto one another. The model covers:

- the drag engine (`js/ui/DragManager.js`):
  - the shared z-index counter;
  - the 5 px start threshold;
  - the stack that travels with a grabbed card, a fixed point of "significantly covers";
  - lifting the stack;
  - following the pointer under zoom;
  - snapping the dropped stack onto the element it covers most.
- the deck and card records (`js/models/Deck.js`, `js/models/Card.js`): constructor defaults,
  `fromJSON`, append, remove-first and the Fisher-Yates shuffle.
- the record store (`js/utils/StorageManager.js`): upsert and delete by id, the sequential
  display numbers, and import/export of whole libraries and deck collections.
- the builder's text logic (`js/builder.js`):
  - the `"1, 3-5, 8"` display-number lists;
  - display-number migration;
  - bulk import of `Name | Mechanical Text | Flavor Text | Tags` lines;
  - tag parsing;
  - the library's search, tag filter and sort;
  - editing the selected deck.
- the play table (`js/main.js`): the wheel zoom and its clamp, placing a copy of a stored deck,
  drawing from and shuffling a placed deck, and clearing the table.

Everything is a pure function or a method over immutable datatypes and sequences. There is
one module per component: `ZIndex`, `Geometry`, `Drag`, `Cards`, `Decks`, `Records`,
`Storage`, `IdList`, `Builder` and `Table`. `Wrappers`, `Seqs`, `Sorting`, `Text` and `Ids` are
helpers. The following become parameters:

- bounding boxes (`getBoundingClientRect`): one rectangle per element;
- the random numbers: a swap-index sequence for the shuffle, and reals in `[0, 1)` for
  placement;
- the generated UUIDs: a function `newIds: nat -> string`;
- the answer to `confirm`: a boolean.

`localStorage` is a `Store` with two optional lists, and JSON serialisation of stored records
is taken as the identity. A deck placed on the table is an immutable value copied out of the
stored list, so play never alters the stored deck.

The lift at drag start (js/ui/DragManager.js:107-111) is commented as bringing the stack to the
front "preserving order", but it hands out z-indices in stack order, not in the cards' current
z order; the model follows the code, and Findings shows where the two differ.

Two further behaviours of the code, modelled as written:

- Snapping (js/ui/DragManager.js:239-254) shifts the whole dragged stack sideways by the amount
  that puts the bottom card's left edge exactly on the target's, and leaves every top unchanged.
- `saveCard` (js/utils/StorageManager.js:24-28) gives every card whose id is not yet stored a
  new display number, replacing any number it carried.

## Model

| member | source | states |
|---|---|---|
| ZIndex.Next | js/ui/DragManager.js:18-24 | Each call returns exactly one more than the counter and leaves the counter at that value. An unset counter starts from 1000, so the first value is 1001. Partner: `ZIndex.FreshCounterSequence`. |
| ZIndex.FreshCounterSequence | js/ui/DragManager.js:10-24 | From an unset counter, successive calls return 1001, 1002, ... and the values strictly increase. |
| Drag.Create | js/ui/DragManager.js:2-16 | A new manager has nothing armed or dragged and is consistent. The shared counter is set to 1000 only when it was unset, and a set counter is kept. |
| Drag.MouseDown | js/ui/DragManager.js:36-47 | A press outside any draggable, or on a BUTTON, changes nothing. Otherwise it arms the draggable, records the press point and clears `isDragging`. It never touches the dragged stack or the scale. |
| Drag.MouseDownKeepsConsistent | js/ui/DragManager.js:36-47 | Arming an element that exists keeps the manager consistent. |
| Drag.GetStack | js/ui/DragManager.js:145-182 | Loop invariants prove that the result meets `IsStack`: the base comes first, members are distinct, and every other member has a higher z. Each member is significantly covered by an earlier one. No higher element outside the stack is significantly covered by a member. The order is stated too (`IsScannedStack`): each member after the base is the first addable candidate in z order after the previous member's position, or, once a pass ends, the first addable one from the start of the next pass. Partners: `StackIsLeast`, `StackMembersDetermined`, `ScannedStackDetermined`. |
| Drag.StackIsLeast | js/ui/DragManager.js:163-179 | The stack is the least set that contains the base and is closed under "significantly covers a higher element". So `getStack` adds nothing that the transitive rule does not force. |
| Drag.ScannedStackDetermined | js/ui/DragManager.js:157-179 | Any two lists in the scan order of the z-sorted passes are equal, order included, so the table fixes the whole list `getStack` returns. |
| Drag.StackMembersDetermined | js/ui/DragManager.js:145-182 | Any two lists meeting the `getStack` contract have the same members, so the grouping depends only on the boxes and z-indices. |
| Drag.ChainJoinsStack | js/ui/DragManager.js:163-179 | Grouping is transitive. If the base covers b and b covers c, both join the stack even when the base does not cover c. |
| Geometry.OverlappingSymmetric | js/ui/DragManager.js:184-192 | `isOverlapping` does not depend on argument order. Partner: `Geometry.TouchingOverlaps`. |
| Geometry.TouchingOverlaps | js/ui/DragManager.js:188-191 | Boxes that only share an edge count as overlapping, because the comparisons are strict. |
| Geometry.SignificantIsRatioTest | js/ui/DragManager.js:194-211 | For a box with positive area, `2 * overlap > area(b)` holds exactly when the ratio test `overlap / area(b) > 0.5` does. |
| Geometry.SignificantIsAsymmetric | js/ui/DragManager.js:194-211 | `isSignificantOverlap` is asymmetric: a small box on a large one is covered, but the large one is not. |
| Geometry.SignificantImpliesOverlapping | js/ui/DragManager.js:184-211 | A significant overlap is an overlap, so separated boxes never group. |
| Geometry.HalfIsNotSignificant | js/ui/DragManager.js:209-210 | Covering exactly half is not enough (strict `> 0.5`). |
| Geometry.ContainedIsSignificant | js/ui/DragManager.js:194-211 | A box with area lying wholly inside another overlaps it by its full area, so it is significantly covered. |
| Drag.RaiseAsWritten | js/ui/DragManager.js:108-111 | The lift `startDrag` performs. The k-th stack member, in stack order, gets the counter plus k + 1, with its position kept. Every other element is unchanged, and the counter ends at the last value. Partner: `Drag.StackOrderRaiseInvertsZ`. |
| Drag.StackOrderRaiseInvertsZ | js/ui/DragManager.js:108-111 | On a concrete three-card table, the lift puts card 1 above card 2 although card 1 was below. The comment's "preserving order" does not hold. |
| Drag.RaiseInZOrder | js/ui/DragManager.js:108-110 | The intended lift. Members get fresh z-indices above the counter, in ascending order of their current ones, so relative stacking order is kept. Everything else is unchanged. |
| Drag.StartDrag | js/ui/DragManager.js:101-119 | Starting a drag yields the stack of the armed element, in the passes' order (`IsScannedStack`), and disarms it. Members are lifted as `RaiseAsWritten` does. Each member stores its pointer-to-corner offset, and the counter advances by the stack size. |
| Drag.DragPosition | js/ui/DragManager.js:92-93 | The new CSS position, scaled and placed in the container, puts the grabbed point exactly under the pointer. |
| Drag.DragKeepsRelativeOffsets | js/ui/DragManager.js:65-97 | The distance between two dragged elements is the same for every pointer position, so the stack moves as one piece. |
| Drag.NoJumpAtStart | js/ui/DragManager.js:92-93 | When the box on screen is the element's position scaled into the container, the first move after the offsets are taken (lines 115-117) leaves the element where it was. |
| Drag.Follow | js/ui/DragManager.js:65-97 | Every dragged element goes to its drag position, and elements not dragged are unchanged. |
| Drag.MouseMove | js/ui/DragManager.js:49-99 | With nothing armed or dragged, or below the threshold (`dx²+dy² > 25`, from lines 53-59), nothing changes. Past the threshold a drag starts on the armed element's stack, in the passes' order (`IsScannedStack`), with z-indices from the counter in that order. During a drag every member follows the pointer and nothing else moves. |
| Drag.BestTarget | js/ui/DragManager.js:213-237 | Only non-dragged elements covering more than half of the card are considered. None is returned exactly when none qualifies. Otherwise the result has the largest overlap, and on ties the first in document order wins. |
| Drag.Snap | js/ui/DragManager.js:239-255 | With no target nothing moves. Otherwise the whole dragged stack shifts by one horizontal delta, which puts the bottom card's left on the target's left in content coordinates. Relative offsets, tops, z-indices and other elements are kept. |
| Drag.MouseUp | js/ui/DragManager.js:121-143 | Afterwards nothing is armed or dragged and `isDragging` is false. A release with no drag changes no element, and a drag is snapped as `Snap` says. |
| Decks.NewDeck | js/models/Deck.js:2-7 | A non-empty id is kept and a falsy one is replaced by the generated id. Missing card ids become `[]` and a missing colour becomes `#34495e`. |
| Decks.FromJsonOfToJson | js/models/Deck.js:9-11 | Rebuilding a deck from its own fields gives the same deck, so the table's deep copy equals the stored deck. |
| Decks.AddCard | js/models/Deck.js:13-15 | Appends the id at the end. The length grows by one, earlier ids keep their places and the multiset gains the id. Partner: `Decks.RemoveUndoesAdd`. |
| Decks.RemoveCard | js/models/Deck.js:17-22 | Removes exactly the first occurrence, and leaves the deck unchanged when the id is absent. Partners: `RemoveUndoesAdd`, `RemoveKeepsOrder`. |
| Decks.RemoveUndoesAdd | js/models/Deck.js:13-22 | Removing an id just appended to a deck that did not hold it restores the deck. |
| Decks.RemoveKeepsOrder | js/models/Deck.js:17-22 | The remaining ids keep their order. |
| Decks.Shuffle | js/models/Deck.js:24-29 | The loop invariant proves that the result is the Fisher-Yates trace `FisherYates` over the oracle indices. The multiset and length are preserved, and the other fields are untouched. |
| Decks.ShortDeckUnchanged | js/models/Deck.js:25-28 | Decks of at most one id come back unchanged. |
| Decks.LastPositionPickedFirst | js/models/Deck.js:25-28 | The id that ends at the bottom of the deck is the one the first random index picked. |
| Cards.NewCard | js/models/Card.js:2-9 | A non-empty id is kept and a falsy one is replaced by the generated id. Missing tags become `[]`, and displayId and the text fields are kept. Partner: `Cards.NewCardDefaults`. |
| Cards.NewCardDefaults | js/models/Card.js:2-9 | A card created without an id, tags or displayId gets the generated id, no tags and no displayId. |
| Cards.FromJsonOfToJson | js/models/Card.js:11-13 | `fromJSON` of a card's own fields reproduces the card whenever its id is non-empty. |
| Cards.ToJsonOfFromJson | js/models/Card.js:11-13 | A complete stored object with a non-empty id goes through a card and back unchanged. |
| Storage.SaveCard | js/utils/StorageManager.js:14-31 | A stored id is replaced in place: same length, other records untouched, and the stored displayId is inherited when the incoming one is falsy. A new id is appended with 1 + the largest displayId, which exceeds every stored one, replacing whatever it carried. Decks are untouched. Partners: `SaveCardLookup`, `SaveStoredCardIsNoOp`. |
| Storage.SaveCardLookup | js/utils/StorageManager.js:14-31 | After a save, the card's id finds the saved card (up to the displayId the save settles), and every other id finds what it found before. |
| Storage.SaveStoredCardIsNoOp | js/utils/StorageManager.js:14-31 | With unique ids, saving a stored card back changes nothing. |
| Storage.DeleteCard | js/utils/StorageManager.js:33-36 | Exactly the cards with the id are removed; every other card keeps its multiplicity and its order, and decks are untouched. |
| Storage.SaveDeck | js/utils/StorageManager.js:44-53 | An upsert: it replaces the first deck with the id in place, or appends. Other decks and the cards are untouched. Partners: `SaveDeckLookup`, `SaveStoredDeckIsNoOp`. |
| Storage.SaveDeckLookup | js/utils/StorageManager.js:44-53 | After a save, the deck's id finds the saved deck and every other id finds what it found before. |
| Storage.DeleteDeck | js/utils/StorageManager.js:55-58 | Exactly the decks with the id are removed; every other deck keeps its multiplicity and its order, and cards are untouched. |
| Storage.ImportLibrary | js/utils/StorageManager.js:71-82 | A missing bundle or card list changes nothing and reports 0. Otherwise it reports the list length and leaves the decks alone. Partners: `ImportLibraryStores`, `ImportOfExportIsIdentity`. |
| Storage.ImportedCardsPresent | js/utils/StorageManager.js:74-80 | Every entry with a non-empty id is stored afterwards, and no stored id is lost. |
| Storage.ImportLibraryStores | js/utils/StorageManager.js:71-82 | For each id, the stored record is the card built from the last entry with that id (up to the displayId the save settles). Ids that no entry carries keep their records. |
| Storage.ImportOfExportIsIdentity | js/utils/StorageManager.js:67-82 | Importing a store's own export changes nothing and reports its size, when card ids are non-empty and unique. |
| Storage.ImportDecks | js/utils/StorageManager.js:88-97 | A missing bundle or deck list changes nothing and reports 0. Otherwise it reports the list length and leaves the cards alone. Partners: `ImportDecksStores`, `DeckImportOfExportIsIdentity`. |
| Storage.ImportedDecksPresent | js/utils/StorageManager.js:91-95 | Every entry with a non-empty id is stored afterwards, and no stored id is lost. |
| Storage.ImportDecksStores | js/utils/StorageManager.js:88-97 | For each id, the stored deck is the one built from the last entry with that id. Ids that no entry carries keep their records. |
| Storage.DeckImportOfExportIsIdentity | js/utils/StorageManager.js:84-97 | Importing the store's own deck export changes nothing and reports its size, when deck ids are non-empty and unique. |
| IdList.ParsePart | js/builder.js:37-50 | A part without '-' contributes its `parseInt` value, or nothing when that is NaN. A part with '-' never counts as a single number, and a range needs exactly two ends. |
| IdList.ParseIdList | js/builder.js:34-51 | The result is duplicate-free, and a number is in it exactly when some comma-separated part denotes it The order is that of a `Set`: the result is `FirstOccurrences` of all the parts' numbers in turn, each value at its first position. Partners: `SingleNumber`, `RangeList`, `TwoDashesDenoteNothing`. |
| IdList.SingleNumber | js/builder.js:45-50 | The list `"n"` denotes exactly n. |
| IdList.RangeList | js/builder.js:38-44 | The list `"a-b"` denotes exactly a, a+1, ..., b in that order, and nothing when a > b. |
| IdList.TwoDashesDenoteNothing | js/builder.js:38-40 | A part with two or more '-' adds nothing. |
| Builder.AddByIds | js/builder.js:273-313 | With no deck selected or empty input nothing happens. Otherwise it appends the id of the first card carrying each listed number, once per number, and reports how many matched; ids already in the deck may repeat. Partners: `MatchedIsFirst`, `MatchedCount`, `MatchedCovers`, `MatchedDistinct`. |
| Builder.MatchedIsFirst | js/builder.js:301-308 | The k-th matched card is what `allCards.find` returns for the k-th listed number that some card carries: the first card carrying it, so the matches follow the numbers' order. |
| Builder.MatchedCount | js/builder.js:301-308 | One card is matched per listed number that some card carries; other numbers are skipped. |
| Builder.MatchedCovers | js/builder.js:301-308 | Every listed number that some card carries is matched. |
| Builder.MatchedDistinct | js/builder.js:301-308 | Distinct numbers match distinct cards. |
| Builder.RemoveByIds | js/builder.js:25-65 | Empty input or a declined prompt changes nothing. Otherwise exactly the cards whose id belongs to a matched card are deleted, every other card keeps its multiplicity and its order, and the count is the number matched. |
| Builder.MigrateCards | js/builder.js:83-100 | Cards with a falsy displayId get max+1, max+2, ... in list order: the k-th card, if unnumbered, gets max + 1 + the number of unnumbered cards before it, above every stored number. Other cards and fields are unchanged, and the count is the number lacking one. With nothing to number the store is left as is. Partners: `MigrateIdempotent`, `MigratedNumbersDistinct`. |
| Builder.MigrateIdempotent | js/builder.js:83-100 | A second migration numbers nothing and changes nothing. |
| Builder.MigratedNumbersDistinct | js/builder.js:83-95 | The numbers handed out are pairwise different. |
| Builder.ParseTags | js/builder.js:126 | Every tag is non-empty, comma-free and trimmed. Partner: `ParseTagsOfJoin`. |
| Builder.ParseTagsOfJoin | js/builder.js:126 | Joining well-formed tags with commas and parsing them back gives the same tags. |
| Builder.TagParsersDiffer | js/builder.js:126-147 | The create form drops empty tags but the bulk import keeps them: `","` gives `[]` in one and `["", ""]` in the other. |
| Builder.CreateCard | js/builder.js:121-134 | With a new generated id, the library gains exactly one card at the end. It carries the form's fields, the parsed tags and the next display number. Decks are untouched. |
| Builder.NameOnlyLine | js/builder.js:141-147 | A line without '\|' is a name only. The other fields are empty and there are no tags. |
| Builder.BulkImport | js/builder.js:136-159 | The count is the number of non-blank lines with a non-empty trimmed name, and decks are untouched. Partner: `BulkImportAppends`. |
| Builder.BulkImportAppends | js/builder.js:136-159 | With fresh, pairwise different generated ids, the stored cards are kept and exactly `Created` is appended. The i-th named line becomes a card with that line's trimmed fields and tags, the i-th generated id and display number max + 1 + i. |
| Builder.LibraryView | js/builder.js:161-172 | The list is sorted by `displayId \|\| 0`. It holds exactly the cards whose lower-cased name contains the lower-cased search text and, when a tag filter is given, some tag of which contains it, with multiplicities kept. Partners: `LibraryViewStable`, `EmptyFiltersShowAll`. |
| Builder.LibraryViewStable | js/builder.js:162 | The sort is stable: cards sharing a display number keep their stored order. |
| Builder.EmptyFiltersShowAll | js/builder.js:161-172 | With both filters empty the view is the whole library in display-number order. |
| Builder.AddToDeck | js/builder.js:265-271 | Without a selected deck nothing happens. Otherwise the result is the same deck with the id appended to its card list, every other field unchanged. |
| Builder.RemoveFromDeck | js/builder.js:315-320 | `splice(index, 1)`: without a deck nothing happens. An index past the end removes nothing, and otherwise exactly the element at the index goes while the others keep their order. Partner: `RemoveFromDeckReinsert`. |
| Builder.RemoveFromDeckReinsert | js/builder.js:315-320 | Putting the removed id back at its index restores the deck. |
| Table.Zoom | js/main.js:33-34 | The new scale is `scale - deltaY / 1000` when that lies in [0.5, 2], and otherwise the nearer limit. It never leaves [0.5, 2]. Partner: `ZoomMonotone`. |
| Table.ZoomMonotone | js/main.js:33-34 | Scrolling further down never zooms in further. |
| Table.WheelsKeepRange | js/main.js:31-42 | Any run of wheel events keeps the zoom within [0.5, 2]. |
| Table.WheelHandler | js/main.js:31-42 | A wheel event zooms the table and hands the new scale to the drag engine (`setScale`), changing nothing else of the drag. Partner: `WheelHandlersInStep`. |
| Table.WheelHandlersInStep | js/main.js:31-42 | Once the drag engine holds the table's scale, any run of wheel events keeps the two equal. The table reaches the same zoom as on its own. |
| Table.AddDeck | js/main.js:56-120 | Without a selected id, or for an id not stored, nothing changes. Otherwise a copy equal to the first stored deck with that id is appended to the active decks. It sits at x, y in [50, 250), with a z-index above every earlier one, and the cards and zoom are untouched. |
| Table.DrawCard | js/main.js:122-166 | An empty deck is left alone. Otherwise the first id is removed and the rest keep their order. The first library card with that id, if any, is placed 160 px right of the deck's box on top of everything. An id without a card is consumed silently. Partners: `DrawConservesIds`, `DrawTouchesOnlyItsDeck`. |
| Table.DrawConservesIds | js/main.js:122-142 | What is left in the deck plus the drawn id is what the deck held, and a placed card carries the drawn id. |
| Table.DrawTouchesOnlyItsDeck | js/main.js:122-142 | Drawing changes neither the other placed decks nor the placed deck's other fields. |
| Table.ShuffleDeck | js/main.js:101-103 | Shuffling a placed deck permutes only its ids. Other decks, the cards, the zoom and the counter are unchanged. |
| Table.Reset | js/main.js:168-171 | Clearing the table leaves no decks and no cards. The zoom and the counter carry on. |
| Table.PlacementsAfterReset | js/main.js:168-171 | Each placed deck is appended to the active decks, so after a reset one placement gives one active deck and two give two. |

## Left out

- DOM rendering, templates, event wiring, toasts, `alert`, modals and `setTimeout` are not modelled; they are presentation. `confirm` is a boolean input.
- `renderDeckSelect`, `handleCreateDeck`, `selectDeck`, `handleSaveDeck`, `renderCurrentDeck`, `showPreview` and `clearAll` are not modelled. Beyond the store operations they call, they only render or select.
- `js/models/Pawn.js` is not part of this model; no modelled code uses it.
- CSS and JSON are abstracted. `style.left`, `style.zIndex` and `dataset` strings are numbers, `getBoundingClientRect` boxes are inputs, and JSON serialisation is the identity. The model does not derive boxes from positions (`Drag.NoJumpAtStart` takes that relation as a hypothesis).
- `crypto.randomUUID` and `Math.random` are not computed: generated ids, swap indices and placement fractions are parameters.
- Numbers are exact reals and unbounded integers, not IEEE doubles. There is no rounding in the zoom step or the drag division, and NaN from a zero-area box is modelled by writing the 50% tests as `2 * overlap > area`, which is false there as `NaN > 0.5` is.
- Text.Lower: lower-cases only the Latin-1 capitals, whereas `toLowerCase` covers all of Unicode. The library filter therefore differs for capitals outside Latin-1 (Greek, Cyrillic and so on).
- IdList.Range: always terminates. The program's range loop never ends once an end reaches 2^53, because `i++` stops changing `i` there.
- Text.ParseInt: reads numerals of any size exactly; `parseInt` loses precision above 2^53.
- Cards.FromJson: treats `null` tags like missing ones (`[]`). JavaScript default parameters apply only to `undefined`, so a stored `tags: null` stays null in the program.
- Decks.FromJson: treats `null` card ids and colour like missing ones. In the program `cardIds: null` and `color: null` stay null.
- Storage.GetCards: returns the stored records as they are. The program re-runs `Card.fromJSON` on every read, so a stored card with a falsy id gets a different generated id on each read.
- Storage.GetDecks: returns the stored decks as they are; the same re-generation of falsy ids on each read is not modelled.
- Storage.SaveCard: returns a new store and leaves the caller's card alone. The program writes the settled `displayId` into the caller's own object; no modelled caller reads it afterwards.
- Drag.MouseUp: does not model removing the `dragging` class or deleting the stored offsets, beyond emptying the dragged list that holds them.

## Findings

| source | as written | input that shows it | evidently intended | confidence | as-written member | corrected member |
|---|---|---|---|---|---|---|
| js/ui/DragManager.js:108-111 | `startDrag` gives the stack fresh z-indices in stack order (`draggedElements.forEach`), and stack order is discovery order, not z-order | `Drag.ExampleTable`/`Drag.ExampleBoxes`: base 0 (z 1) covers card 2 (z 3), which covers card 1 (z 2), so the stack is [0, 2, 1]. From a fresh counter card 2 gets 1002 and card 1 gets 1003, so card 1 jumps above card 2 | "Bring stack to front, preserving order": new z-indices in ascending order of the current ones | not executed | Drag.RaiseAsWritten, with Drag.StackOrderRaiseInvertsZ | Drag.RaiseInZOrder |

`Drag.StartDrag` and `Drag.MouseMove` keep the program's behaviour, `RaiseAsWritten`. `Drag.RaiseInZOrder` is the corrected lift, and its contract proves that stacking order is preserved.

=== FILE: builder.dfy ===
/** The deck builder's logic (`js/builder.js`): adding and removing cards by display
    number, display-number migration, bulk import, tag parsing, the library view, and
    editing the selected deck. The selected deck is an `Option` (`None`: nothing
    selected); `confirm` answers come in as booleans and fresh ids as `newIds`. */
module Builder {
  import opened Wrappers
  import opened Seqs
  import opened Sorting
  import opened Text
  import opened Records
  import opened IdList
  import opened Cards
  import opened Decks
  import opened Storage

  // ---- matching display numbers -----------------------------------------------

  /** The card test `c => c.displayId === n` (a missing displayId matches no number). */
  function NumberIs(n: int): Card -> bool
  {
    (c: Card) => c.displayId == Some(n)
  }

  /** Some card carries display number `n`. */
  function HasMatch(cards: seq<Card>): int -> bool
  {
    (n: int) => FindIndex(cards, NumberIs(n)).Some?
  }

  /** For each number in turn, the first card carrying it, skipping numbers no card
      carries (the `forEach` over the parsed set with `allCards.find`). */
  function Matched(ns: seq<int>, cards: seq<Card>): (r: seq<Card>)
    ensures |r| <= |ns|
    ensures forall k :: 0 <= k < |r| ==> r[k] in cards && r[k].displayId.Some? && r[k].displayId.value in ns
    decreases |ns|
  {
    if |ns| == 0 then []
    else
      var rest := Matched(ns[1..], cards);
      match FindIndex(cards, NumberIs(ns[0]))
      case Some(i) =>
        var r := [cards[i]] + rest;
        assert forall k :: 1 <= k < |r| ==> r[k] == rest[k - 1];
        r
      case None => rest
  }

  /** One card is matched per number that some card carries. */
  lemma {:induction false} MatchedCount(ns: seq<int>, cards: seq<Card>)
    ensures |Matched(ns, cards)| == |Filter(ns, HasMatch(cards))|
    decreases |ns|
  {
    if |ns| > 0 {
      MatchedCount(ns[1..], cards);
      assert Filter(ns, HasMatch(cards)) == (if HasMatch(cards)(ns[0]) then [ns[0]] else []) + Filter(ns[1..], HasMatch(cards));
    }
  }

  /** `c` is what `allCards.find(c => c.displayId === n)` returns: the first card carrying `n`. */
  predicate FirstCarrier(cards: seq<Card>, n: int, c: Card)
  {
    FindIndex(cards, NumberIs(n)).Some? && c == cards[FindIndex(cards, NumberIs(n)).value]
  }

  /** The k-th match is the first card carrying the k-th listed number that some card
      carries: `allCards.find` over the numbers in their listed order. */
  lemma {:induction false} MatchedIsFirst(ns: seq<int>, cards: seq<Card>)
    ensures |Matched(ns, cards)| == |Filter(ns, HasMatch(cards))|
    ensures forall k :: 0 <= k < |Matched(ns, cards)| ==>
      FirstCarrier(cards, Filter(ns, HasMatch(cards))[k], Matched(ns, cards)[k])
    decreases |ns|
  {
    MatchedCount(ns, cards);
    if |ns| > 0 {
      MatchedIsFirst(ns[1..], cards);
      var f, rest := Filter(ns, HasMatch(cards)), Filter(ns[1..], HasMatch(cards));
      var r, r' := Matched(ns, cards), Matched(ns[1..], cards);
      assert f == (if HasMatch(cards)(ns[0]) then [ns[0]] else []) + rest;
      if HasMatch(cards)(ns[0]) {
        assert r == [cards[FindIndex(cards, NumberIs(ns[0])).value]] + r';
        forall k | 0 <= k < |r| ensures FirstCarrier(cards, f[k], r[k]) {
          if k > 0 {
            assert f[k] == rest[k - 1] && r[k] == r'[k - 1];
          }
        }
      } else {
        assert r == r' && f == rest;
      }
    }
  }

  /** Every listed number that some card carries is matched. */
  lemma {:induction false} MatchedCovers(ns: seq<int>, cards: seq<Card>, n: int)
    requires n in ns && HasMatch(cards)(n)
    ensures exists k :: 0 <= k < |Matched(ns, cards)| && Matched(ns, cards)[k].displayId == Some(n)
    decreases |ns|
  {
    var r := Matched(ns, cards);
    if ns[0] == n {
      var i := FindIndex(cards, NumberIs(n)).value;
      assert r[0] == cards[i];
    } else {
      MatchedCovers(ns[1..], cards, n);
      var rest := Matched(ns[1..], cards);
      var k :| 0 <= k < |rest| && rest[k].displayId == Some(n);
      if FindIndex(cards, NumberIs(ns[0])).Some? {
        assert r[k + 1] == rest[k];
      } else {
        assert r[k] == rest[k];
      }
    }
  }

  /** Distinct numbers match distinct cards. */
  lemma {:induction false} MatchedDistinct(ns: seq<int>, cards: seq<Card>)
    requires Distinct(ns)
    ensures Distinct(Matched(ns, cards))
    decreases |ns|
  {
    if |ns| > 0 {
      MatchedDistinct(ns[1..], cards);
      var rest := Matched(ns[1..], cards);
      forall k | 0 <= k < |rest| ensures rest[k].displayId != Some(ns[0]) {
        assert rest[k].displayId.value in ns[1..];
      }
    }
  }

  /** `handleAddByIds`: with a deck selected and a non-empty input, appends the id of the
      first card carrying each listed number, once per number, and reports how many
      numbers matched. Ids already in the deck may be appended again. */
  function AddByIds(deck: Option<Deck>, input: string, allCards: seq<Card>): (r: (Option<Deck>, nat))
    ensures deck.None? || input == "" ==> r == (deck, 0)
    ensures deck.Some? && input != "" ==>
      var matched := Matched(ParseIdList(input), allCards);
      r.0.Some? && r.1 == |matched|
      && r.0.value == deck.value.(cardIds := deck.value.cardIds + Map(matched, CardKey))
  {
    if deck.None? || input == "" then (deck, 0)
    else
      var matched := Matched(ParseIdList(input), allCards);
      (Some(AppendAll(deck.value, Map(matched, CardKey))), |matched|)
  }

  /** `addCard` for each id in turn. */
  function AppendAll(d: Deck, ids: seq<string>): (r: Deck)
    ensures r == d.(cardIds := d.cardIds + ids)
    decreases |ids|
  {
    if |ids| == 0 then d
    else
      assert d.cardIds + [ids[0]] + ids[1..] == d.cardIds + ids;
      AppendAll(AddCard(d, ids[0]), ids[1..])
  }

  /** `deleteCard` for each id in turn. */
  function DeleteAll(st: Store, ids: seq<string>): (r: Store)
    ensures r.decks == st.decks
    ensures forall c :: c in GetCards(r) <==> c in GetCards(st) && c.id !in ids
    ensures forall c :: multiset(GetCards(r))[c] == if c.id in ids then 0 else multiset(GetCards(st))[c]
    ensures IsSubsequence(GetCards(r), GetCards(st))
    decreases |ids|
  {
    if |ids| == 0 then
      SubsequenceRefl(GetCards(st));
      st.(cards := st.cards)
    else
      var next := DeleteCard(st, ids[0]);
      var r := DeleteAll(next, ids[1..]);
      assert forall x :: x in ids <==> x == ids[0] || x in ids[1..];
      SubsequenceTrans(GetCards(r), GetCards(next), GetCards(st));
      r
  }

  /** `handleRemoveByIds`: with a non-empty input and a confirmed prompt, deletes every
      card whose id is the id of the first card carrying a listed number, and reports how
      many numbers matched; the cards are looked up once, before any deletion. */
  function RemoveByIds(st: Store, input: string, confirmed: bool): (r: (Store, nat))
    ensures input == "" || !confirmed ==> r == (st, 0)
    ensures input != "" && confirmed ==>
      var matched := Matched(ParseIdList(input), GetCards(st));
      r.1 == |matched| && r.0.decks == st.decks
      && (forall c :: c in GetCards(r.0) <==> c in GetCards(st) && c.id !in Map(matched, CardKey))
      && (forall c :: multiset(GetCards(r.0))[c] == if c.id in Map(matched, CardKey) then 0 else multiset(GetCards(st))[c])
      && IsSubsequence(GetCards(r.0), GetCards(st))
  {
    if input == "" || !confirmed then (st, 0)
    else
      var matched := Matched(ParseIdList(input), GetCards(st));
      (DeleteAll(st, Map(matched, CardKey)), |matched|)
  }

  // ---- migration ------------------------------------------------------------------

  /** The cards whose displayId is falsy (missing or 0). */
  function Missing(cards: seq<Card>): (n: nat)
    ensures n <= |cards|
  {
    if |cards| == 0 then 0
    else (if HasDisplayId(cards[0].displayId) then 0 else 1) + Missing(cards[1..])
  }

  /** Counting over a prefix: the first card, then the prefix of the rest. */
  lemma MissingOfPrefix(cards: seq<Card>, k: nat)
    requires 1 <= k <= |cards|
    ensures Missing(cards[..k]) == (if HasDisplayId(cards[0].displayId) then 0 else 1) + Missing(cards[1..][..k - 1])
  {
    assert cards[..k][0] == cards[0];
    assert cards[..k][1..] == cards[1..][..k - 1];
  }

  lemma {:induction false} MissingAppend(a: seq<Card>, c: Card)
    ensures Missing(a + [c]) == Missing(a) + if HasDisplayId(c.displayId) then 0 else 1
    decreases |a|
  {
    if |a| > 0 {
      assert (a + [c])[1..] == a[1..] + [c];
      MissingAppend(a[1..], c);
    } else {
      assert (a + [c])[1..] == [];
    }
  }

  /** Numbers the cards lacking a displayId `last + 1, last + 2, ...` in list order. */
  function Assign(cards: seq<Card>, last: int): (r: seq<Card>)
    ensures |r| == |cards|
    ensures forall k :: 0 <= k < |cards| ==>
      r[k] == if HasDisplayId(cards[k].displayId) then cards[k]
              else cards[k].(displayId := Some(last + Missing(cards[..k]) + 1))
    decreases |cards|
  {
    if |cards| == 0 then []
    else
      var step := if HasDisplayId(cards[0].displayId) then 0 else 1;
      var head := if step == 0 then cards[0] else cards[0].(displayId := Some(last + 1));
      var rest := Assign(cards[1..], last + step);
      var r := [head] + rest;
      forall k | 1 <= k < |cards|
        ensures r[k] == if HasDisplayId(cards[k].displayId) then cards[k]
                        else cards[k].(displayId := Some(last + Missing(cards[..k]) + 1))
      {
        assert cards[1..][k - 1] == cards[k];
        MissingOfPrefix(cards, k);
      }
      assert cards[..0] == [];
      r
  }

  /** `after` numbers the cards of `before` that lack a displayId consecutively, in list order,
      starting just above the largest stored number. */
  predicate NumberedInOrder(before: seq<Card>, after: seq<Card>)
  {
    |after| == |before|
    && forall k :: 0 <= k < |before| && !HasDisplayId(before[k].displayId) ==>
      after[k].displayId == Some(MaxDisplayId(before) + Missing(before[..k]) + 1)
  }

  /** `migrateCards`: every card without a truthy displayId gets the next number after the
      largest one, in list order; the store is written only when some card was numbered.
      The count is the number of cards numbered. */
  function MigrateCards(st: Store): (r: (Store, nat))
    ensures r.1 == Missing(GetCards(st)) && r.0.decks == st.decks
    ensures r.1 == 0 ==> r.0 == st
    ensures |GetCards(r.0)| == |GetCards(st)|
    ensures forall k :: 0 <= k < |GetCards(st)| ==>
      GetCards(r.0)[k] == GetCards(st)[k].(displayId := GetCards(r.0)[k].displayId)
      && HasDisplayId(GetCards(r.0)[k].displayId)
    ensures forall k :: 0 <= k < |GetCards(st)| && HasDisplayId(GetCards(st)[k].displayId) ==>
      GetCards(r.0)[k] == GetCards(st)[k]
    ensures forall k :: 0 <= k < |GetCards(st)| && !HasDisplayId(GetCards(st)[k].displayId) ==>
      GetCards(r.0)[k].displayId.Some?
      && forall c :: c in GetCards(st) && c.displayId.Some? ==> c.displayId.value < GetCards(r.0)[k].displayId.value
    ensures NumberedInOrder(GetCards(st), GetCards(r.0))
  {
    var cards := GetCards(st);
    var out := Assign(cards, MaxDisplayId(cards));
    AssignInOrder(cards);
    if Missing(cards) > 0 then (st.(cards := Some(out)), Missing(cards))
    else
      AllNumbered(cards);
      (st, 0)
  }

  /** `Assign` from the largest stored number numbers the cards in order. */
  lemma AssignInOrder(cards: seq<Card>)
    ensures NumberedInOrder(cards, Assign(cards, MaxDisplayId(cards)))
  {
  }

  /** Without falsy displayIds there is nothing to number. */
  lemma {:induction false} AllNumbered(cards: seq<Card>)
    requires Missing(cards) == 0
    ensures forall c :: c in cards ==> HasDisplayId(c.displayId)
    decreases |cards|
  {
    if |cards| > 0 {
      AllNumbered(cards[1..]);
    }
  }

  /** Cards all carrying truthy displayIds are not counted as missing. */
  lemma {:induction false} NoneMissing(cards: seq<Card>)
    requires forall c :: c in cards ==> HasDisplayId(c.displayId)
    ensures Missing(cards) == 0
    decreases |cards|
  {
    if |cards| > 0 {
      assert cards[0] in cards;
      assert forall c :: c in cards[1..] ==> c in cards;
      NoneMissing(cards[1..]);
    }
  }

  /** Migration is idempotent: a second run numbers nothing and changes nothing. */
  lemma MigrateIdempotent(st: Store)
    ensures MigrateCards(MigrateCards(st).0) == (MigrateCards(st).0, 0)
  {
    var once := MigrateCards(st).0;
    NoneMissing(GetCards(once));
  }

  /** The numbers migration hands out are pairwise different. */
  lemma MigratedNumbersDistinct(st: Store, i: nat, j: nat)
    requires i < j < |GetCards(st)|
    requires !HasDisplayId(GetCards(st)[i].displayId) && !HasDisplayId(GetCards(st)[j].displayId)
    ensures GetCards(MigrateCards(st).0)[i].displayId != GetCards(MigrateCards(st).0)[j].displayId
  {
    var cards := GetCards(st);
    assert cards[..j] == cards[..i] + cards[i..j];
    MissingSplit(cards[..i], cards[i..j]);
    MissingPositive(cards[i..j]);
  }

  lemma {:induction false} MissingSplit(a: seq<Card>, b: seq<Card>)
    ensures Missing(a + b) == Missing(a) + Missing(b)
    decreases |a|
  {
    if |a| > 0 {
      assert (a + b)[1..] == a[1..] + b;
      MissingSplit(a[1..], b);
    } else {
      assert a + b == b;
    }
  }

  lemma MissingPositive(s: seq<Card>)
    requires |s| > 0 && !HasDisplayId(s[0].displayId)
    ensures Missing(s) >= 1
  {
  }

  // ---- creating cards -----------------------------------------------------------

  /** The tag test `t => t` (non-empty). */
  function NonEmpty(t: string): bool
  {
    t != ""
  }

  /** A well-formed tag: non-empty, comma-free, with no white space at either end. */
  predicate IsTag(t: string)
  {
    t != "" && ',' !in t && !IsSpace(t[0]) && !IsSpace(t[|t| - 1])
  }

  /** A comma-free piece trims to a tag or to the empty string. */
  lemma TrimmedPiece(p: string)
    requires ',' !in p
    ensures Trim(p) == "" || IsTag(Trim(p))
  {
    TrimSpec(p);
    TrimIsInfix(p);
  }

  /** The tag box of `handleCreateCard`: split at commas, trim, drop empty tags. */
  function ParseTags(s: string): (tags: seq<string>)
    ensures forall t :: t in tags ==> IsTag(t)
  {
    var parts := Split(s, ',');
    var pieces := Map(parts, Trim);
    forall k | 0 <= k < |pieces| ensures pieces[k] == "" || IsTag(pieces[k]) {
      TrimmedPiece(parts[k]);
    }
    Filter(pieces, NonEmpty)
  }

  /** Joining trimmed, non-empty, comma-free tags with commas and parsing them back gives
      the same tags. */
  lemma ParseTagsOfJoin(tags: seq<string>)
    requires forall t :: t in tags ==> IsTag(t)
    ensures ParseTags(Join(tags, ',')) == tags
  {
    if |tags| == 0 {
      assert Split("", ',') == [""];
      assert Map([""], Trim) == [Trim("")];
      assert Filter([""], NonEmpty) == [];
    } else {
      forall i | 0 <= i < |tags| ensures ',' !in tags[i] {
        assert tags[i] in tags;
      }
      SplitJoin(tags, ',');
      forall k | 0 <= k < |tags| ensures Trim(tags[k]) == tags[k] {
        assert tags[k] in tags;
        TrimKeepsTrimmed(tags[k]);
      }
      assert Map(tags, Trim) == tags;
      FilterAll(tags, NonEmpty);
    }
  }

  /** The tag field of a bulk-import line: split at commas and trimmed, empties kept. */
  function BulkTags(s: string): (tags: seq<string>)
    ensures |tags| == multiset(s)[','] + 1
  {
    Map(Split(s, ','), Trim)
  }

  /** The create form drops the empty tags the bulk import keeps: `","` gives no tags in
      one and two empty tags in the other. */
  lemma TagParsersDiffer()
    ensures ParseTags(",") == []
    ensures BulkTags(",") == ["", ""]
  {
    assert Join(["", ""], ',') == ",";
    SplitJoin(["", ""], ',');
    TrimKeepsTrimmed("");
    assert Map(["", ""], Trim) == ["", ""];
    assert Filter(["", ""], NonEmpty) == [];
  }

  /** `handleCreateCard`: saves a new card with the parsed tags; it is appended with the
      next display number when the generated id is new. */
  function CreateCard(st: Store, name: string, mechanicalText: string, flavorText: string, tagText: string, newId: string): (r: Store)
    ensures r.decks == st.decks
    ensures newId != "" && newId !in Keys(GetCards(st), CardKey) ==>
      GetCards(r) == GetCards(st) + [Card(newId, Some(MaxDisplayId(GetCards(st)) + 1), name, mechanicalText, flavorText, ParseTags(tagText))]
  {
    var card := NewCard(None, name, mechanicalText, flavorText, Some(ParseTags(tagText)), None, newId);
    assert card == Card(newId, None, name, mechanicalText, flavorText, ParseTags(tagText));
    KeyAbsentNoIndex(GetCards(st), newId);
    if newId != "" && newId !in Keys(GetCards(st), CardKey) then
      SaveNewCard(st, card);
      SaveCard(st, card)
    else
      SaveCard(st, card)
  }

  /** An id missing from the keys has no stored position. */
  lemma KeyAbsentNoIndex(cards: seq<Card>, id: string)
    ensures id !in Keys(cards, CardKey) ==> CardIndex(cards, id).None?
  {
    forall i | 0 <= i < |cards| ensures Keys(cards, CardKey)[i] == cards[i].id {
    }
  }

  /** The fields of one bulk-import line, `Name | Mechanical Text | Flavor Text | Tags`. */
  datatype Row = Row(name: string, mechanicalText: string, flavorText: string, tags: seq<string>)

  /** `parts[k] ? parts[k].trim() : ''`. */
  function Field(parts: seq<string>, k: nat): (f: string)
    ensures k >= |parts| || parts[k] == "" ==> f == ""
    ensures k < |parts| && parts[k] != "" ==> f == Trim(parts[k])
  {
    if k < |parts| && parts[k] != "" then Trim(parts[k]) else ""
  }

  /** Splits a line at '|' into its fields; missing or empty fields read as "", and the
      tags are read only from a non-empty fourth field. */
  function ParseLine(line: string): (row: Row)
    ensures row.name == Field(Split(line, '|'), 0)
  {
    var parts := Split(line, '|');
    Row(Field(parts, 0), Field(parts, 1), Field(parts, 2),
        if 3 < |parts| && parts[3] != "" then BulkTags(parts[3]) else [])
  }

  /** A line without '|' is just a name. */
  lemma NameOnlyLine(line: string)
    requires '|' !in line
    ensures ParseLine(line) == Row(if line == "" then "" else Trim(line), "", "", [])
  {
    assert IndexOf(line, '|') == None;
    assert Split(line, '|') == [line];
  }

  /** The lines the bulk import reads: those that are not blank. */
  function NonBlank(line: string): bool
  {
    Trim(line) != ""
  }

  /** The rows the bulk import reads: one per non-blank line of the text, in order. */
  function Rows(text: string): (rows: seq<Row>)
    ensures |rows| == |Filter(Split(text, '\n'), NonBlank)|
  {
    Map(Filter(Split(text, '\n'), NonBlank), ParseLine)
  }

  /** The rows producing a card: a non-empty name field. */
  function HasName(row: Row): bool
  {
    row.name != ""
  }

  /** The card a named row creates before it is saved: no display number yet. */
  function LineCard(row: Row, id: string): (c: Card)
    ensures c == Card(id, None, row.name, row.mechanicalText, row.flavorText, row.tags)
  {
    NewCard(None, row.name, row.mechanicalText, row.flavorText, Some(row.tags), None, id)
  }

  /** The unsaved cards of rows, in order; the `i`-th draws `newIds(k + i)`. */
  function RowCards(rows: seq<Row>, newIds: nat -> string, k: nat): (r: seq<Card>)
    ensures |r| == |rows|
    ensures forall i :: 0 <= i < |r| ==> r[i] == LineCard(rows[i], newIds(k + i))
    decreases |rows|
  {
    if |rows| == 0 then []
    else [LineCard(rows[0], newIds(k))] + RowCards(rows[1..], newIds, k + 1)
  }

  /** `handleBulkImport`: every named row of the non-blank lines becomes a new card and is
      saved, in order, the `i`-th drawing the generated id `newIds(i)`; the count is the
      number of cards created. */
  function BulkImport(st: Store, text: string, newIds: nat -> string): (r: (Store, nat))
    ensures r.1 == |Filter(Rows(text), HasName)| && r.0.decks == st.decks
  {
    var named := Filter(Rows(text), HasName);
    (SaveCards(st, RowCards(named, newIds, 0)), |named|)
  }

  /** The generated ids belong to no stored card. */
  ghost predicate FreshFrom(cards: seq<Card>, newIds: nat -> string)
  {
    forall j: nat :: newIds(j) !in Keys(cards, CardKey)
  }

  /** The generated ids are pairwise different. */
  ghost predicate Injective(newIds: nat -> string)
  {
    forall i: nat, j: nat :: i < j ==> newIds(i) != newIds(j)
  }

  /** Fresh, pairwise different generated ids make the row cards new. */
  lemma RowCardsAllNew(cards: seq<Card>, rows: seq<Row>, newIds: nat -> string)
    requires FreshFrom(cards, newIds) && Injective(newIds)
    ensures AllNew(cards, RowCards(rows, newIds, 0))
  {
    var p := RowCards(rows, newIds, 0);
    forall i | 0 <= i < |p| ensures CardIndex(cards, p[i].id).None? {
      assert p[i].id == newIds(i);
      KeyAbsentNoIndex(cards, newIds(i));
    }
    forall i, j | 0 <= i < j < |p| ensures p[i].id != p[j].id {
      assert p[i].id == newIds(i) && p[j].id == newIds(j);
    }
  }

  /** The cards a bulk import creates from its named rows over a library whose largest
      display number is `m`: the `i`-th carries the row's fields, the `i`-th generated id
      and display number `m + 1 + i`. */
  function Created(rows: seq<Row>, newIds: nat -> string, m: int): (cs: seq<Card>)
    ensures |cs| == |rows|
    ensures forall i :: 0 <= i < |rows| ==>
      cs[i] == Card(newIds(i), Some(m + 1 + i), rows[i].name, rows[i].mechanicalText, rows[i].flavorText, rows[i].tags)
  {
    Numbered(RowCards(rows, newIds, 0), m)
  }

  /** `handleBulkImport` over fresh, pairwise different generated ids keeps the stored
      cards and appends exactly the cards its named rows create, in order. */
  lemma BulkImportAppends(st: Store, text: string, newIds: nat -> string)
    requires FreshFrom(GetCards(st), newIds) && Injective(newIds)
    ensures GetCards(BulkImport(st, text, newIds).0)
      == GetCards(st) + Created(Filter(Rows(text), HasName), newIds, MaxDisplayId(GetCards(st)))
  {
    var named := Filter(Rows(text), HasName);
    RowCardsAllNew(GetCards(st), named, newIds);
    SaveNewCards(st, RowCards(named, newIds, 0));
  }

  // ---- the library view ---------------------------------------------------------

  /** The sort key `c.displayId || 0`. */
  function DisplayKey(c: Card): int
  {
    OrZero(c.displayId)
  }

  /** The search and tag filters on already lower-cased inputs: the lower-cased name
      contains the search text, and either the tag filter is empty or some lower-cased tag
      contains it. */
  function Shown(search: string, tag: string): Card -> bool
  {
    (c: Card) => Contains(Lower(c.name), search)
      && (tag == "" || exists i :: 0 <= i < |c.tags| && Contains(Lower(c.tags[i]), tag))
  }

  /** `renderLibrary`'s list: the cards stably sorted by display number, then filtered. */
  function LibraryView(cards: seq<Card>, search: string, tag: string): (r: seq<Card>)
    ensures SortedBy(r, DisplayKey)
    ensures forall c :: c in r <==> c in cards && Shown(Lower(search), Lower(tag))(c)
    ensures multiset(r) == multiset(Filter(cards, Shown(Lower(search), Lower(tag))))
  {
    var p := Shown(Lower(search), Lower(tag));
    var sorted := SortBy(cards, DisplayKey);
    FilterSorted(sorted, DisplayKey, p);
    var r := Filter(sorted, p);
    forall c ensures multiset(r)[c] == multiset(Filter(cards, p))[c] {
      FilterMultiset(sorted, p, c);
      FilterMultiset(cards, p, c);
    }
    assert forall c :: c in sorted <==> c in cards by {
      forall c ensures c in sorted <==> c in cards {
        assert c in sorted <==> c in multiset(sorted);
        assert c in cards <==> c in multiset(cards);
      }
    }
    r
  }

  /** The card test "display number `v`". */
  function KeyIs(v: int): Card -> bool
  {
    (c: Card) => DisplayKey(c) == v
  }

  /** Cards sharing a display number keep their stored order in the view. */
  lemma LibraryViewStable(cards: seq<Card>, search: string, tag: string, v: int)
    ensures Filter(LibraryView(cards, search, tag), KeyIs(v))
         == Filter(Filter(cards, Shown(Lower(search), Lower(tag))), KeyIs(v))
  {
    var p := Shown(Lower(search), Lower(tag));
    var sorted := SortBy(cards, DisplayKey);
    FilterCommute(sorted, p, KeyIs(v));
    SortByStable(cards, DisplayKey, KeyIs(v), v);
    FilterCommute(cards, KeyIs(v), p);
  }

  /** With both filters empty the view is the whole library in display-number order. */
  lemma EmptyFiltersShowAll(cards: seq<Card>)
    ensures LibraryView(cards, "", "") == SortBy(cards, DisplayKey)
  {
    assert Lower("") == "";
    forall c | c in SortBy(cards, DisplayKey) ensures Shown("", "")(c) {
      assert "" <= Lower(c.name)[0..];
    }
    FilterAll(SortBy(cards, DisplayKey), Shown("", ""));
  }

  // ---- the selected deck --------------------------------------------------------

  /** `addToDeck`: appends the id to the selected deck; nothing happens without one. */
  function AddToDeck(deck: Option<Deck>, cardId: string): (r: Option<Deck>)
    ensures deck.None? ==> r.None?
    ensures deck.Some? ==> r == Some(deck.value.(cardIds := deck.value.cardIds + [cardId]))
  {
    if deck.None? then None else Some(AddCard(deck.value, cardId))
  }

  /** `removeFromDeck(index)`: `splice(index, 1)` on the selected deck's ids; an index past
      the end removes nothing. */
  function RemoveFromDeck(deck: Option<Deck>, index: nat): (r: Option<Deck>)
    ensures deck.None? ==> r.None?
    ensures deck.Some? && index >= |deck.value.cardIds| ==> r == deck
    ensures deck.Some? && index < |deck.value.cardIds| ==>
      var ids := deck.value.cardIds;
      r.Some? && r.value == deck.value.(cardIds := r.value.cardIds)
      && |r.value.cardIds| == |ids| - 1
      && (forall k :: 0 <= k < index ==> r.value.cardIds[k] == ids[k])
      && (forall k :: index <= k < |ids| - 1 ==> r.value.cardIds[k] == ids[k + 1])
  {
    if deck.None? then None
    else
      var ids := deck.value.cardIds;
      if index >= |ids| then deck
      else Some(deck.value.(cardIds := ids[..index] + ids[index + 1..]))
  }

  /** Putting the removed id back at its index restores the deck. */
  lemma RemoveFromDeckReinsert(d: Deck, index: nat)
    requires index < |d.cardIds|
    ensures var r := RemoveFromDeck(Some(d), index).value.cardIds;
      r[..index] + [d.cardIds[index]] + r[index..] == d.cardIds
  {
    var r := RemoveFromDeck(Some(d), index).value.cardIds;
    assert r[..index] == d.cardIds[..index];
    assert r[index..] == d.cardIds[index + 1..];
    assert d.cardIds == d.cardIds[..index] + [d.cardIds[index]] + d.cardIds[index + 1..];
  }
}

=== FILE: cards.dfy ===
/** Library cards (`js/models/Card.js`): the constructor's defaults and the field-preserving
    `fromJSON`. */
module Cards {
  import opened Wrappers
  import opened Ids

  /** A card. `displayId` is the short number shown as "#n" (`None` models `null`). */
  datatype Card = Card(
    id: string,
    displayId: Option<int>,
    name: string,
    mechanicalText: string,
    flavorText: string,
    tags: seq<string>)

  /** A parsed card object whose optional fields may be missing (`None`). */
  datatype CardJson = CardJson(
    id: Option<string>,
    name: string,
    mechanicalText: string,
    flavorText: string,
    tags: Option<seq<string>>,
    displayId: Option<int>)

  /** `card.displayId || 0`: missing and zero both read as 0. */
  function OrZero(displayId: Option<int>): int
  {
    displayId.GetOr(0)
  }

  /** `displayId` is truthy: present and non-zero. */
  predicate HasDisplayId(displayId: Option<int>)
  {
    displayId.Some? && displayId.value != 0
  }

  /** `new Card(id, name, mechanicalText, flavorText, tags, displayId)`: the text fields are
      stored as given, missing tags become the empty list, a missing displayId stays
      missing, and a falsy id is replaced by `newId`. */
  function NewCard(id: Option<string>, name: string, mechanicalText: string, flavorText: string,
                   tags: Option<seq<string>>, displayId: Option<int>, newId: string): (c: Card)
    ensures id.Some? && id.value != "" ==> c.id == id.value
    ensures id.None? || id.value == "" ==> c.id == newId
    ensures c.name == name && c.mechanicalText == mechanicalText && c.flavorText == flavorText
    ensures tags.None? ==> c.tags == []
    ensures tags.Some? ==> c.tags == tags.value
    ensures c.displayId == displayId
  {
    Card(IdOrFresh(id, newId), displayId, name, mechanicalText, flavorText, tags.GetOr([]))
  }

  /** `Card.fromJSON`: passes every field to the constructor, so a stored object keeps its
      id unless that id is missing or empty, and missing tags read as none. */
  function FromJson(j: CardJson, newId: string): (c: Card)
    ensures j.id.Some? && j.id.value != "" ==> c.id == j.id.value
    ensures j.id.None? || j.id.value == "" ==> c.id == newId
    ensures c.name == j.name && c.mechanicalText == j.mechanicalText && c.flavorText == j.flavorText
    ensures j.tags.None? ==> c.tags == []
    ensures j.tags.Some? ==> c.tags == j.tags.value
    ensures c.displayId == j.displayId
  {
    NewCard(j.id, j.name, j.mechanicalText, j.flavorText, j.tags, j.displayId, newId)
  }

  /** The object a card serializes to: every field present. */
  function ToJson(c: Card): (j: CardJson)
    ensures j.id == Some(c.id) && j.tags == Some(c.tags) && j.displayId == c.displayId
    ensures j.name == c.name && j.mechanicalText == c.mechanicalText && j.flavorText == c.flavorText
  {
    CardJson(Some(c.id), c.name, c.mechanicalText, c.flavorText, Some(c.tags), c.displayId)
  }

  /** Rebuilding a card from its own fields gives the same card whenever its id is
      non-empty; no fresh id is drawn. */
  lemma FromJsonOfToJson(c: Card, newId: string)
    requires c.id != ""
    ensures FromJson(ToJson(c), newId) == c
  {
  }

  /** Conversely, a parsed object with every field present and a non-empty id survives a
      trip through a card unchanged. */
  lemma ToJsonOfFromJson(j: CardJson, newId: string)
    requires j.id.Some? && j.id.value != "" && j.tags.Some?
    ensures ToJson(FromJson(j, newId)) == j
  {
  }

  /** A card created without an id or with the empty one gets the fresh id `newId` and no
      displayId when none is given. */
  lemma NewCardDefaults(name: string, mechanicalText: string, flavorText: string, newId: string)
    ensures var c := NewCard(None, name, mechanicalText, flavorText, None, None, newId);
      c.id == newId && c.tags == [] && c.displayId.None?
    ensures NewCard(Some(""), name, mechanicalText, flavorText, None, None, newId).id == newId
  {
  }
}

=== FILE: decks.dfy ===
/** Decks (`js/models/Deck.js`): the constructor's defaults, `fromJSON`, appending,
    removing the first occurrence, and the Fisher-Yates shuffle with its random indices
    supplied as an oracle sequence. */
module Decks {
  import opened Wrappers
  import opened Seqs
  import opened Ids

  /** The colour a deck gets when none is given. */
  const DefaultColor: string := "#34495e"

  /** A deck: an ordered list of card ids, the front being the top of the deck. */
  datatype Deck = Deck(id: string, name: string, cardIds: seq<string>, color: string)

  /** A parsed deck object whose optional fields may be missing (`None`). */
  datatype DeckJson = DeckJson(id: Option<string>, name: string, cardIds: Option<seq<string>>, color: Option<string>)

  /** `new Deck(id, name, cardIds, color)`: missing card ids become the empty list, a
      missing colour becomes `DefaultColor` (an empty colour string is kept), and a falsy
      id is replaced by `newId`. */
  function NewDeck(id: Option<string>, name: string, cardIds: Option<seq<string>>, color: Option<string>, newId: string): (d: Deck)
    ensures id.Some? && id.value != "" ==> d.id == id.value
    ensures id.None? || id.value == "" ==> d.id == newId
    ensures d.name == name
    ensures cardIds.None? ==> d.cardIds == []
    ensures cardIds.Some? ==> d.cardIds == cardIds.value
    ensures color.None? ==> d.color == DefaultColor
    ensures color.Some? ==> d.color == color.value
  {
    Deck(IdOrFresh(id, newId), name, cardIds.GetOr([]), color.GetOr(DefaultColor))
  }

  /** `Deck.fromJSON`: passes every field to the constructor, so a stored object keeps its
      id unless that id is missing or empty, missing card ids read as an empty deck and a
      missing colour as `DefaultColor`. */
  function FromJson(j: DeckJson, newId: string): (d: Deck)
    ensures j.id.Some? && j.id.value != "" ==> d.id == j.id.value
    ensures j.id.None? || j.id.value == "" ==> d.id == newId
    ensures d.name == j.name
    ensures j.cardIds.None? ==> d.cardIds == []
    ensures j.cardIds.Some? ==> d.cardIds == j.cardIds.value
    ensures j.color.None? ==> d.color == DefaultColor
    ensures j.color.Some? ==> d.color == j.color.value
  {
    NewDeck(j.id, j.name, j.cardIds, j.color, newId)
  }

  /** The object a deck serializes to: every field present. */
  function ToJson(d: Deck): (j: DeckJson)
    ensures j.id == Some(d.id) && j.name == d.name && j.cardIds == Some(d.cardIds) && j.color == Some(d.color)
  {
    DeckJson(Some(d.id), d.name, Some(d.cardIds), Some(d.color))
  }

  /** Rebuilding a deck from its own fields gives the same deck whenever its id is
      non-empty. This is the copy the table makes of a stored deck. */
  lemma FromJsonOfToJson(d: Deck, newId: string)
    requires d.id != ""
    ensures FromJson(ToJson(d), newId) == d
  {
  }

  /** `addCard`: appends the id; the ids already there keep their places. */
  function AddCard(d: Deck, cardId: string): (r: Deck)
    ensures r.id == d.id && r.name == d.name && r.color == d.color
    ensures |r.cardIds| == |d.cardIds| + 1
    ensures r.cardIds[..|d.cardIds|] == d.cardIds && r.cardIds[|d.cardIds|] == cardId
    ensures multiset(r.cardIds) == multiset(d.cardIds) + multiset{cardId}
  {
    d.(cardIds := d.cardIds + [cardId])
  }

  /** `removeCard`: removes the first occurrence of the id, if any. */
  function RemoveCard(d: Deck, cardId: string): (r: Deck)
    ensures r.id == d.id && r.name == d.name && r.color == d.color
    ensures cardId !in d.cardIds ==> r == d
    ensures cardId in d.cardIds ==> exists i :: (0 <= i < |d.cardIds| && d.cardIds[i] == cardId
      && cardId !in d.cardIds[..i] && r.cardIds == d.cardIds[..i] + d.cardIds[i + 1..])
    ensures multiset(r.cardIds) == multiset(d.cardIds) - multiset{cardId}
  {
    match IndexOf(d.cardIds, cardId)
    case None => d
    case Some(i) =>
      var ids := d.cardIds;
      assert ids == ids[..i] + [ids[i]] + ids[i + 1..];
      d.(cardIds := ids[..i] + ids[i + 1..])
  }

  /** Removing an id that was just appended to a deck not holding it restores the deck. */
  lemma RemoveUndoesAdd(d: Deck, cardId: string)
    requires cardId !in d.cardIds
    ensures RemoveCard(AddCard(d, cardId), cardId) == d
  {
    var ids := d.cardIds + [cardId];
    IndexOfAfterPrefix(d.cardIds, cardId, []);
    assert ids == d.cardIds + [cardId] + [];
    assert ids[..|d.cardIds|] + ids[|d.cardIds| + 1..] == d.cardIds;
  }

  /** Removing keeps the other ids in their order. */
  lemma RemoveKeepsOrder(d: Deck, cardId: string)
    ensures IsSubsequence(RemoveCard(d, cardId).cardIds, d.cardIds)
  {
    match IndexOf(d.cardIds, cardId)
    case None =>
      SubsequenceRefl(d.cardIds);
    case Some(i) =>
      SubsequenceDropOne(d.cardIds, i);
  }

  // ---- shuffle ----------------------------------------------------------------

  /** Random indices for a shuffle of `n` ids: `js[i]` stands for
      `Math.floor(Math.random() * (i + 1))`, so it lies in `[0, i]`. `js[0]` is never used. */
  predicate ValidSwaps(js: seq<nat>, n: nat)
  {
    |js| == n && forall i :: 0 <= i < n ==> js[i] <= i
  }

  /** Exchanges positions `i` and `j`. */
  function Swap<T>(s: seq<T>, i: nat, j: nat): (r: seq<T>)
    requires i < |s| && j < |s|
    ensures |r| == |s| && r[i] == s[j] && r[j] == s[i]
    ensures forall k :: 0 <= k < |s| && k != i && k != j ==> r[k] == s[k]
    ensures multiset(r) == multiset(s)
  {
    s[i := s[j]][j := s[i]]
  }

  /** The Fisher-Yates trace over the first `n` positions: swap position `n - 1` with
      `js[n - 1]`, then shuffle the first `n - 1` positions. */
  function FisherYates(s: seq<string>, js: seq<nat>, n: nat): (r: seq<string>)
    requires n <= |s| && |js| == |s| && forall i :: 0 <= i < n ==> js[i] <= i
    ensures |r| == |s| && multiset(r) == multiset(s)
    ensures forall k :: n <= k < |s| ==> r[k] == s[k]
    decreases n
  {
    if n <= 1 then s
    else FisherYates(Swap(s, n - 1, js[n - 1]), js, n - 1)
  }

  /** `shuffle`: the downward loop, swapping position `i` with `js[i]` for `i` from the last
      position down to 1. */
  method Shuffle(d: Deck, js: seq<nat>) returns (r: Deck)
    requires ValidSwaps(js, |d.cardIds|)
    ensures r.id == d.id && r.name == d.name && r.color == d.color
    ensures |r.cardIds| == |d.cardIds| && multiset(r.cardIds) == multiset(d.cardIds)
    ensures r.cardIds == FisherYates(d.cardIds, js, |d.cardIds|)
  {
    var ids := d.cardIds;
    var i := |ids| - 1;
    while i > 0
      invariant -1 <= i < |ids| || (|ids| == 0 && i == -1)
      invariant |ids| == |d.cardIds|
      invariant FisherYates(ids, js, if i < 0 then 0 else i + 1) == FisherYates(d.cardIds, js, |d.cardIds|)
      decreases i
    {
      ids := Swap(ids, i, js[i]);
      i := i - 1;
    }
    r := d.(cardIds := ids);
  }

  /** Decks of at most one card come back unchanged. */
  lemma ShortDeckUnchanged(s: seq<string>, js: seq<nat>)
    requires |s| <= 1 && ValidSwaps(js, |s|)
    ensures FisherYates(s, js, |s|) == s
  {
  }

  /** The first swap fixes the last position for good: the id that ends at the bottom of
      the deck is the one the oracle picked first. */
  lemma LastPositionPickedFirst(s: seq<string>, js: seq<nat>)
    requires |s| >= 2 && ValidSwaps(js, |s|)
    ensures FisherYates(s, js, |s|)[|s| - 1] == s[js[|s| - 1]]
  {
  }

  /** A concrete trace: with indices [0, 0, 1] the deck [a, b, c] becomes [c, a, b]. */
  lemma ShuffleExample()
    ensures FisherYates(["a", "b", "c"], [0, 0, 1], 3) == ["c", "a", "b"]
  {
    assert Swap(["a", "b", "c"], 2, 1) == ["a", "c", "b"];
    assert Swap(["a", "c", "b"], 1, 0) == ["c", "a", "b"];
  }
}

=== FILE: drag.dfy ===
/** The drag engine of the table (`DragManager`): arming a drag on mouse-down, the 5 px
    start threshold, the stack of cards that travels with the grabbed one, lifting that
    stack to the top of the z-order, following the pointer under zoom, and snapping the
    dropped stack onto the card it mostly covers.

    Elements are identified by their position in the table (document order of the
    `.draggable` elements). Their bounding boxes are an input sampled when an event is
    handled, one box per element; the CSS position (`style.left`/`style.top`) and the
    z-index are the element's own state. */
module Drag {
  import opened Wrappers
  import opened Seqs
  import opened Sorting
  import opened Geometry
  import opened ZIndex

  /** A draggable element: its CSS position inside the zoomed content and its z-index. */
  datatype Element = Element(left: real, top: real, z: int)

  /** The zoom factor; the table keeps it within [0.5, 2], so it is always positive. */
  type Scale = r: real | r > 0.0 witness 1.0

  /** Screen coordinates of the pointer (`clientX`, `clientY`). */
  datatype Pointer = Pointer(x: real, y: real)

  /** A dragged element with the pointer-to-corner offset captured when the drag started
      (the element's `dataset.offsetX` / `dataset.offsetY`). */
  datatype Grip = Grip(el: nat, offsetX: real, offsetY: real)

  /** The manager's fields: the armed element, the mouse-down point, whether a drag is
      under way, the dragged stack and the zoom. */
  datatype DragState = DragState(
    potential: Option<nat>,
    startX: real,
    startY: real,
    isDragging: bool,
    dragged: seq<Grip>,
    scale: Scale)

  /** The elements of a dragged stack, in stack order. */
  function Members(grips: seq<Grip>): (r: seq<nat>)
    ensures |r| == |grips|
    ensures forall k :: 0 <= k < |grips| ==> r[k] == grips[k].el
  {
    seq(|grips|, k requires 0 <= k < |grips| => grips[k].el)
  }

  /** Every element the state refers to exists in a table of `n` elements, the dragged
      elements are distinct, and a drag under way has at least one dragged element. */
  predicate Consistent(s: DragState, n: nat)
  {
    && (s.potential.Some? ==> s.potential.value < n)
    && (forall k :: 0 <= k < |s.dragged| ==> s.dragged[k].el < n)
    && Distinct(Members(s.dragged))
    && (s.isDragging ==> |s.dragged| > 0 && s.potential.None?)
  }

  /** The constructor: nothing armed or dragged, zoom 1; it also initialises the shared
      z-index counter. */
  function Create(g: Counter): (r: (DragState, Counter))
    ensures Consistent(r.0, 0) && !r.0.isDragging && r.0.potential.None? && |r.0.dragged| == 0
    ensures g == 0 ==> r.1 == Base
    ensures g != 0 ==> r.1 == g
  {
    (DragState(None, 0.0, 0.0, false, [], 1.0), Init(g))
  }

  /** `setScale`. */
  function SetScale(s: DragState, scale: Scale): (r: DragState)
    ensures r.scale == scale
    ensures r.(scale := s.scale) == s
  {
    s.(scale := scale)
  }

  // ---- mouse-down -----------------------------------------------------------

  /** `handleMouseDown`. `target` is the `.draggable` ancestor of the pressed node, if any;
      `onButton` says whether the pressed node itself is a BUTTON. Only a press on a
      draggable that is not a button arms a drag; arming records the press point and
      moves nothing. */
  function MouseDown(s: DragState, target: Option<nat>, onButton: bool, p: Pointer): (r: DragState)
    ensures target.None? || onButton ==> r == s
    ensures target.Some? && !onButton ==>
      r.potential == target && r.startX == p.x && r.startY == p.y && !r.isDragging
    ensures r.dragged == s.dragged && r.scale == s.scale
  {
    if target.None? then s
    else if onButton then s
    else s.(potential := target, startX := p.x, startY := p.y, isDragging := false)
  }

  /** Arming an element of the table keeps the state consistent. */
  lemma MouseDownKeepsConsistent(s: DragState, target: Option<nat>, onButton: bool, p: Pointer, n: nat)
    requires Consistent(s, n) && (target.Some? ==> target.value < n)
    ensures Consistent(MouseDown(s, target, onButton, p), n)
  {
  }

  /** `Math.sqrt(dx * dx + dy * dy) > 5`, squared on both sides (the square root of a
      non-negative number exceeds 5 exactly when the number exceeds 25). */
  predicate BeyondThreshold(s: DragState, p: Pointer)
  {
    var dx, dy := p.x - s.startX, p.y - s.startY;
    dx * dx + dy * dy > 25.0
  }

  // ---- the stack ------------------------------------------------------------

  /** `parseInt(el.style.zIndex || 0)` as a sort key over element positions. */
  function ZKey(table: seq<Element>): nat -> int
  {
    (i: nat) => if i < |table| then table[i].z else 0
  }

  /** Element `c` lies strictly above `base` in the z-order. */
  predicate Above(table: seq<Element>, base: nat, c: nat)
  {
    base < |table| && c < |table| && table[c].z > table[base].z
  }

  function AboveOf(table: seq<Element>, base: nat): nat -> bool
  {
    (c: nat) => Above(table, base, c)
  }

  /** The positions 0, 1, ..., n - 1. */
  function Indices(n: nat): (r: seq<nat>)
    ensures |r| == n && Distinct(r)
    ensures forall i :: 0 <= i < n ==> r[i] == i
  {
    seq(n, i requires 0 <= i < n => i)
  }

  /** All elements sorted by z-index, keeping those strictly above the base: the
      candidates `getStack` visits, in the order it visits them. */
  function Candidates(table: seq<Element>, base: nat): (cands: seq<nat>)
    requires base < |table|
    ensures Distinct(cands)
    ensures forall c :: c in cands <==> Above(table, base, c)
    ensures SortedBy(cands, ZKey(table))
  {
    var all := Indices(|table|);
    var sorted := SortBy(all, ZKey(table));
    DistinctPermutation(all, sorted);
    FilterDistinct(sorted, AboveOf(table, base));
    FilterSorted(sorted, ZKey(table), AboveOf(table, base));
    assert forall c :: c in sorted <==> c in all by {
      forall c ensures c in sorted <==> c in all {
        assert c in sorted <==> c in multiset(sorted);
        assert c in all <==> c in multiset(all);
      }
    }
    assert forall c: nat :: c < |table| ==> c in all by {
      forall c: nat | c < |table| ensures c in all { assert all[c] == c; }
    }
    Filter(sorted, AboveOf(table, base))
  }

  /** `stack.some(m => isSignificantOverlap(m, c))`: some member significantly covers `c`. */
  predicate OverlapsAny(boxes: seq<Rect>, stack: seq<nat>, c: nat)
  {
    exists k :: 0 <= k < |stack| && stack[k] < |boxes| && c < |boxes|
      && IsSignificantOverlap(boxes[stack[k]], boxes[c])
  }

  /** Every member after the first is significantly covered by a member before it. */
  predicate Supported(boxes: seq<Rect>, stack: seq<nat>)
  {
    forall k :: 1 <= k < |stack| ==> OverlapsAny(boxes, stack[..k], stack[k])
  }

  /** No element above the base that is left out is significantly covered by a member. */
  ghost predicate Closed(table: seq<Element>, boxes: seq<Rect>, base: nat, stack: seq<nat>)
  {
    forall c :: Above(table, base, c) && c !in stack ==> !OverlapsAny(boxes, stack, c)
  }

  /** What `getStack(base)` returns: `base` first, then distinct elements above it, each
      significantly covered by an earlier member, and no further element above `base`
      significantly covered by any member: the transitive closure of "significantly
      covers" from `base` over the higher elements. */
  ghost predicate IsStack(table: seq<Element>, boxes: seq<Rect>, base: nat, stack: seq<nat>)
  {
    && |stack| > 0 && stack[0] == base && base < |table|
    && Distinct(stack)
    && (forall k :: 1 <= k < |stack| ==> Above(table, base, stack[k]))
    && Supported(boxes, stack)
    && Closed(table, boxes, base, stack)
  }

  // ---- the order the passes add members in ----------------------------------

  /** A pass adds `c` to `stack` when it meets it: `c` is not yet a member and some member
      significantly covers it. */
  predicate Addable(boxes: seq<Rect>, stack: seq<nat>, c: nat)
  {
    c !in stack && OverlapsAny(boxes, stack, c)
  }

  /** No candidate at a position in `[lo, hi)` is addable. */
  predicate NoneAddable(cands: seq<nat>, boxes: seq<Rect>, stack: seq<nat>, lo: nat, hi: nat)
  {
    forall j :: lo <= j < hi && j < |cands| ==> !Addable(boxes, stack, cands[j])
  }

  /** The first position at or after `from` whose candidate is addable. */
  function FirstAddable(cands: seq<nat>, boxes: seq<Rect>, stack: seq<nat>, from: nat): (r: Option<nat>)
    ensures r.None? <==> NoneAddable(cands, boxes, stack, from, |cands|)
    ensures r.Some? ==>
      from <= r.value < |cands| && Addable(boxes, stack, cands[r.value])
      && NoneAddable(cands, boxes, stack, from, r.value)
    decreases |cands| - from
  {
    if from >= |cands| then None
    else if Addable(boxes, stack, cands[from]) then Some(from)
    else FirstAddable(cands, boxes, stack, from + 1)
  }

  /** Where scanning resumes after the last member was added: just past that member's
      position among the candidates, or the start while the stack is the base alone. */
  function Resume(cands: seq<nat>, stack: seq<nat>): nat
  {
    if |stack| <= 1 then 0
    else
      match IndexOf(cands, stack[|stack| - 1])
      case Some(p) => p + 1
      case None => 0
  }

  /** The member the passes add after `stack`: the first addable candidate from where the
      current pass resumes, or, when the pass ends without one, the first addable candidate
      of the next pass; `None` once a pass would add nothing. */
  function NextAdded(cands: seq<nat>, boxes: seq<Rect>, stack: seq<nat>): (r: Option<nat>)
    ensures r.Some? ==> r.value in cands && Addable(boxes, stack, r.value)
    ensures r.None? <==> NoneAddable(cands, boxes, stack, 0, |cands|)
  {
    match FirstAddable(cands, boxes, stack, Resume(cands, stack))
    case Some(i) => Some(cands[i])
    case None =>
      match FirstAddable(cands, boxes, stack, 0)
      case Some(i) => Some(cands[i])
      case None => None
  }

  /** The member at position `k` is the one the passes add after the members before it. */
  predicate AddedAt(cands: seq<nat>, boxes: seq<Rect>, stack: seq<nat>, k: nat)
  {
    k < |stack| && NextAdded(cands, boxes, stack[..k]) == Some(stack[k])
  }

  /** Each member after the base is the one the passes add next. */
  predicate InScanOrder(cands: seq<nat>, boxes: seq<Rect>, stack: seq<nat>)
  {
    forall k :: 1 <= k < |stack| ==> AddedAt(cands, boxes, stack, k)
  }

  /** What `getStack(base)` returns, order included: a stack whose members come in the order
      the passes over the z-sorted candidates add them. */
  ghost predicate IsScannedStack(table: seq<Element>, boxes: seq<Rect>, base: nat, stack: seq<nat>)
  {
    IsStack(table, boxes, base, stack) && InScanOrder(Candidates(table, base), boxes, stack)
  }

  /** Part way through a pass at position `i`: either no addable candidate lies between the
      resume point and `i`, or the pass wrapped past the end without finding one and none
      lies before `i`. */
  predicate Scanned(cands: seq<nat>, boxes: seq<Rect>, stack: seq<nat>, i: nat)
  {
    || (Resume(cands, stack) <= i && NoneAddable(cands, boxes, stack, Resume(cands, stack), i))
    || (NoneAddable(cands, boxes, stack, Resume(cands, stack), |cands|) && NoneAddable(cands, boxes, stack, 0, i))
  }

  /** An addable candidate with none before it from `from` on is the first one found. */
  lemma FirstAddableAt(cands: seq<nat>, boxes: seq<Rect>, stack: seq<nat>, from: nat, i: nat)
    requires from <= i < |cands| && Addable(boxes, stack, cands[i])
    requires NoneAddable(cands, boxes, stack, from, i)
    ensures FirstAddable(cands, boxes, stack, from) == Some(i)
  {
  }

  /** Part way through a pass, the next addable candidate met is the one added next. */
  lemma ScannedNextAdded(cands: seq<nat>, boxes: seq<Rect>, stack: seq<nat>, i: nat)
    requires i < |cands| && Scanned(cands, boxes, stack, i)
    requires Addable(boxes, stack, cands[i])
    ensures NextAdded(cands, boxes, stack) == Some(cands[i])
  {
    var from := Resume(cands, stack);
    if from <= i && NoneAddable(cands, boxes, stack, from, i) {
      FirstAddableAt(cands, boxes, stack, from, i);
    } else {
      FirstAddableAt(cands, boxes, stack, 0, i);
    }
  }

  /** Appending the member the passes add next keeps the scan order. */
  lemma PushKeepsScanOrder(cands: seq<nat>, boxes: seq<Rect>, stack: seq<nat>, c: nat)
    requires InScanOrder(cands, boxes, stack)
    requires NextAdded(cands, boxes, stack) == Some(c)
    ensures InScanOrder(cands, boxes, stack + [c])
  {
    var t := stack + [c];
    forall k | 1 <= k < |t| ensures AddedAt(cands, boxes, t, k) {
      if k < |stack| {
        assert AddedAt(cands, boxes, stack, k);
        assert t[..k] == stack[..k] && t[k] == stack[k];
      } else {
        assert t[..k] == stack;
      }
    }
  }

  /** Adding the next addable candidate keeps the scan order, and scanning resumes after it. */
  lemma AddKeepsScanOrder(cands: seq<nat>, boxes: seq<Rect>, stack: seq<nat>, i: nat)
    requires Distinct(cands) && i < |cands| && |stack| > 0
    requires InScanOrder(cands, boxes, stack) && Scanned(cands, boxes, stack, i)
    requires Addable(boxes, stack, cands[i])
    ensures InScanOrder(cands, boxes, stack + [cands[i]])
    ensures Scanned(cands, boxes, stack + [cands[i]], i + 1)
  {
    ScannedNextAdded(cands, boxes, stack, i);
    PushKeepsScanOrder(cands, boxes, stack, cands[i]);
    var t := stack + [cands[i]];
    assert t[|t| - 1] == cands[i];
    DistinctIndexOf(cands, i);
    assert Resume(cands, t) == i + 1;
  }

  /** A pass starts scanned: from the start for the base alone, and otherwise after a
      pass that found nothing past the resume point. */
  lemma ScannedAtStart(cands: seq<nat>, boxes: seq<Rect>, stack: seq<nat>)
    requires Resume(cands, stack) == 0 || NoneAddable(cands, boxes, stack, Resume(cands, stack), |cands|)
    ensures Scanned(cands, boxes, stack, 0)
  {
  }

  /** A pass that reaches the end has found nothing addable past the resume point. */
  lemma ScannedAtEnd(cands: seq<nat>, boxes: seq<Rect>, stack: seq<nat>)
    requires Scanned(cands, boxes, stack, |cands|)
    ensures NoneAddable(cands, boxes, stack, Resume(cands, stack), |cands|)
  {
  }

  /** In a list without repeats, the value at position `i` is first found at `i`. */
  lemma DistinctIndexOf(s: seq<nat>, i: nat)
    requires Distinct(s) && i < |s|
    ensures IndexOf(s, s[i]) == Some(i)
  {
    var r := IndexOf(s, s[i]);
    assert s[r.value] == s[i];
  }

  /** Passing over a candidate the pass does not add moves the scan forward. */
  lemma SkipKeepsScanned(cands: seq<nat>, boxes: seq<Rect>, stack: seq<nat>, i: nat)
    requires i < |cands| && Scanned(cands, boxes, stack, i)
    requires !Addable(boxes, stack, cands[i])
    ensures Scanned(cands, boxes, stack, i + 1)
  {
  }

  /** Candidates not yet in the stack. */
  function Remaining(cands: seq<nat>, stack: seq<nat>): set<nat>
  {
    set c | c in cands && c !in stack
  }

  /** Appending an element some member covers keeps every member supported. */
  lemma PushSupported(boxes: seq<Rect>, stack: seq<nat>, c: nat)
    requires Supported(boxes, stack) && OverlapsAny(boxes, stack, c)
    ensures Supported(boxes, stack + [c])
  {
    var t := stack + [c];
    assert t[..|stack|] == stack;
    forall k | 1 <= k < |t| ensures OverlapsAny(boxes, t[..k], t[k]) {
      if k < |stack| {
        assert t[..k] == stack[..k];
      }
    }
  }

  /** The part of a stack the passes maintain: `base` first, distinct members, every later
      member a candidate that an earlier member covers. */
  predicate Partial(cands: seq<nat>, boxes: seq<Rect>, base: nat, stack: seq<nat>)
  {
    && |stack| > 0 && stack[0] == base && base !in cands
    && Distinct(stack)
    && (forall k :: 1 <= k < |stack| ==> stack[k] in cands)
    && Supported(boxes, stack)
  }

  /** Adding a covered candidate keeps the stack well formed. */
  lemma PushKeepsPartial(cands: seq<nat>, boxes: seq<Rect>, base: nat, next: seq<nat>, c: nat)
    requires Partial(cands, boxes, base, next)
    requires c in cands && c !in next && OverlapsAny(boxes, next, c)
    ensures Partial(cands, boxes, base, next + [c])
  {
    PushSupported(boxes, next, c);
  }

  /** Adding a candidate that was not yet in the stack shrinks what is left. */
  lemma PushShrinksRemaining(cands: seq<nat>, stack: seq<nat>, next: seq<nat>, c: nat)
    requires c in cands && c !in next
    requires Remaining(cands, next) <= Remaining(cands, stack)
    ensures Remaining(cands, next + [c]) < Remaining(cands, stack)
  {
    assert Remaining(cands, next + [c]) == Remaining(cands, next) - {c};
    assert c in Remaining(cands, next);
  }

  /** A candidate the pass skips leaves the scanned prefix closed. */
  lemma PassKeepsClosed(cands: seq<nat>, boxes: seq<Rect>, next: seq<nat>, i: nat)
    requires i < |cands|
    requires forall c :: c in cands[..i] && c !in next ==> !OverlapsAny(boxes, next, c)
    requires cands[i] in next || !OverlapsAny(boxes, next, cands[i])
    ensures forall c :: c in cands[..i + 1] && c !in next ==> !OverlapsAny(boxes, next, c)
  {
    assert cands[..i + 1] == cands[..i] + [cands[i]];
  }

  /** What holds part way through a pass at position `i`, started from `stack`. */
  predicate PassState(cands: seq<nat>, boxes: seq<Rect>, base: nat, stack: seq<nat>, next: seq<nat>, added: bool, i: nat)
  {
    && i <= |cands|
    && Partial(cands, boxes, base, next)
    && |next| >= |stack| && next[..|stack|] == stack
    && (!added ==> next == stack)
    && (added ==> Remaining(cands, next) < Remaining(cands, stack))
    && Remaining(cands, next) <= Remaining(cands, stack)
    && (!added ==> forall c :: c in cands[..i] && c !in next ==> !OverlapsAny(boxes, next, c))
  }

  /** Adding a covered candidate keeps the pass state. */
  lemma AddKeepsPassState(cands: seq<nat>, boxes: seq<Rect>, base: nat, stack: seq<nat>, next: seq<nat>, added: bool, i: nat)
    requires i < |cands| && PassState(cands, boxes, base, stack, next, added, i)
    requires Addable(boxes, next, cands[i])
    ensures PassState(cands, boxes, base, stack, next + [cands[i]], true, i + 1)
  {
    var c := cands[i];
    PushKeepsPartial(cands, boxes, base, next, c);
    PushShrinksRemaining(cands, stack, next, c);
    assert (next + [c])[..|stack|] == next[..|stack|];
  }

  /** Passing over a candidate the pass does not add keeps the pass state. */
  lemma SkipKeepsPassState(cands: seq<nat>, boxes: seq<Rect>, base: nat, stack: seq<nat>, next: seq<nat>, added: bool, i: nat)
    requires i < |cands| && PassState(cands, boxes, base, stack, next, added, i)
    requires !Addable(boxes, next, cands[i])
    ensures PassState(cands, boxes, base, stack, next, added, i + 1)
  {
    if !added {
      PassKeepsClosed(cands, boxes, next, i);
    }
  }

  /** The body of `candidates.forEach` at position `i`: the candidate joins the stack when it
      is not yet a member and some member significantly covers it. */
  method PassStep(cands: seq<nat>, boxes: seq<Rect>, base: nat, stack: seq<nat>, next: seq<nat>, added: bool, i: nat)
    returns (next': seq<nat>, added': bool)
    requires i < |cands| && Distinct(cands) && |next| > 0
    requires PassState(cands, boxes, base, stack, next, added, i)
    requires InScanOrder(cands, boxes, next) && Scanned(cands, boxes, next, i)
    ensures next' == if Addable(boxes, next, cands[i]) then next + [cands[i]] else next
    ensures PassState(cands, boxes, base, stack, next', added', i + 1)
    ensures InScanOrder(cands, boxes, next') && Scanned(cands, boxes, next', i + 1)
  {
    next', added' := next, added;
    var c := cands[i];
    if c !in next && OverlapsAny(boxes, next, c) {
      AddKeepsPassState(cands, boxes, base, stack, next, added, i);
      AddKeepsScanOrder(cands, boxes, next, i);
      next' := next + [c];
      added' := true;
    } else {
      SkipKeepsPassState(cands, boxes, base, stack, next, added, i);
      SkipKeepsScanned(cands, boxes, next, i);
    }
  }

  /** One pass of the `do ... while (added)` loop: `candidates.forEach`. When it adds
      nothing, no candidate outside the stack is covered by a member. */
  method StackPass(cands: seq<nat>, boxes: seq<Rect>, base: nat, stack: seq<nat>)
    returns (next: seq<nat>, added: bool)
    requires Partial(cands, boxes, base, stack) && Distinct(cands)
    requires InScanOrder(cands, boxes, stack)
    requires Resume(cands, stack) == 0 || NoneAddable(cands, boxes, stack, Resume(cands, stack), |cands|)
    ensures Partial(cands, boxes, base, next)
    ensures InScanOrder(cands, boxes, next)
    ensures NoneAddable(cands, boxes, next, Resume(cands, next), |cands|)
    ensures |next| >= |stack| && next[..|stack|] == stack
    ensures !added ==> next == stack
    ensures added ==> Remaining(cands, next) < Remaining(cands, stack)
    ensures !added ==> forall c :: c in cands && c !in next ==> !OverlapsAny(boxes, next, c)
  {
    next := stack;
    added := false;
    var i := 0;
    ScannedAtStart(cands, boxes, stack);
    while i < |cands|
      invariant 0 <= i <= |cands|
      invariant PassState(cands, boxes, base, stack, next, added, i)
      invariant InScanOrder(cands, boxes, next) && Scanned(cands, boxes, next, i)
    {
      next, added := PassStep(cands, boxes, base, stack, next, added, i);
      i := i + 1;
    }
    ScannedAtEnd(cands, boxes, next);
    assert cands[..i] == cands;
  }

  /** `getStack`: repeated passes over the candidates in z order, each adding every
      candidate that some member (including those added earlier in the same pass)
      significantly covers, until a pass adds nothing. */
  method GetStack(table: seq<Element>, boxes: seq<Rect>, base: nat) returns (stack: seq<nat>)
    requires |boxes| == |table| && base < |table|
    ensures IsStack(table, boxes, base, stack)
    ensures IsScannedStack(table, boxes, base, stack)
  {
    var cands := Candidates(table, base);
    stack := [base];
    var added := true;
    while added
      invariant Partial(cands, boxes, base, stack)
      invariant InScanOrder(cands, boxes, stack)
      invariant Resume(cands, stack) == 0 || NoneAddable(cands, boxes, stack, Resume(cands, stack), |cands|)
      invariant !added ==> forall c :: c in cands && c !in stack ==> !OverlapsAny(boxes, stack, c)
      decreases Remaining(cands, stack), added
    {
      stack, added := StackPass(cands, boxes, base, stack);
    }
    forall c | Above(table, base, c) && c !in stack ensures !OverlapsAny(boxes, stack, c) {
      assert c in cands;
    }
    forall k | 1 <= k < |stack| ensures Above(table, base, stack[k]) {
      assert stack[k] in cands;
    }
  }

  /** Every member of a stack lies in any set that contains `base` and takes in each higher
      element significantly covered by one of its elements: the stack is the least such set. */
  lemma StackIsLeast(table: seq<Element>, boxes: seq<Rect>, base: nat, stack: seq<nat>, S: set<nat>)
    requires IsStack(table, boxes, base, stack)
    requires base in S
    requires forall m: nat, c: nat :: (m in S && Above(table, base, c) && m < |boxes| && c < |boxes|
      && IsSignificantOverlap(boxes[m], boxes[c])) ==> c in S
    ensures forall k :: 0 <= k < |stack| ==> stack[k] in S
  {
    forall k | 0 <= k < |stack| ensures stack[k] in S {
      MemberInClosedSet(table, boxes, base, stack, S, k);
    }
  }

  lemma {:induction false} MemberInClosedSet(table: seq<Element>, boxes: seq<Rect>, base: nat, stack: seq<nat>, S: set<nat>, k: nat)
    requires IsStack(table, boxes, base, stack)
    requires base in S
    requires forall m: nat, c: nat :: (m in S && Above(table, base, c) && m < |boxes| && c < |boxes|
      && IsSignificantOverlap(boxes[m], boxes[c])) ==> c in S
    requires k < |stack|
    ensures stack[k] in S
    decreases k
  {
    if k > 0 {
      assert OverlapsAny(boxes, stack[..k], stack[k]);
      var j :| 0 <= j < k && stack[..k][j] < |boxes| && stack[k] < |boxes|
        && IsSignificantOverlap(boxes[stack[..k][j]], boxes[stack[k]]);
      assert stack[..k][j] == stack[j];
      MemberInClosedSet(table, boxes, base, stack, S, j);
      assert Above(table, base, stack[k]);
    }
  }

  /** The members of a stack are determined by the table and the boxes: any two sequences
      meeting the `getStack` contract hold the same elements. */
  lemma StackMembersDetermined(table: seq<Element>, boxes: seq<Rect>, base: nat, s1: seq<nat>, s2: seq<nat>)
    requires IsStack(table, boxes, base, s1) && IsStack(table, boxes, base, s2)
    ensures forall x :: x in s1 <==> x in s2
  {
    ContainedIn(table, boxes, base, s1, s2);
    ContainedIn(table, boxes, base, s2, s1);
  }

  lemma ContainedIn(table: seq<Element>, boxes: seq<Rect>, base: nat, s1: seq<nat>, s2: seq<nat>)
    requires IsStack(table, boxes, base, s1) && IsStack(table, boxes, base, s2)
    ensures forall x :: x in s2 ==> x in s1
  {
    var S := set x | x in s1;
    forall m: nat, c: nat | m in S && Above(table, base, c) && m < |boxes| && c < |boxes|
      && IsSignificantOverlap(boxes[m], boxes[c])
      ensures c in S
    {
      var j :| 0 <= j < |s1| && s1[j] == m;
      assert OverlapsAny(boxes, s1, c);
    }
    StackIsLeast(table, boxes, base, s2, S);
  }

  /** A finished stack leaves nothing for a further pass to add. */
  lemma StackFinished(table: seq<Element>, boxes: seq<Rect>, base: nat, stack: seq<nat>)
    requires IsStack(table, boxes, base, stack)
    ensures NextAdded(Candidates(table, base), boxes, stack).None?
  {
  }

  /** Two sequences in scan order that start alike agree on every common prefix. */
  lemma {:induction false} ScanPrefixesAgree(cands: seq<nat>, boxes: seq<Rect>, s1: seq<nat>, s2: seq<nat>, k: nat)
    requires InScanOrder(cands, boxes, s1) && InScanOrder(cands, boxes, s2)
    requires 1 <= k <= |s1| && k <= |s2| && s1[0] == s2[0]
    ensures s1[..k] == s2[..k]
    decreases k
  {
    if k > 1 {
      ScanPrefixesAgree(cands, boxes, s1, s2, k - 1);
      assert AddedAt(cands, boxes, s1, k - 1) && AddedAt(cands, boxes, s2, k - 1);
      assert s1[..k] == s1[..k - 1] + [s1[k - 1]];
      assert s2[..k] == s2[..k - 1] + [s2[k - 1]];
    }
  }

  /** A scanned stack is not a proper prefix of another: once a pass adds nothing, nothing
      follows. */
  lemma ScannedNotLonger(table: seq<Element>, boxes: seq<Rect>, base: nat, a: seq<nat>, b: seq<nat>)
    requires IsScannedStack(table, boxes, base, a) && IsScannedStack(table, boxes, base, b)
    ensures |b| <= |a|
  {
    var cands := Candidates(table, base);
    var m := if |a| <= |b| then |a| else |b|;
    ScanPrefixesAgree(cands, boxes, a, b, m);
    StackFinished(table, boxes, base, a);
    assert |a| < |b| ==> AddedAt(cands, boxes, b, |a|);
  }

  /** The order is determined too: the table and the boxes fix the whole list `getStack`
      returns, so which member is lifted to which z-index is fixed as well. */
  lemma ScannedStackDetermined(table: seq<Element>, boxes: seq<Rect>, base: nat, s1: seq<nat>, s2: seq<nat>)
    requires IsScannedStack(table, boxes, base, s1) && IsScannedStack(table, boxes, base, s2)
    ensures s1 == s2
  {
    ScannedNotLonger(table, boxes, base, s1, s2);
    ScannedNotLonger(table, boxes, base, s2, s1);
    ScanPrefixesAgree(Candidates(table, base), boxes, s1, s2, |s1|);
    assert s1 == s1[..|s1|] && s2 == s2[..|s2|];
  }

  /** Grouping is transitive: if the base covers `b` and `b` covers `c` (both higher than
      the base), both travel with the base even when the base does not cover `c`. */
  lemma ChainJoinsStack(table: seq<Element>, boxes: seq<Rect>, base: nat, stack: seq<nat>, b: nat, c: nat)
    requires IsStack(table, boxes, base, stack)
    requires Above(table, base, b) && Above(table, base, c)
    requires base < |boxes| && b < |boxes| && c < |boxes|
    requires IsSignificantOverlap(boxes[base], boxes[b]) && IsSignificantOverlap(boxes[b], boxes[c])
    ensures b in stack && c in stack
  {
    assert OverlapsAny(boxes, stack, b) by {
      assert stack[0] == base;
    }
    var j :| 0 <= j < |stack| && stack[j] == b;
    assert OverlapsAny(boxes, stack, c);
  }

  // ---- lifting the stack ----------------------------------------------------

  /** Gives the elements listed in `order`, in that order, consecutive new z-indices. */
  function Raise(table: seq<Element>, order: seq<nat>, g: Counter): (r: (seq<Element>, Counter))
    requires forall k :: 0 <= k < |order| ==> order[k] < |table|
    requires Distinct(order)
    ensures |r.0| == |table|
    ensures forall k :: 0 <= k < |order| ==> r.0[order[k]] == table[order[k]].(z := Current(g) + k + 1)
    ensures forall i :: 0 <= i < |table| && i !in order ==> r.0[i] == table[i]
    ensures r.1 == if |order| == 0 then g else Current(g) + |order|
    decreases |order|
  {
    if |order| == 0 then (table, g)
    else
      var a := Next(g);
      var t := table[order[0] := table[order[0]].(z := a.z)];
      assert forall k :: 1 <= k < |order| ==> order[k] != order[0];
      Raise(t, order[1..], a.counter)
  }

  /** The z-assignment `startDrag` performs: `stack.forEach` draws the next z-index for each
      member in stack order, so the k-th member gets the counter's value plus k + 1 and
      keeps its position; nothing else changes, and the counter ends at the last value. */
  function RaiseAsWritten(table: seq<Element>, stack: seq<nat>, g: Counter): (r: (seq<Element>, Counter))
    requires forall k :: 0 <= k < |stack| ==> stack[k] < |table|
    requires Distinct(stack)
    ensures |r.0| == |table|
    ensures forall k :: 0 <= k < |stack| ==> r.0[stack[k]] == table[stack[k]].(z := Current(g) + k + 1)
    ensures forall i :: 0 <= i < |table| && i !in stack ==> r.0[i] == table[i]
    ensures r.1 == if |stack| == 0 then g else Current(g) + |stack|
  {
    Raise(table, stack, g)
  }

  /** The table and boxes of the stacking-order counterexample: a base card 0 (z 1), a card 2
      (z 3) covering 80% of it, and a card 1 (z 2) covering exactly half of the base but 70%
      of card 2. */
  function ExampleTable(): seq<Element>
  {
    [Element(0.0, 0.0, 1), Element(0.0, 0.0, 2), Element(0.0, 0.0, 3)]
  }

  function ExampleBoxes(): seq<Rect>
  {
    [Rect(0.0, 0.0, 10.0, 10.0), Rect(5.0, 0.0, 10.0, 10.0), Rect(2.0, 0.0, 10.0, 10.0)]
  }

  /** The overlaps of the example: the base covers card 2 by 80%, card 2 covers card 1 by
      70%, and the base covers card 1 by exactly half, which is not enough. */
  lemma ExampleOverlaps()
    ensures IsSignificantOverlap(ExampleBoxes()[0], ExampleBoxes()[2])
    ensures IsSignificantOverlap(ExampleBoxes()[2], ExampleBoxes()[1])
    ensures !IsSignificantOverlap(ExampleBoxes()[0], ExampleBoxes()[1])
  {
    var boxes := ExampleBoxes();
    assert Common(0.0, 10.0, 2.0, 12.0) == 8.0 && Common(0.0, 10.0, 0.0, 10.0) == 10.0;
    assert OverlapArea(boxes[0], boxes[2]) == 8.0 * 10.0;
    assert Common(2.0, 12.0, 5.0, 15.0) == 7.0;
    assert OverlapArea(boxes[2], boxes[1]) == 7.0 * 10.0;
    assert Common(0.0, 10.0, 5.0, 15.0) == 5.0;
    assert OverlapArea(boxes[0], boxes[1]) == 5.0 * 10.0;
  }

  /** A stack of the example starts with the base and card 2, and holds only cards 1 and 2
      after the base. */
  lemma ExampleStackStart(stack: seq<nat>)
    requires IsStack(ExampleTable(), ExampleBoxes(), 0, stack)
    ensures |stack| >= 2 && stack[0] == 0 && stack[1] == 2
    ensures forall k :: 1 <= k < |stack| ==> stack[k] == 1 || stack[k] == 2
  {
    var table, boxes := ExampleTable(), ExampleBoxes();
    ExampleOverlaps();
    assert Above(table, 0, 2);
    assert OverlapsAny(boxes, stack, 2) by {
      assert stack[0] == 0;
    }
    forall k | 1 <= k < |stack| ensures stack[k] == 1 || stack[k] == 2 {
      assert Above(table, 0, stack[k]);
    }
    assert stack[1] == 2 by {
      assert OverlapsAny(boxes, stack[..1], stack[1]);
      assert stack[..1] == [0];
    }
  }

  /** In the example, card 2 joins in the first pass and card 1 only in the second, so the
      stack order is forced to be [0, 2, 1]. */
  lemma ExampleStackIsForced(stack: seq<nat>)
    requires IsStack(ExampleTable(), ExampleBoxes(), 0, stack)
    ensures stack == [0, 2, 1]
  {
    ExampleStackStart(stack);
    ExampleOverlaps();
    assert Above(ExampleTable(), 0, 1);
    assert OverlapsAny(ExampleBoxes(), stack, 1) by {
      assert stack[1] == 2;
    }
    var j1 :| 0 <= j1 < |stack| && stack[j1] == 1;
    assert j1 >= 2;
    assert forall k :: 2 <= k < |stack| ==> stack[k] == stack[j1];
    assert stack[|stack| - 1] == stack[j1];
    assert stack[2] == stack[j1];
    assert |stack| == 3;
  }

  /** In [0, 2, 1], card 2 is covered by the base and card 1 by card 2. */
  lemma ExampleSupported()
    ensures Supported(ExampleBoxes(), [0, 2, 1])
  {
    var boxes, stack := ExampleBoxes(), [0, 2, 1];
    ExampleOverlaps();
    assert stack[..1] == [0] && stack[..2] == [0, 2];
    assert OverlapsAny(boxes, stack[..1], stack[1]) by {
      assert stack[..1][0] == 0 && stack[1] == 2;
    }
    assert OverlapsAny(boxes, stack[..2], stack[2]) by {
      assert stack[..2][1] == 2;
    }
  }

  /** Nothing above the base is left out of [0, 2, 1]. */
  lemma ExampleClosed()
    ensures Closed(ExampleTable(), ExampleBoxes(), 0, [0, 2, 1])
  {
    assert forall c: nat :: Above(ExampleTable(), 0, c) ==> c in [0, 2, 1];
  }

  /** [0, 2, 1] is a stack of the example. */
  lemma ExampleStackHolds()
    ensures IsStack(ExampleTable(), ExampleBoxes(), 0, [0, 2, 1])
  {
    ExampleMembers();
    ExampleSupported();
    ExampleClosed();
  }

  /** The members of [0, 2, 1] are distinct and lie above the base. */
  lemma ExampleMembers()
    ensures Distinct([0, 2, 1])
    ensures forall k :: 1 <= k < 3 ==> Above(ExampleTable(), 0, [0, 2, 1][k])
  {
  }

  /** The stack order can invert the z-order: in the example, card 1 was below card 2 but
      `startDrag` lifts it above card 2, contrary to "bring stack to front, preserving order". */
  lemma StackOrderRaiseInvertsZ()
    ensures IsStack(ExampleTable(), ExampleBoxes(), 0, [0, 2, 1])
    ensures ExampleTable()[1].z < ExampleTable()[2].z
    ensures RaiseAsWritten(ExampleTable(), [0, 2, 1], 0).0[1].z > RaiseAsWritten(ExampleTable(), [0, 2, 1], 0).0[2].z
  {
    ExampleStackHolds();
    ExampleRaise();
  }

  /** Lifting the example in stack order from a fresh counter gives z 1001, 1002, 1003 to
      cards 0, 2 and 1. */
  lemma ExampleRaise()
    ensures RaiseAsWritten(ExampleTable(), [0, 2, 1], 0).0[2].z == 1002
    ensures RaiseAsWritten(ExampleTable(), [0, 2, 1], 0).0[1].z == 1003
  {
    var stack := [0, 2, 1];
    assert Distinct(stack);
    var r := RaiseAsWritten(ExampleTable(), stack, 0);
    assert r.0[stack[1]].z == 1002 && r.0[stack[2]].z == 1003;
  }

  /** The intended lift: new z-indices in ascending order of the current ones, so elements of
      the stack keep their relative stacking order while all rise above the counter. */
  function RaiseInZOrder(table: seq<Element>, stack: seq<nat>, g: Counter): (r: (seq<Element>, Counter))
    requires forall k :: 0 <= k < |stack| ==> stack[k] < |table|
    requires Distinct(stack)
    ensures |r.0| == |table|
    ensures forall a, b :: a in stack && b in stack && table[a].z < table[b].z ==> r.0[a].z < r.0[b].z
    ensures forall a :: a in stack ==> r.0[a].z > g && r.0[a] == table[a].(z := r.0[a].z)
    ensures forall i :: 0 <= i < |table| && i !in stack ==> r.0[i] == table[i]
    ensures r.1 == if |stack| == 0 then g else Current(g) + |stack|
  {
    var order := SortBy<nat>(stack, ZKey(table));
    DistinctPermutation(stack, order);
    assert forall x :: x in order <==> x in stack by {
      forall x ensures x in order <==> x in stack {
        assert x in order <==> x in multiset(order);
        assert x in stack <==> x in multiset(stack);
      }
    }
    assert forall k :: 0 <= k < |order| ==> order[k] < |table| by {
      forall k | 0 <= k < |order| ensures order[k] < |table| {
        assert order[k] in stack;
      }
    }
    var r := Raise(table, order, g);
    RaiseInZOrderKeepsOrder(table, order, g, r.0);
    r
  }

  lemma RaiseInZOrderKeepsOrder(table: seq<Element>, order: seq<nat>, g: Counter, raised: seq<Element>)
    requires forall k :: 0 <= k < |order| ==> order[k] < |table|
    requires Distinct(order) && SortedBy(order, ZKey(table))
    requires raised == Raise(table, order, g).0
    ensures forall a, b :: a in order && b in order && table[a].z < table[b].z ==> raised[a].z < raised[b].z
    ensures forall a :: a in order ==> raised[a].z > g && raised[a] == table[a].(z := raised[a].z)
  {
    forall a, b | a in order && b in order && table[a].z < table[b].z
      ensures raised[a].z < raised[b].z
    {
      var i :| 0 <= i < |order| && order[i] == a;
      var j :| 0 <= j < |order| && order[j] == b;
      SortedPositions(table, order, i, j);
      assert raised[a].z == Current(g) + i + 1 && raised[b].z == Current(g) + j + 1;
    }
    forall a | a in order ensures raised[a].z > g && raised[a] == table[a].(z := raised[a].z) {
      var i :| 0 <= i < |order| && order[i] == a;
    }
  }

  /** In a list sorted by z, an element strictly below another comes before it. */
  lemma SortedPositions(table: seq<Element>, order: seq<nat>, i: nat, j: nat)
    requires i < |order| && j < |order| && order[i] < |table| && order[j] < |table|
    requires SortedBy(order, ZKey(table)) && table[order[i]].z < table[order[j]].z
    ensures i < j
  {
    assert ZKey(table)(order[i]) < ZKey(table)(order[j]);
  }

  // ---- starting and following a drag -----------------------------------------

  /** `startDrag`: computes the stack of the armed element, lifts it in stack order (see
      `RaiseAsWritten`), and records each member's pointer-to-corner offset from its box. */
  method StartDrag(s: DragState, table: seq<Element>, boxes: seq<Rect>, target: nat, p: Pointer, g: Counter)
    returns (r: DragState, lifted: seq<Element>, g': Counter)
    requires |boxes| == |table| && target < |table|
    ensures r.isDragging && r.potential.None?
    ensures r.startX == s.startX && r.startY == s.startY && r.scale == s.scale
    ensures IsStack(table, boxes, target, Members(r.dragged))
    ensures IsScannedStack(table, boxes, target, Members(r.dragged))
    ensures forall k :: 0 <= k < |r.dragged| ==>
      r.dragged[k].offsetX == p.x - boxes[r.dragged[k].el].left
      && r.dragged[k].offsetY == p.y - boxes[r.dragged[k].el].top
    ensures Consistent(r, |table|)
    ensures |lifted| == |table|
    ensures forall k :: 0 <= k < |r.dragged| ==>
      lifted[r.dragged[k].el] == table[r.dragged[k].el].(z := Current(g) + k + 1)
    ensures forall i :: 0 <= i < |table| && i !in Members(r.dragged) ==> lifted[i] == table[i]
    ensures g' == Current(g) + |r.dragged|
  {
    var stack := GetStack(table, boxes, target);
    var raised := RaiseAsWritten(table, stack, g);
    lifted, g' := raised.0, raised.1;
    var grips := seq(|stack|, k requires 0 <= k < |stack| =>
      Grip(stack[k], p.x - boxes[stack[k]].left, p.y - boxes[stack[k]].top));
    assert Members(grips) == stack;
    r := s.(isDragging := true, potential := None, dragged := grips);
  }

  /** Where a dragged element goes for a pointer position:
      `(pointer - containerOrigin - offset) / scale` on each axis. The grabbed point of the
      element stays under the pointer. */
  function DragPosition(p: Pointer, container: Rect, grip: Grip, scale: Scale): (pos: (real, real))
    ensures container.left + scale * pos.0 + grip.offsetX == p.x
    ensures container.top + scale * pos.1 + grip.offsetY == p.y
  {
    ((p.x - container.left - grip.offsetX) / scale, (p.y - container.top - grip.offsetY) / scale)
  }

  /** The distance between two dragged elements depends only on their captured offsets, so
      it is the same for every pointer position: the stack moves as one piece. */
  lemma DragKeepsRelativeOffsets(p: Pointer, q: Pointer, container: Rect, a: Grip, b: Grip, scale: Scale)
    ensures DragPosition(p, container, a, scale).0 - DragPosition(p, container, b, scale).0
         == DragPosition(q, container, a, scale).0 - DragPosition(q, container, b, scale).0
    ensures DragPosition(p, container, a, scale).1 - DragPosition(p, container, b, scale).1
         == DragPosition(q, container, a, scale).1 - DragPosition(q, container, b, scale).1
  {
    var pa, pb := DragPosition(p, container, a, scale), DragPosition(p, container, b, scale);
    var qa, qb := DragPosition(q, container, a, scale), DragPosition(q, container, b, scale);
    assert scale * (pa.0 - pb.0) == b.offsetX - a.offsetX == scale * (qa.0 - qb.0);
    assert scale * (pa.1 - pb.1) == b.offsetY - a.offsetY == scale * (qa.1 - qb.1);
    CancelScale(scale, pa.0 - pb.0, qa.0 - qb.0);
    CancelScale(scale, pa.1 - pb.1, qa.1 - qb.1);
  }

  lemma CancelScale(scale: Scale, x: real, y: real)
    requires scale * x == scale * y
    ensures x == y
  {
    assert scale * (x - y) == 0.0;
  }

  /** When the box on screen is the element's CSS position scaled into the container, the
      first move after the drag starts puts the element where it already was: no jump. */
  lemma NoJumpAtStart(e: Element, box: Rect, container: Rect, scale: Scale, p: Pointer, el: nat)
    requires box.left == container.left + scale * e.left && box.top == container.top + scale * e.top
    ensures DragPosition(p, container, Grip(el, p.x - box.left, p.y - box.top), scale) == (e.left, e.top)
  {
    var pos := DragPosition(p, container, Grip(el, p.x - box.left, p.y - box.top), scale);
    assert scale * pos.0 == scale * e.left;
    assert scale * pos.1 == scale * e.top;
    CancelScale(scale, pos.0, e.left);
    CancelScale(scale, pos.1, e.top);
  }

  /** The `forEach` of `handleMouseMove`: every dragged element goes to its drag position. */
  function Follow(table: seq<Element>, grips: seq<Grip>, container: Rect, p: Pointer, scale: Scale): (r: seq<Element>)
    requires forall k :: 0 <= k < |grips| ==> grips[k].el < |table|
    requires Distinct(Members(grips))
    ensures |r| == |table|
    ensures forall k :: 0 <= k < |grips| ==>
      var pos := DragPosition(p, container, grips[k], scale);
      r[grips[k].el] == table[grips[k].el].(left := pos.0, top := pos.1)
    ensures forall i :: 0 <= i < |table| && i !in Members(grips) ==> r[i] == table[i]
    decreases |grips|
  {
    if |grips| == 0 then table
    else
      var g := grips[0];
      var pos := DragPosition(p, container, g, scale);
      assert Members(grips[1..]) == Members(grips)[1..];
      assert forall k :: 1 <= k < |grips| ==> grips[k].el != g.el by {
        forall k | 1 <= k < |grips| ensures grips[k].el != g.el {
          assert Members(grips)[k] != Members(grips)[0];
        }
      }
      Follow(table[g.el := table[g.el].(left := pos.0, top := pos.1)], grips[1..], container, p, scale)
  }

  /** `handleMouseMove`: with nothing armed or dragged it does nothing; an armed element
      starts a drag once the pointer is more than 5 px from the press point; during a drag
      every member follows the pointer. */
  method MouseMove(s: DragState, table: seq<Element>, boxes: seq<Rect>, container: Rect, p: Pointer, g: Counter)
    returns (r: DragState, moved: seq<Element>, g': Counter)
    requires Consistent(s, |table|) && |boxes| == |table|
    ensures Consistent(r, |table|) && |moved| == |table|
    ensures !s.isDragging && (s.potential.None? || !BeyondThreshold(s, p)) ==>
      r == s && moved == table && g' == g
    ensures !s.isDragging && s.potential.Some? && BeyondThreshold(s, p) ==>
      r.isDragging && IsStack(table, boxes, s.potential.value, Members(r.dragged))
      && IsScannedStack(table, boxes, s.potential.value, Members(r.dragged))
    ensures !s.isDragging && s.potential.Some? && BeyondThreshold(s, p) ==>
      g' == Current(g) + |r.dragged|
      && forall k :: 0 <= k < |r.dragged| ==> moved[r.dragged[k].el].z == Current(g) + k + 1
    ensures s.isDragging ==> r == s && g' == g
    ensures forall i :: 0 <= i < |table| ==> moved[i].z == table[i].z || i in Members(r.dragged)
    ensures r.isDragging ==> forall k :: 0 <= k < |r.dragged| ==>
      var pos := DragPosition(p, container, r.dragged[k], r.scale);
      moved[r.dragged[k].el].left == pos.0 && moved[r.dragged[k].el].top == pos.1
    ensures forall i :: 0 <= i < |table| && i !in Members(r.dragged) ==> moved[i] == table[i]
  {
    r, moved, g' := s, table, g;
    if s.potential.None? && |s.dragged| == 0 {
      return;
    }
    if !s.isDragging && s.potential.Some? && BeyondThreshold(s, p) {
      r, moved, g' := StartDrag(s, table, boxes, s.potential.value, p, g);
    }
    if r.isDragging {
      moved := Follow(moved, r.dragged, container, p, r.scale);
    }
  }

  // ---- dropping and snapping --------------------------------------------------

  /** Overlap of the dropped card's box with element `t`'s box. */
  function CoverOf(boxes: seq<Rect>, card: Rect, t: nat): real
    requires t < |boxes|
  {
    OverlapArea(card, boxes[t])
  }

  /** Element `t` is a snap target: not dragged, and covering more than half of the card. */
  predicate Qualifies(boxes: seq<Rect>, excluded: seq<nat>, card: Rect, t: nat)
  {
    t < |boxes| && t !in excluded && 2.0 * CoverOf(boxes, card, t) > card.Area()
  }

  /** The loop of `handleSnapping` over the first `n` elements: the first element with the
      largest overlap among those that qualify, or none when none qualifies. Overlap ratios
      share the denominator area(card), so they compare as the overlaps do. */
  function BestTarget(boxes: seq<Rect>, excluded: seq<nat>, card: Rect, n: nat): (r: Option<nat>)
    requires n <= |boxes|
    ensures r.None? <==> forall t: nat :: t < n ==> !Qualifies(boxes, excluded, card, t)
    ensures r.Some? ==> r.value < n && Qualifies(boxes, excluded, card, r.value)
    ensures r.Some? ==> forall u: nat :: u < n && Qualifies(boxes, excluded, card, u) ==>
      CoverOf(boxes, card, u) <= CoverOf(boxes, card, r.value)
    ensures r.Some? ==> forall u: nat :: u < r.value && Qualifies(boxes, excluded, card, u) ==>
      CoverOf(boxes, card, u) < CoverOf(boxes, card, r.value)
    decreases n
  {
    if n == 0 then None
    else
      var best := BestTarget(boxes, excluded, card, n - 1);
      var t := n - 1;
      if Qualifies(boxes, excluded, card, t)
        && (best.None? || CoverOf(boxes, card, t) > CoverOf(boxes, card, best.value))
      then Some(t)
      else best
  }

  /** Adds `delta` to the `left` of every listed element. */
  function ShiftLeft(table: seq<Element>, members: seq<nat>, delta: real): (r: seq<Element>)
    ensures |r| == |table|
    ensures forall i :: 0 <= i < |table| && i in members ==> r[i] == table[i].(left := table[i].left + delta)
    ensures forall i :: 0 <= i < |table| && i !in members ==> r[i] == table[i]
  {
    seq(|table|, i requires 0 <= i < |table| =>
      if i in members then table[i].(left := table[i].left + delta) else table[i])
  }

  /** The snap target of a drop: among all elements not being dragged, judged against the
      box of the bottom dragged card. */
  function SnapTarget(boxes: seq<Rect>, grips: seq<Grip>): Option<nat>
    requires |grips| > 0 && grips[0].el < |boxes|
  {
    BestTarget(boxes, Members(grips), boxes[grips[0].el], |boxes|)
  }

  /** `handleSnapping(bottomCard)`: if a target qualifies, the whole dragged stack moves
      horizontally by one delta that puts the bottom card's left on the target's left
      (converted to content coordinates); tops, z-indices and all other elements stay. */
  function Snap(table: seq<Element>, grips: seq<Grip>, boxes: seq<Rect>, container: Rect, scale: Scale): (r: seq<Element>)
    requires |boxes| == |table| && |grips| > 0
    requires forall k :: 0 <= k < |grips| ==> grips[k].el < |table|
    ensures |r| == |table|
    ensures forall i :: 0 <= i < |table| ==> r[i].top == table[i].top && r[i].z == table[i].z
    ensures forall i :: 0 <= i < |table| && i !in Members(grips) ==> r[i] == table[i]
    ensures SnapTarget(boxes, grips).None? ==> r == table
    ensures SnapTarget(boxes, grips).Some? ==>
      r[grips[0].el].left == (boxes[SnapTarget(boxes, grips).value].left - container.left) / scale
    ensures forall a, b :: a in Members(grips) && b in Members(grips) ==>
      r[a].left - r[b].left == table[a].left - table[b].left
  {
    var card := grips[0].el;
    assert card in Members(grips);
    match SnapTarget(boxes, grips)
    case None => table
    case Some(t) =>
      var targetLeft := (boxes[t].left - container.left) / scale;
      ShiftLeft(table, Members(grips), targetLeft - table[card].left)
  }

  /** `handleMouseUp`: disarms; if a stack was dragged it is snapped, then released. */
  function MouseUp(s: DragState, table: seq<Element>, boxes: seq<Rect>, container: Rect): (r: (DragState, seq<Element>))
    requires Consistent(s, |table|) && |boxes| == |table|
    ensures r.0.potential.None? && |r.0.dragged| == 0 && !r.0.isDragging
    ensures Consistent(r.0, |r.1|) && |r.1| == |table|
    ensures |s.dragged| == 0 ==> r.1 == table
    ensures |s.dragged| > 0 ==> r.1 == Snap(table, s.dragged, boxes, container, s.scale)
    ensures r.0.scale == s.scale
  {
    if |s.dragged| == 0 then (s.(potential := None), table)
    else
      var snapped := Snap(table, s.dragged, boxes, container, s.scale);
      (s.(potential := None, dragged := [], isDragging := false), snapped)
  }
}

=== FILE: geometry.dfy ===
/** Axis-aligned bounding boxes and the two overlap tests of the drag engine. */
module Geometry {

  /** Box sizes are never negative (`getBoundingClientRect` normalises them). */
  type Length = r: real | r >= 0.0

  /** A bounding box in screen pixels. */
  datatype Rect = Rect(left: real, top: real, width: Length, height: Length) {
    function Right(): real { left + width }
    function Bottom(): real { top + height }
    function Area(): real { width * height }
  }

  function Max(a: real, b: real): real { if a >= b then a else b }
  function Min(a: real, b: real): real { if a <= b then a else b }

  /** `isOverlapping`: the boxes are not separated along either axis; touching edges count. */
  predicate IsOverlapping(a: Rect, b: Rect)
  {
    !(a.Right() < b.left || a.left > b.Right() || a.Bottom() < b.top || a.top > b.Bottom())
  }

  /** Length of the common part of the intervals [lo1, hi1] and [lo2, hi2], or 0. */
  function Common(lo1: real, hi1: real, lo2: real, hi2: real): (r: real)
    ensures r >= 0.0
    ensures lo1 <= hi1 ==> r <= hi1 - lo1
    ensures lo2 <= hi2 ==> r <= hi2 - lo2
    ensures r > 0.0 ==> lo1 < hi2 && lo2 < hi1
  {
    Max(0.0, Min(hi1, hi2) - Max(lo1, lo2))
  }

  lemma MulBounded(x: real, w: real, y: real, h: real)
    requires 0.0 <= x <= w && 0.0 <= y <= h
    ensures 0.0 <= x * y <= w * h
  {
    assert x * y <= w * y;
    assert w * y <= w * h;
  }

  /** Area of the intersection of two boxes. */
  function OverlapArea(a: Rect, b: Rect): real
  {
    Common(a.left, a.Right(), b.left, b.Right()) * Common(a.top, a.Bottom(), b.top, b.Bottom())
  }

  /** The intersection does not depend on the order of the boxes. */
  lemma OverlapAreaSymmetric(a: Rect, b: Rect)
    ensures OverlapArea(a, b) == OverlapArea(b, a)
  {
    assert Common(b.left, b.Right(), a.left, a.Right()) == Common(a.left, a.Right(), b.left, b.Right());
    assert Common(b.top, b.Bottom(), a.top, a.Bottom()) == Common(a.top, a.Bottom(), b.top, b.Bottom());
  }

  /** The intersection is never negative and never larger than the second box. */
  lemma OverlapAreaBounded(a: Rect, b: Rect)
    ensures 0.0 <= OverlapArea(a, b) <= b.Area()
  {
    var x := Common(a.left, a.Right(), b.left, b.Right());
    var y := Common(a.top, a.Bottom(), b.top, b.Bottom());
    assert x <= b.width && y <= b.height;
    MulBounded(x, b.width, y, b.height);
  }

  /** The intersection is never negative, never larger than either box, and does not
      depend on the order of the boxes. */
  lemma OverlapAreaBounds(a: Rect, b: Rect)
    ensures 0.0 <= OverlapArea(a, b) <= b.Area()
    ensures OverlapArea(a, b) <= a.Area()
    ensures OverlapArea(a, b) == OverlapArea(b, a)
  {
    OverlapAreaBounded(a, b);
    OverlapAreaBounded(b, a);
    OverlapAreaSymmetric(a, b);
  }

  /** `isSignificantOverlap(a, b)`: the intersection covers more than half of `b`'s area
      (the ratio test `overlap / area(b) > 0.5`, multiplied out so that a zero-area `b`
      gives false, as `isSignificantOverlap`'s `NaN > 0.5` does). */
  predicate IsSignificantOverlap(a: Rect, b: Rect)
  {
    2.0 * OverlapArea(a, b) > b.Area()
  }

  /** For a box with positive area the multiplied-out test is `isSignificantOverlap`'s ratio test. */
  lemma SignificantIsRatioTest(a: Rect, b: Rect)
    requires b.Area() > 0.0
    ensures IsSignificantOverlap(a, b) <==> OverlapArea(a, b) / b.Area() > 0.5
  {
    var area := b.Area();
    var r := OverlapArea(a, b) / area;
    assert OverlapArea(a, b) == r * area;
    assert 2.0 * OverlapArea(a, b) - area == (2.0 * r - 1.0) * area;
    PositiveFactor(2.0 * r - 1.0, area);
  }

  lemma PositiveFactor(x: real, y: real)
    requires y > 0.0
    ensures x * y > 0.0 <==> x > 0.0
  {
    if x > 0.0 {
      assert x * y > 0.0;
    } else {
      assert x * y <= 0.0;
    }
  }

  /** `isOverlapping` does not depend on the order of its arguments. */
  lemma OverlappingSymmetric(a: Rect, b: Rect)
    ensures IsOverlapping(a, b) == IsOverlapping(b, a)
  {
  }

  /** Boxes that merely share an edge count as overlapping. */
  lemma TouchingOverlaps(a: Rect, b: Rect)
    requires a.Right() == b.left && a.top == b.top
    ensures IsOverlapping(a, b)
  {
  }

  /** A significant overlap is an overlap: separated boxes never group. */
  lemma SignificantImpliesOverlapping(a: Rect, b: Rect)
    requires IsSignificantOverlap(a, b)
    ensures IsOverlapping(a, b)
  {
    var x := Common(a.left, a.Right(), b.left, b.Right());
    var y := Common(a.top, a.Bottom(), b.top, b.Bottom());
    assert OverlapArea(a, b) == x * y;
    assert x * y > 0.0;
    assert x != 0.0 && y != 0.0;
  }

  /** The test is asymmetric: a small card lying on a large one is significantly covered,
      the large one is not. */
  lemma SignificantIsAsymmetric()
    ensures var big, small := Rect(0.0, 0.0, 10.0, 10.0), Rect(0.0, 0.0, 2.0, 2.0);
      IsSignificantOverlap(big, small) && !IsSignificantOverlap(small, big)
  {
    var big, small := Rect(0.0, 0.0, 10.0, 10.0), Rect(0.0, 0.0, 2.0, 2.0);
    assert OverlapArea(big, small) == 4.0;
  }

  /** A unit box shifted by half its width covers exactly half: not significant. */
  lemma HalfIsNotSignificant()
    ensures !IsSignificantOverlap(Rect(0.0, 0.0, 1.0, 1.0), Rect(0.5, 0.0, 1.0, 1.0))
    ensures OverlapArea(Rect(0.0, 0.0, 1.0, 1.0), Rect(0.5, 0.0, 1.0, 1.0)) == 0.5
  {
    var a, b := Rect(0.0, 0.0, 1.0, 1.0), Rect(0.5, 0.0, 1.0, 1.0);
    assert Common(0.0, 1.0, 0.5, 1.5) == 0.5;
    assert Common(0.0, 1.0, 0.0, 1.0) == 1.0;
    assert OverlapArea(a, b) == 0.5 * 1.0;
    assert b.Area() == 1.0 * 1.0;
  }

  /** A box lying entirely inside another is significantly covered by it whenever it has
      area: the overlap is the whole box. */
  lemma ContainedIsSignificant(a: Rect, b: Rect)
    requires a.left <= b.left && b.Right() <= a.Right() && a.top <= b.top && b.Bottom() <= a.Bottom()
    requires b.Area() > 0.0
    ensures OverlapArea(a, b) == b.Area()
    ensures IsSignificantOverlap(a, b)
  {
  }
}

=== FILE: idlist.dfy ===
/** The display-number list syntax of the builder's "add by ids" and "remove by ids"
    boxes, e.g. `"1, 3-5, 8"`: comma-separated parts, each a number or an inclusive range,
    collected in first-seen order without repeats (a `Set`). */
module IdList {
  import opened Wrappers
  import opened Seqs
  import opened Text

  /** What one part contributes. */
  datatype Part = Single(n: int) | Span(lo: int, hi: int) | Nothing

  /** One trimmed part. A part containing '-' is a range: it must split at '-' into exactly
      two ends that each parse as integers once trimmed. Any other part is one `parseInt`. */
  function ParsePart(part: string): (p: Part)
    ensures '-' !in part ==> p == (if ParseInt(part).Some? then Single(ParseInt(part).value) else Nothing)
    ensures '-' in part ==> !p.Single?
    ensures p.Span? ==> |Split(part, '-')| == 2
  {
    if '-' in part then
      var ends := Split(part, '-');
      if |ends| == 2 && ParseInt(Trim(ends[0])).Some? && ParseInt(Trim(ends[1])).Some? then
        Span(ParseInt(Trim(ends[0])).value, ParseInt(Trim(ends[1])).value)
      else Nothing
    else
      match ParseInt(part)
      case Some(n) => Single(n)
      case None => Nothing
  }

  /** The integers `lo, lo + 1, ..., hi`. */
  function Range(lo: int, hi: int): (r: seq<int>)
    ensures |r| == if lo <= hi then hi - lo + 1 else 0
    ensures forall k :: 0 <= k < |r| ==> r[k] == lo + k
    decreases hi - lo
  {
    if lo > hi then [] else [lo] + Range(lo + 1, hi)
  }

  /** The numbers a part adds, in the order the builder's id-box handlers add them. */
  function Expand(p: Part): (ns: seq<int>)
    ensures Distinct(ns)
    ensures forall x :: x in ns <==> (p.Single? && x == p.n) || (p.Span? && p.lo <= x <= p.hi)
  {
    match p
    case Single(n) => [n]
    case Span(lo, hi) =>
      var r := Range(lo, hi);
      forall x | lo <= x <= hi ensures x in r {
        assert r[x - lo] == x;
      }
      r
    case Nothing => []
  }

  /** `set.add(x)` for each `x` of `xs` in turn: the first-seen order without repeats. */
  function AddAll(acc: seq<int>, xs: seq<int>): (r: seq<int>)
    requires Distinct(acc)
    ensures Distinct(r) && |r| >= |acc| && r[..|acc|] == acc
    ensures forall x :: x in r <==> x in acc || x in xs
    decreases |xs|
  {
    if |xs| == 0 then acc
    else if xs[0] in acc then AddAll(acc, xs[1..])
    else
      var r := AddAll(acc + [xs[0]], xs[1..]);
      assert r[..|acc|] == r[..|acc| + 1][..|acc|];
      r
  }

  /** Adding values that are new and repeat-free appends them unchanged. */
  lemma {:induction false} AddAllFresh(acc: seq<int>, xs: seq<int>)
    requires Distinct(acc) && Distinct(xs)
    requires forall x :: x in xs ==> x !in acc
    ensures AddAll(acc, xs) == acc + xs
    decreases |xs|
  {
    if |xs| > 0 {
      FreshStep(acc, xs);
      assert xs[0] !in acc by {
        assert xs[0] in xs;
      }
      assert AddAll(acc, xs) == AddAll(acc + [xs[0]], xs[1..]);
      AddAllFresh(acc + [xs[0]], xs[1..]);
      assert acc + [xs[0]] + xs[1..] == acc + xs;
    }
  }

  /** Moving the first new value onto the accumulator keeps both repeat-free and apart. */
  lemma FreshStep(acc: seq<int>, xs: seq<int>)
    requires |xs| > 0 && Distinct(acc) && Distinct(xs)
    requires forall x :: x in xs ==> x !in acc
    ensures Distinct(acc + [xs[0]]) && Distinct(xs[1..])
    ensures forall x :: x in xs[1..] ==> x !in acc + [xs[0]]
  {
    var y, rest, acc' := xs[0], xs[1..], acc + [xs[0]];
    assert y in xs;
    forall i, j | 0 <= i < j < |acc'| ensures acc'[i] != acc'[j] {
      if j == |acc| {
        assert acc'[i] == acc[i] && acc[i] in acc;
      } else {
        assert acc'[i] == acc[i] && acc'[j] == acc[j];
      }
    }
    forall i, j | 0 <= i < j < |rest| ensures rest[i] != rest[j] {
      assert rest[i] == xs[i + 1] && rest[j] == xs[j + 1];
    }
    forall x | x in rest ensures x !in acc' {
      var k :| 0 <= k < |rest| && rest[k] == x;
      assert x == xs[k + 1] && x in xs;
      assert x != xs[0];
    }
  }

  /** The numbers one untrimmed part adds. */
  function PartNumbers(part: string): seq<int>
  {
    Expand(ParsePart(Trim(part)))
  }

  /** `x` is among the numbers some part denotes. */
  predicate Denoted(parts: seq<string>, x: int)
  {
    exists k :: 0 <= k < |parts| && x in PartNumbers(parts[k])
  }

  /** What a list of parts denotes: what its first part does and what the rest do. */
  lemma DenotedCons(parts: seq<string>, x: int)
    requires |parts| > 0
    ensures Denoted(parts, x) <==> x in PartNumbers(parts[0]) || Denoted(parts[1..], x)
  {
    if Denoted(parts[1..], x) {
      var k :| 0 <= k < |parts[1..]| && x in PartNumbers(parts[1..][k]);
      assert parts[k + 1] == parts[1..][k];
    }
    if Denoted(parts, x) && x !in PartNumbers(parts[0]) {
      var k :| 0 <= k < |parts| && x in PartNumbers(parts[k]);
      assert parts[1..][k - 1] == parts[k];
    }
  }

  /** A prefix of a prefix is a prefix. */
  lemma PrefixOfPrefix(r: seq<int>, next: seq<int>, acc: seq<int>)
    requires |acc| <= |next| <= |r| && r[..|next|] == next && next[..|acc|] == acc
    ensures r[..|acc|] == acc
  {
    assert r[..|acc|] == r[..|next|][..|acc|];
  }

  /** What the first part adds, followed by what the rest denote, is what all parts denote. */
  lemma CollectStep(parts: seq<string>, acc: seq<int>, next: seq<int>, r: seq<int>)
    requires |parts| > 0
    requires forall x :: x in next <==> x in acc || x in PartNumbers(parts[0])
    requires forall x :: x in r <==> x in next || Denoted(parts[1..], x)
    ensures forall x :: x in r <==> x in acc || Denoted(parts, x)
  {
    forall x ensures x in r <==> x in acc || Denoted(parts, x) {
      DenotedCons(parts, x);
    }
  }

  /** The numbers of all parts from the first on, added after `acc`. */
  function Collect(acc: seq<int>, parts: seq<string>): (r: seq<int>)
    requires Distinct(acc)
    ensures Distinct(r) && |r| >= |acc| && r[..|acc|] == acc
    ensures forall x :: x in r <==> x in acc || Denoted(parts, x)
    decreases |parts|
  {
    if |parts| == 0 then acc
    else
      var next := AddAll(acc, PartNumbers(parts[0]));
      var r := Collect(next, parts[1..]);
      PrefixOfPrefix(r, next, acc);
      CollectStep(parts, acc, next, r);
      r
  }

  /** The numbers of every part in turn, repeats included. */
  function AllNumbers(parts: seq<string>): seq<int>
  {
    if |parts| == 0 then [] else PartNumbers(parts[0]) + AllNumbers(parts[1..])
  }

  /** Each value of `xs` at the position where it first occurs: the element at a position is
      kept exactly when it does not occur earlier. */
  function FirstOccurrences(xs: seq<int>): seq<int>
  {
    if |xs| == 0 then []
    else
      var init, last := xs[..|xs| - 1], xs[|xs| - 1];
      FirstOccurrences(init) + (if last in init then [] else [last])
  }

  /** Adding two lists in turn is adding their concatenation. */
  lemma {:induction false} AddAllAppend(acc: seq<int>, a: seq<int>, b: seq<int>)
    requires Distinct(acc)
    ensures AddAll(AddAll(acc, a), b) == AddAll(acc, a + b)
    decreases |a|
  {
    if |a| > 0 {
      assert (a + b)[0] == a[0] && (a + b)[1..] == a[1..] + b;
      if a[0] in acc {
        AddAllAppend(acc, a[1..], b);
      } else {
        AddAllAppend(acc + [a[0]], a[1..], b);
      }
    } else {
      assert a + b == b;
    }
  }

  /** Collecting part by part adds all the parts' numbers in one go. */
  lemma {:induction false} CollectIsAddAll(acc: seq<int>, parts: seq<string>)
    requires Distinct(acc)
    ensures Collect(acc, parts) == AddAll(acc, AllNumbers(parts))
    decreases |parts|
  {
    if |parts| > 0 {
      var next := AddAll(acc, PartNumbers(parts[0]));
      CollectIsAddAll(next, parts[1..]);
      AddAllAppend(acc, PartNumbers(parts[0]), AllNumbers(parts[1..]));
    }
  }

  /** `set.add` for each value in turn from an empty set keeps the first occurrences. */
  lemma {:induction false} AddAllIsFirstOccurrences(xs: seq<int>)
    ensures AddAll([], xs) == FirstOccurrences(xs)
    decreases |xs|
  {
    if |xs| > 0 {
      var init, last := xs[..|xs| - 1], xs[|xs| - 1];
      AddAllIsFirstOccurrences(init);
      assert init + [last] == xs;
      AddAllAppend([], init, [last]);
      var r := AddAll([], init);
      assert AddAll(r, [last]) == if last in r then r else r + [last] by {
        assert [last][1..] == [];
      }
    }
  }

  /** The numbers an id list denotes, in first-seen order and without repeats. */
  function ParseIdList(input: string): (ids: seq<int>)
    ensures Distinct(ids)
    ensures forall x :: x in ids <==> Denoted(Split(input, ','), x)
    ensures ids == FirstOccurrences(AllNumbers(Split(input, ',')))
  {
    var parts := Split(input, ',');
    CollectIsAddAll([], parts);
    AddAllIsFirstOccurrences(AllNumbers(parts));
    Collect([], parts)
  }

  // ---- what particular inputs denote ------------------------------------------

  /** A string of digits has no white space, comma or dash, and is its own trim. */
  lemma NumeralFacts(n: nat)
    ensures ',' !in Show(n) && '-' !in Show(n)
    ensures Trim(Show(n)) == Show(n)
    ensures ParseInt(Show(n)) == Some(n)
  {
    var s := Show(n);
    assert forall k :: 0 <= k < |s| ==> !IsSpace(s[k]) && s[k] != ',' && s[k] != '-';
    TrimKeepsTrimmed(s);
    ParseIntOfShow(n, "");
    assert s + "" == s;
  }

  /** A comma-free list is a single part. */
  lemma OnePartList(part: string)
    requires ',' !in part
    ensures ParseIdList(part) == AddAll([], PartNumbers(part))
  {
    SplitWithout(part, ',');
    var next := AddAll([], PartNumbers(part));
    assert [part][1..] == [];
    assert Collect([], [part]) == Collect(next, []);
  }

  /** A plain number denotes itself. */
  lemma SingleNumber(n: nat)
    ensures ParseIdList(Show(n)) == [n]
  {
    var s := Show(n);
    NumeralFacts(n);
    OnePartList(s);
    assert ParsePart(Trim(s)) == Single(n);
    assert PartNumbers(s) == [n];
    assert AddAll([], [n]) == [n];
  }

  /** `"a-b"` is the range from a to b inclusive. */
  lemma RangePart(a: nat, b: nat)
    ensures ParsePart(Show(a) + "-" + Show(b)) == Span(a, b)
  {
    NumeralFacts(a);
    NumeralFacts(b);
    var s := Show(a) + "-" + Show(b);
    assert Join([Show(a), Show(b)], '-') == s;
    SplitJoin([Show(a), Show(b)], '-');
    assert s[|Show(a)|] == '-';
  }

  /** The text `"a-b"` has no comma and no white space at either end. */
  lemma RangeText(a: nat, b: nat)
    ensures ',' !in Show(a) + "-" + Show(b)
    ensures Trim(Show(a) + "-" + Show(b)) == Show(a) + "-" + Show(b)
  {
    var x, y := Show(a), Show(b);
    NumeralFacts(a);
    NumeralFacts(b);
    var s := x + "-" + y;
    assert ',' !in "-";
    assert s[0] == x[0] && IsDecimalDigit(x[0]);
    assert s[|s| - 1] == y[|y| - 1] && IsDecimalDigit(y[|y| - 1]);
    TrimKeepsTrimmed(s);
  }

  /** A comma-free list whose one part is a range denotes the range. */
  lemma SpanList(part: string, a: int, b: int)
    requires ',' !in part && Trim(part) == part && ParsePart(part) == Span(a, b)
    ensures ParseIdList(part) == Range(a, b)
  {
    OnePartList(part);
    assert PartNumbers(part) == Range(a, b);
    AddAllFresh([], Range(a, b));
    assert [] + Range(a, b) == Range(a, b);
  }

  /** The members of a range are the integers between its ends. */
  lemma RangeMembers(a: int, b: int)
    ensures forall x :: x in Range(a, b) <==> a <= x <= b
  {
    forall x | a <= x <= b ensures x in Range(a, b) {
      assert Range(a, b)[x - a] == x;
    }
  }

  /** The list `"a-b"` denotes exactly a, a + 1, ..., b, and nothing when a > b. */
  lemma RangeList(a: nat, b: nat)
    ensures ParseIdList(Show(a) + "-" + Show(b)) == Range(a, b)
    ensures forall x :: x in ParseIdList(Show(a) + "-" + Show(b)) <==> a <= x <= b
  {
    RangeText(a, b);
    RangePart(a, b);
    SpanList(Show(a) + "-" + Show(b), a, b);
    RangeMembers(a, b);
  }

  /** A part with two or more dashes denotes nothing. */
  lemma TwoDashesDenoteNothing(part: string)
    requires multiset(part)['-'] >= 2
    ensures ParsePart(part) == Nothing
  {
  }
}

=== FILE: ids.dfy ===
/** Record identifiers. A constructor keeps a truthy id and otherwise takes a freshly
    generated one; the generator (`crypto.randomUUID`) is an input here. */
module Ids {
  import opened Wrappers

  /** `id || crypto.randomUUID()`, with `newId` standing for the generated id: a missing id or the empty string is falsy and is replaced. */
  function IdOrFresh(id: Option<string>, newId: string): (r: string)
    ensures id.Some? && id.value != "" ==> r == id.value
    ensures id.None? || id.value == "" ==> r == newId
    ensures newId != "" ==> r != ""
  {
    if id.Some? && id.value != "" then id.value else newId
  }
}

=== FILE: records.dfy ===
/** Ordered lists of keyed records, the shape both stored lists share: first-match
    search, upsert, and deletion of every record with a key. */
module Records {
  import opened Wrappers
  import opened Seqs

  /** `findIndex(p)`: the first position satisfying `p`, or `None` (`-1`). */
  function FindIndex<T>(s: seq<T>, p: T -> bool): (r: Option<nat>)
    ensures r.None? <==> forall i :: 0 <= i < |s| ==> !p(s[i])
    ensures r.Some? ==> r.value < |s| && p(s[r.value]) && forall i :: 0 <= i < r.value ==> !p(s[i])
  {
    if |s| == 0 then None
    else if p(s[0]) then Some(0)
    else
      match FindIndex(s[1..], p)
      case None => None
      case Some(i) => Some(i + 1)
  }

  /** The record test `r => key(r) === id`. */
  function HasKey<T>(key: T -> string, id: string): T -> bool
  {
    (t: T) => key(t) == id
  }

  /** The record test `r => key(r) !== id`. */
  function LacksKey<T>(key: T -> string, id: string): T -> bool
  {
    (t: T) => key(t) != id
  }

  /** The keys of a list, in order. */
  function Keys<T>(s: seq<T>, key: T -> string): seq<string>
  {
    Map(s, key)
  }

  /** Replaces the first record with `x`'s key by `x`, or appends `x` when there is none;
      every other record keeps its place. */
  function Upsert<T>(s: seq<T>, key: T -> string, x: T): (r: seq<T>)
    ensures FindIndex(s, HasKey(key, key(x))).Some? ==>
      var i := FindIndex(s, HasKey(key, key(x))).value;
      |r| == |s| && r[i] == x && forall k :: 0 <= k < |s| && k != i ==> r[k] == s[k]
    ensures FindIndex(s, HasKey(key, key(x))).None? ==>
      |r| == |s| + 1 && r[..|s|] == s && r[|s|] == x
  {
    match FindIndex(s, HasKey(key, key(x)))
    case Some(i) => s[i := x]
    case None => s + [x]
  }

  /** Upserting the same record twice is the same as once. */
  lemma UpsertIdempotent<T>(s: seq<T>, key: T -> string, x: T)
    ensures Upsert(Upsert(s, key, x), key, x) == Upsert(s, key, x)
  {
    var r := Upsert(s, key, x);
    var p := HasKey(key, key(x));
    match FindIndex(s, p)
    case Some(i) =>
      assert FindIndex(r, p) == Some(i) by {
        assert forall k :: 0 <= k < i ==> r[k] == s[k];
      }
    case None =>
      assert FindIndex(r, p) == Some(|s|) by {
        assert forall k :: 0 <= k < |s| ==> r[k] == s[k];
      }
  }

  /** After an upsert the record's key is present and every key present before still is. */
  lemma UpsertKeepsKeys<T>(s: seq<T>, key: T -> string, x: T)
    ensures key(x) in Keys(Upsert(s, key, x), key)
    ensures forall id :: id in Keys(s, key) ==> id in Keys(Upsert(s, key, x), key)
  {
    var r := Upsert(s, key, x);
    var p := HasKey(key, key(x));
    match FindIndex(s, p)
    case Some(i) =>
      assert Keys(r, key)[i] == key(x);
      forall id | id in Keys(s, key) ensures id in Keys(r, key) {
        var k :| 0 <= k < |s| && Keys(s, key)[k] == id;
        if k == i {
          assert p(s[i]);
        } else {
          assert Keys(r, key)[k] == id;
        }
      }
    case None =>
      assert Keys(r, key)[|s|] == key(x);
      forall id | id in Keys(s, key) ensures id in Keys(r, key) {
        var k :| 0 <= k < |s| && Keys(s, key)[k] == id;
        assert Keys(r, key)[k] == id;
      }
  }

  /** The record a list holds under `id`: the first one with that key. */
  function Lookup<T>(s: seq<T>, key: T -> string, id: string): (r: Option<T>)
    ensures r.None? <==> forall i :: 0 <= i < |s| ==> key(s[i]) != id
    ensures r.Some? ==> key(r.value) == id && r.value in s
  {
    match FindIndex(s, HasKey(key, id))
    case Some(i) => Some(s[i])
    case None => None
  }

  /** The first match is the first position that satisfies the test. */
  lemma FindIndexIs<T>(s: seq<T>, p: T -> bool, r: nat)
    requires r < |s| && p(s[r]) && forall i :: 0 <= i < r ==> !p(s[i])
    ensures FindIndex(s, p) == Some(r)
  {
    var f := FindIndex(s, p);
    assert p(s[r]);
    assert f.Some? && p(s[f.value]);
  }

  /** Replacing records by records with the same keys moves no key. */
  lemma LookupSameKeys<T>(s: seq<T>, t: seq<T>, key: T -> string, id: string)
    requires |s| == |t| && forall k :: 0 <= k < |s| ==> key(s[k]) == key(t[k])
    ensures FindIndex(s, HasKey(key, id)) == FindIndex(t, HasKey(key, id))
  {
    var p := HasKey(key, id);
    match FindIndex(s, p)
    case Some(i) =>
      assert p(t[i]) && forall k :: 0 <= k < i ==> !p(t[k]);
      FindIndexIs(t, p, i);
    case None =>
      assert forall k :: 0 <= k < |t| ==> !p(t[k]) by {
        forall k | 0 <= k < |t| ensures !p(t[k]) {
          assert !p(s[k]);
        }
      }
  }

  /** Appending a record finds an existing key where it was, and a new key at the end
      when the record carries it. */
  lemma LookupAppend<T>(s: seq<T>, x: T, key: T -> string, id: string)
    ensures FindIndex(s, HasKey(key, id)).Some? ==> FindIndex(s + [x], HasKey(key, id)) == FindIndex(s, HasKey(key, id))
    ensures FindIndex(s, HasKey(key, id)).None? && key(x) == id ==> FindIndex(s + [x], HasKey(key, id)) == Some(|s|)
    ensures FindIndex(s, HasKey(key, id)).None? && key(x) != id ==> FindIndex(s + [x], HasKey(key, id)).None?
  {
    var p, t := HasKey(key, id), s + [x];
    assert forall k :: 0 <= k < |s| ==> t[k] == s[k];
    match FindIndex(s, p)
    case Some(i) =>
      FindIndexIs(t, p, i);
    case None =>
      if key(x) == id {
        assert p(t[|s|]);
        FindIndexIs(t, p, |s|);
      } else {
        assert forall k :: 0 <= k < |t| ==> !p(t[k]) by {
          forall k | 0 <= k < |t| ensures !p(t[k]) {
            if k < |s| {
              assert !p(s[k]);
            }
          }
        }
      }
  }

  /** Overwriting the first record with a key by another record with that key makes the
      key find the new record and leaves every other key's record alone. */
  lemma LookupReplace<T>(s: seq<T>, i: nat, x: T, key: T -> string, id: string)
    requires FindIndex(s, HasKey(key, key(x))) == Some(i)
    ensures Lookup(s[i := x], key, key(x)) == Some(x)
    ensures id != key(x) ==> Lookup(s[i := x], key, id) == Lookup(s, key, id)
  {
    var t := s[i := x];
    assert forall k :: 0 <= k < |s| ==> key(s[k]) == key(t[k]);
    LookupSameKeys(s, t, key, key(x));
    LookupSameKeys(s, t, key, id);
    if id != key(x) {
      match FindIndex(s, HasKey(key, id))
      case Some(m) =>
        assert key(s[m]) == id;
        assert m != i;
      case None =>
    }
  }

  /** Appending a record with a key no record has makes the key find it and leaves every
      other key's record alone. */
  lemma LookupAppendNew<T>(s: seq<T>, x: T, key: T -> string, id: string)
    requires FindIndex(s, HasKey(key, key(x))).None?
    ensures Lookup(s + [x], key, key(x)) == Some(x)
    ensures id != key(x) ==> Lookup(s + [x], key, id) == Lookup(s, key, id)
  {
    LookupAppend(s, x, key, key(x));
    LookupAppend(s, x, key, id);
    match FindIndex(s, HasKey(key, id))
    case Some(m) =>
      assert (s + [x])[m] == s[m];
    case None =>
  }

  /** After an upsert the record's key finds the record, and every other key finds what it
      found before. */
  lemma UpsertLookup<T>(s: seq<T>, key: T -> string, x: T, id: string)
    ensures Lookup(Upsert(s, key, x), key, key(x)) == Some(x)
    ensures id != key(x) ==> Lookup(Upsert(s, key, x), key, id) == Lookup(s, key, id)
  {
    match FindIndex(s, HasKey(key, key(x)))
    case Some(i) =>
      assert Upsert(s, key, x) == s[i := x];
      LookupReplace(s, i, x, key, id);
    case None =>
      assert Upsert(s, key, x) == s + [x];
      LookupAppendNew(s, x, key, id);
  }

  /** `filter(r => key(r) !== id)`: drops every record with the key and keeps the rest in
      order. */
  function RemoveAll<T(!new)>(s: seq<T>, key: T -> string, id: string): (r: seq<T>)
    ensures forall t :: t in r <==> t in s && key(t) != id
    ensures forall t :: multiset(r)[t] == if key(t) == id then 0 else multiset(s)[t]
  {
    var r := Filter(s, LacksKey(key, id));
    forall t ensures multiset(r)[t] == if key(t) == id then 0 else multiset(s)[t] {
      FilterMultiset(s, LacksKey(key, id), t);
    }
    r
  }

  /** Deleting keeps the surviving records in their original order. */
  lemma RemoveAllKeepsOrder<T(!new)>(s: seq<T>, key: T -> string, id: string)
    ensures IsSubsequence(RemoveAll(s, key, id), s)
  {
    FilterIsSubsequence(s, LacksKey(key, id));
  }

  /** Deleting an absent key changes nothing, and deleting twice is deleting once. */
  lemma RemoveAllAbsentAndTwice<T(!new)>(s: seq<T>, key: T -> string, id: string)
    ensures (forall i :: 0 <= i < |s| ==> key(s[i]) != id) ==> RemoveAll(s, key, id) == s
    ensures RemoveAll(RemoveAll(s, key, id), key, id) == RemoveAll(s, key, id)
  {
    if forall i :: 0 <= i < |s| ==> key(s[i]) != id {
      FilterAll(s, LacksKey(key, id));
    }
    FilterIdempotent(s, LacksKey(key, id));
  }
}

=== FILE: seqs.dfy ===
/** Sequence vocabulary shared by the model: duplicate-freedom, order-preserving
    filtering, and the subsequence relation used to state "the order of the rest
    is preserved". */
module Seqs {
  import opened Wrappers

  /** No value occurs twice. */
  predicate Distinct<T(==)>(s: seq<T>)
  {
    forall i, j :: 0 <= i < j < |s| ==> s[i] != s[j]
  }

  /** `Array.prototype.filter`: the elements satisfying `p`, in their original order. */
  function Filter<T>(s: seq<T>, p: T -> bool): (r: seq<T>)
    ensures |r| <= |s|
    ensures forall x :: x in r ==> x in s && p(x)
    ensures forall x :: x in s && p(x) ==> x in r
  {
    if |s| == 0 then []
    else (if p(s[0]) then [s[0]] else []) + Filter(s[1..], p)
  }

  /** `r` can be obtained from `s` by deleting elements (greedy matching from the front). */
  predicate IsSubsequence<T(==)>(r: seq<T>, s: seq<T>)
    decreases |s|
  {
    if |r| == 0 then true
    else if |s| == 0 then false
    else if r[0] == s[0] then IsSubsequence(r[1..], s[1..])
    else IsSubsequence(r, s[1..])
  }

  lemma {:induction false} SubsequenceDropHead<T>(r: seq<T>, s: seq<T>)
    requires |r| > 0 && IsSubsequence(r, s)
    ensures IsSubsequence(r[1..], s)
    decreases |s|, 0
  {
    if r[0] == s[0] {
      SubsequenceSkip(r[1..], s[1..], s[0]);
    } else {
      SubsequenceDropHead(r, s[1..]);
      SubsequenceSkip(r[1..], s[1..], s[0]);
    }
  }

  /** Prepending an element to the larger sequence keeps a subsequence a subsequence. */
  lemma {:induction false} SubsequenceSkip<T>(r: seq<T>, s: seq<T>, x: T)
    requires IsSubsequence(r, s)
    ensures IsSubsequence(r, [x] + s)
    decreases |s|, 1
  {
    var xs := [x] + s;
    assert xs[1..] == s;
    if |r| > 0 && r[0] == x {
      SubsequenceDropHead(r, s);
    }
  }

  /** Every sequence is a subsequence of itself. */
  lemma {:induction false} SubsequenceRefl<T>(s: seq<T>)
    ensures IsSubsequence(s, s)
  {
    if |s| > 0 {
      SubsequenceRefl(s[1..]);
    }
  }

  /** Deleting one position leaves a subsequence. */
  lemma {:induction false} SubsequenceDropOne<T>(s: seq<T>, i: nat)
    requires i < |s|
    ensures IsSubsequence(s[..i] + s[i + 1..], s)
    decreases i
  {
    if i == 0 {
      assert s[..0] + s[1..] == s[1..];
      SubsequenceRefl(s[1..]);
      SubsequenceSkip(s[1..], s[1..], s[0]);
      assert [s[0]] + s[1..] == s;
    } else {
      var r := s[..i] + s[i + 1..];
      SubsequenceDropOne(s[1..], i - 1);
      assert r[0] == s[0];
      assert r[1..] == s[1..][..i - 1] + s[1..][i..];
    }
  }

  /** The subsequence relation is transitive. */
  lemma {:induction false} SubsequenceTrans<T>(a: seq<T>, b: seq<T>, c: seq<T>)
    requires IsSubsequence(a, b) && IsSubsequence(b, c)
    ensures IsSubsequence(a, c)
    decreases |c|
  {
    if |a| > 0 {
      assert |b| > 0 && |c| > 0;
      if b[0] == c[0] {
        if a[0] == b[0] {
          SubsequenceTrans(a[1..], b[1..], c[1..]);
        } else {
          SubsequenceTrans(a, b[1..], c[1..]);
        }
      } else {
        SubsequenceTrans(a, b, c[1..]);
        if a[0] == c[0] {
          SubsequenceDropHead(a, c[1..]);
        }
      }
    }
  }

  /** Filtering keeps the kept elements in their original relative order. */
  lemma {:induction false} FilterIsSubsequence<T>(s: seq<T>, p: T -> bool)
    ensures IsSubsequence(Filter(s, p), s)
  {
    if |s| > 0 {
      FilterIsSubsequence(s[1..], p);
      if p(s[0]) {
        var r := Filter(s, p);
        assert r[0] == s[0] && r[1..] == Filter(s[1..], p);
      } else {
        assert Filter(s, p) == Filter(s[1..], p);
        SubsequenceSkip(Filter(s[1..], p), s[1..], s[0]);
        assert [s[0]] + s[1..] == s;
      }
    }
  }

  /** Filtering distributes over concatenation. */
  lemma {:induction false} FilterAppend<T>(a: seq<T>, b: seq<T>, p: T -> bool)
    ensures Filter(a + b, p) == Filter(a, p) + Filter(b, p)
  {
    if |a| > 0 {
      assert (a + b)[1..] == a[1..] + b;
      FilterAppend(a[1..], b, p);
    } else {
      assert a + b == b;
    }
  }

  /** Each value keeps all of its occurrences when it satisfies `p` and loses all of them otherwise. */
  lemma {:induction false} FilterMultiset<T>(s: seq<T>, p: T -> bool, x: T)
    ensures multiset(Filter(s, p))[x] == if p(x) then multiset(s)[x] else 0
  {
    if |s| > 0 {
      FilterMultiset(s[1..], p, x);
      assert s == [s[0]] + s[1..];
      assert multiset(s) == multiset([s[0]]) + multiset(s[1..]);
    }
  }

  /** Filtering twice by the same predicate is the same as filtering once. */
  lemma {:induction false} FilterIdempotent<T>(s: seq<T>, p: T -> bool)
    ensures Filter(Filter(s, p), p) == Filter(s, p)
  {
    if |s| > 0 {
      FilterIdempotent(s[1..], p);
      if p(s[0]) {
        var r := Filter(s, p);
        assert r == [s[0]] + Filter(s[1..], p);
        assert r[0] == s[0] && r[1..] == Filter(s[1..], p);
        assert Filter(r, p) == [r[0]] + Filter(r[1..], p);
      } else {
        assert Filter(s, p) == Filter(s[1..], p);
      }
    }
  }

  /** A filter that keeps everything returns the sequence unchanged. */
  lemma {:induction false} FilterAll<T>(s: seq<T>, p: T -> bool)
    requires forall x :: x in s ==> p(x)
    ensures Filter(s, p) == s
  {
    if |s| > 0 {
      assert forall x :: x in s[1..] ==> x in s;
      FilterAll(s[1..], p);
    }
  }

  /** A duplicate-free sequence holds every value at most once. */
  lemma {:induction false} DistinctCounts<T>(s: seq<T>, x: T)
    requires Distinct(s)
    ensures multiset(s)[x] <= 1
  {
    if |s| > 0 {
      assert s == [s[0]] + s[1..];
      assert Distinct(s[1..]);
      DistinctCounts(s[1..], x);
      if x == s[0] {
        assert x !in s[1..];
      }
    }
  }

  /** Two positions holding the same value contribute two occurrences. */
  lemma TwoOccurrences<T>(t: seq<T>, i: nat, j: nat)
    requires i < j < |t| && t[i] == t[j]
    ensures multiset(t)[t[i]] >= 2
  {
    assert t == t[..i] + [t[i]] + t[i + 1..j] + [t[j]] + t[j + 1..];
  }

  /** Rearranging a duplicate-free sequence keeps it duplicate-free. */
  lemma DistinctPermutation<T>(s: seq<T>, t: seq<T>)
    requires Distinct(s) && multiset(s) == multiset(t)
    ensures Distinct(t)
  {
    forall i, j | 0 <= i < j < |t| ensures t[i] != t[j] {
      if t[i] == t[j] {
        TwoOccurrences(t, i, j);
        DistinctCounts(s, t[i]);
      }
    }
  }

  /** Filtering a duplicate-free sequence leaves it duplicate-free. */
  lemma {:induction false} FilterDistinct<T>(s: seq<T>, p: T -> bool)
    requires Distinct(s)
    ensures Distinct(Filter(s, p))
  {
    if |s| > 0 {
      assert Distinct(s[1..]);
      FilterDistinct(s[1..], p);
      assert s[0] !in s[1..];
    }
  }

  /** The first position of `x` in `s` (`indexOf`), or `None` (`-1`). */
  function IndexOf<T(==)>(s: seq<T>, x: T): (r: Option<nat>)
    ensures r.None? <==> x !in s
    ensures r.Some? ==> r.value < |s| && s[r.value] == x && x !in s[..r.value]
  {
    if |s| == 0 then None
    else if s[0] == x then Some(0)
    else
      match IndexOf(s[1..], x)
      case None => None
      case Some(i) =>
        assert s[..i + 1] == [s[0]] + s[1..][..i];
        Some(i + 1)
  }

  /** `Array.prototype.map`. */
  function Map<T, U>(s: seq<T>, f: T -> U): (r: seq<U>)
    ensures |r| == |s| && forall k :: 0 <= k < |s| ==> r[k] == f(s[k])
  {
    seq(|s|, k requires 0 <= k < |s| => f(s[k]))
  }

  /** Two filters commute. */
  lemma {:induction false} FilterCommute<T>(s: seq<T>, p: T -> bool, q: T -> bool)
    ensures Filter(Filter(s, p), q) == Filter(Filter(s, q), p)
  {
    if |s| > 0 {
      var x, head := s[0], [s[0]];
      assert s == head + s[1..];
      FilterAppend(head, s[1..], p);
      FilterAppend(head, s[1..], q);
      FilterAppend(Filter(head, p), Filter(s[1..], p), q);
      FilterAppend(Filter(head, q), Filter(s[1..], q), p);
      assert Filter(head, p) == if p(x) then [x] else [];
      assert Filter(head, q) == if q(x) then [x] else [];
      assert Filter(Filter(head, p), q) == Filter(Filter(head, q), p);
      FilterCommute(s[1..], p, q);
    }
  }

  /** A list that is `mid` followed by `b`, where `mid` is `a` followed by `x`, is `a`
      followed by `x` and `b`. */
  lemma AppendOne<T>(s: seq<T>, mid: seq<T>, a: seq<T>, x: T, b: seq<T>)
    requires s == mid + b && mid == a + [x]
    ensures s == a + ([x] + b)
  {
  }

  /** The parts of `a + b`: its length, its prefix `a`, and `b` after it. */
  lemma AppendParts<T>(s: seq<T>, a: seq<T>, b: seq<T>)
    requires s == a + b
    ensures |s| == |a| + |b| && s[..|a|] == a
    ensures forall i :: 0 <= i < |b| ==> s[|a| + i] == b[i]
  {
  }

  /** The first occurrence of `x` in `a + [x] + b` when `a` does not contain it. */
  lemma IndexOfAfterPrefix<T>(a: seq<T>, x: T, b: seq<T>)
    requires x !in a
    ensures IndexOf(a + [x] + b, x) == Some(|a|)
  {
    var s := a + [x] + b;
    assert s[|a|] == x;
    assert forall k :: 0 <= k < |a| ==> s[k] == a[k];
    assert forall j :: |a| < j <= |s| ==> s[..j][|a|] == x;
  }
}

=== FILE: sorting.dfy ===
/** The stable sort that `Array.prototype.sort` performs with a numeric comparator
    `(a, b) => key(a) - key(b)`: ascending by key, ties kept in their original order.
    It orders the drag candidates by z-index and the library by display number. */
module Sorting {
  import opened Seqs

  /** Ascending by `key`. */
  predicate SortedBy<T>(s: seq<T>, key: T -> int)
  {
    forall i, j :: 0 <= i < j < |s| ==> key(s[i]) <= key(s[j])
  }

  /** Appending an element no smaller than everything before it keeps a sequence sorted. */
  lemma AppendSorted<T>(a: seq<T>, y: T, key: T -> int)
    requires SortedBy(a, key)
    requires forall z :: z in a ==> key(z) <= key(y)
    ensures SortedBy(a + [y], key)
  {
    var b := a + [y];
    forall i, j | 0 <= i < j < |b|
      ensures key(b[i]) <= key(b[j])
    {
      if j == |a| {
        assert b[i] in a;
      } else {
        assert b[i] == a[i] && b[j] == a[j];
      }
    }
  }

  /** Places `x` after every element whose key does not exceed `key(x)`. */
  function Insert<T>(s: seq<T>, x: T, key: T -> int): (r: seq<T>)
    ensures |r| == |s| + 1
    ensures multiset(r) == multiset(s) + multiset{x}
    ensures forall y :: y in r ==> y in s || y == x
  {
    if |s| == 0 then [x]
    else if key(s[|s| - 1]) <= key(x) then s + [x]
    else
      var init, last := s[..|s| - 1], s[|s| - 1];
      assert s == init + [last];
      assert forall y :: y in init ==> y in s;
      Insert(init, x, key) + [last]
  }

  /** Inserting into a sorted sequence yields a sorted sequence. */
  lemma {:induction false} InsertSorted<T>(s: seq<T>, x: T, key: T -> int)
    requires SortedBy(s, key)
    ensures SortedBy(Insert(s, x, key), key)
  {
    if |s| == 0 {
    } else if key(s[|s| - 1]) <= key(x) {
      forall z | z in s ensures key(z) <= key(x) {
        var i :| 0 <= i < |s| && s[i] == z;
        assert i == |s| - 1 || key(s[i]) <= key(s[|s| - 1]);
      }
      AppendSorted(s, x, key);
    } else {
      var init, last := s[..|s| - 1], s[|s| - 1];
      assert s == init + [last];
      var rest := Insert(init, x, key);
      assert SortedBy(init, key);
      InsertSorted(init, x, key);
      forall z | z in rest ensures key(z) <= key(last) {
        if z != x {
          var i :| 0 <= i < |init| && init[i] == z;
          assert s[i] == z;
        }
      }
      AppendSorted(rest, last, key);
    }
  }

  /** Insertion sort, processing the elements in their original order. */
  function SortBy<T>(s: seq<T>, key: T -> int): (r: seq<T>)
    ensures |r| == |s|
    ensures multiset(r) == multiset(s)
    ensures SortedBy(r, key)
  {
    if |s| == 0 then []
    else
      assert s == s[..|s| - 1] + [s[|s| - 1]];
      var sorted := SortBy(s[..|s| - 1], key);
      InsertSorted(sorted, s[|s| - 1], key);
      Insert(sorted, s[|s| - 1], key)
  }

  /** Inserting into a sorted sequence leaves the elements of every key class in their order,
      with `x` last in its class. */
  lemma {:induction false} InsertStable<T>(s: seq<T>, x: T, key: T -> int, p: T -> bool, v: int)
    requires SortedBy(s, key)
    requires forall y :: p(y) == (key(y) == v)
    ensures Filter(Insert(s, x, key), p) == Filter(s, p) + Filter([x], p)
  {
    if |s| == 0 {
    } else if key(s[|s| - 1]) <= key(x) {
      FilterAppend(s, [x], p);
    } else {
      var init, last := s[..|s| - 1], s[|s| - 1];
      assert s == init + [last];
      assert SortedBy(init, key);
      var rest := Insert(init, x, key);
      assert Insert(s, x, key) == rest + [last];
      InsertStable(init, x, key, p, v);
      FilterAppend(rest, [last], p);
      FilterAppend(init, [last], p);
      DisjointClasses(Filter(init, p), x, last, key, p, v);
    }
  }

  /** Elements with different keys cannot both belong to one key class, so the class
      gains them in either order alike. */
  lemma DisjointClasses<T>(a: seq<T>, x: T, y: T, key: T -> int, p: T -> bool, v: int)
    requires key(x) < key(y)
    requires forall z :: p(z) == (key(z) == v)
    ensures a + Filter([x], p) + Filter([y], p) == a + Filter([y], p) + Filter([x], p)
  {
    assert Filter([x], p) == if p(x) then [x] else [];
    assert Filter([y], p) == if p(y) then [y] else [];
    if p(x) {
      assert !p(y);
    }
  }

  /** Stability: the elements sharing any one key keep their original relative order. */
  lemma {:induction false} SortByStable<T>(s: seq<T>, key: T -> int, p: T -> bool, v: int)
    requires forall y :: p(y) == (key(y) == v)
    ensures Filter(SortBy(s, key), p) == Filter(s, p)
  {
    if |s| > 0 {
      var init, last := s[..|s| - 1], s[|s| - 1];
      assert s == init + [last];
      SortByStable(init, key, p, v);
      InsertStable(SortBy(init, key), last, key, p, v);
      FilterAppend(init, [last], p);
    }
  }

  /** Filtering a sorted sequence leaves it sorted. */
  lemma {:induction false} FilterSorted<T>(s: seq<T>, key: T -> int, p: T -> bool)
    requires SortedBy(s, key)
    ensures SortedBy(Filter(s, p), key)
  {
    if |s| > 0 {
      assert SortedBy(s[1..], key);
      FilterSorted(s[1..], key, p);
      var rest := Filter(s[1..], p);
      if p(s[0]) {
        var r := Filter(s, p);
        assert r == [s[0]] + rest;
        forall i, j | 0 <= i < j < |r| ensures key(r[i]) <= key(r[j]) {
          if i == 0 {
            assert r[j] in s[1..];
            var k :| 0 <= k < |s[1..]| && s[1..][k] == r[j];
            assert s[k + 1] == r[j];
          } else {
            assert r[i] == rest[i - 1] && r[j] == rest[j - 1];
          }
        }
      }
    }
  }
}

=== FILE: storage.dfy ===
/** The record store (`js/utils/StorageManager.js`). The two storage keys become the two
    fields of `Store`; `None` is an absent key. Serialization is taken as the identity on
    stored records. */
module Storage {
  import opened Wrappers
  import opened Seqs
  import opened Records
  import Cards
  import Decks

  /** The `card_system_cards` and `card_system_decks` entries. */
  datatype Store = Store(cards: Option<seq<Cards.Card>>, decks: Option<seq<Decks.Deck>>)

  /** An exported card library; a missing list is `None`. */
  datatype LibraryBundle = LibraryBundle(cards: Option<seq<Cards.CardJson>>)

  /** An exported deck collection; a missing list is `None`. */
  datatype DeckBundle = DeckBundle(decks: Option<seq<Decks.DeckJson>>)

  function CardKey(c: Cards.Card): string { c.id }

  function DeckKey(d: Decks.Deck): string { d.id }

  /** `getCards`: the stored cards, or none when the key is absent. */
  function GetCards(st: Store): (r: seq<Cards.Card>)
    ensures st.cards.None? ==> r == []
    ensures st.cards.Some? ==> r == st.cards.value
  {
    st.cards.GetOr([])
  }

  /** `getDecks`: the stored decks, or none when the key is absent. */
  function GetDecks(st: Store): (r: seq<Decks.Deck>)
    ensures st.decks.None? ==> r == []
    ensures st.decks.Some? ==> r == st.decks.value
  {
    st.decks.GetOr([])
  }

  /** The largest `displayId || 0` of a list, starting from 0. */
  function MaxDisplayId(cards: seq<Cards.Card>): (m: int)
    ensures m >= 0
    ensures forall c :: c in cards ==> Cards.OrZero(c.displayId) <= m
    ensures m == 0 || exists c :: c in cards && Cards.OrZero(c.displayId) == m
  {
    if |cards| == 0 then 0
    else
      var first, rest := Cards.OrZero(cards[0].displayId), MaxDisplayId(cards[1..]);
      assert forall c :: c in cards[1..] ==> c in cards;
      if first > rest then first else rest
  }

  /** The position of the stored card with `id`, if any. */
  function CardIndex(cards: seq<Cards.Card>, id: string): Option<nat>
  {
    FindIndex(cards, HasKey(CardKey, id))
  }

  /** The displayId a card is saved over an existing record with: its own when truthy,
      otherwise the stored record's. */
  function KeptDisplayId(incoming: Cards.Card, stored: Cards.Card): Option<int>
  {
    if Cards.HasDisplayId(incoming.displayId) then incoming.displayId else stored.displayId
  }

  /** `saveCard`: a card whose id is stored replaces the first record with that id, in
      place; any other card is appended with displayId one more than the largest stored
      one, whatever displayId it came with. Decks are untouched. */
  function SaveCard(st: Store, card: Cards.Card): (r: Store)
    ensures r.decks == st.decks && r.cards.Some?
    ensures var cards, out := GetCards(st), GetCards(r);
      CardIndex(cards, card.id).Some? ==>
        var i := CardIndex(cards, card.id).value;
        |out| == |cards| && out[i] == card.(displayId := KeptDisplayId(card, cards[i]))
        && forall k :: 0 <= k < |cards| && k != i ==> out[k] == cards[k]
    ensures var cards, out := GetCards(st), GetCards(r);
      CardIndex(cards, card.id).None? ==>
        out == cards + [card.(displayId := Some(MaxDisplayId(cards) + 1))]
        && forall c :: c in cards && c.displayId.Some? ==> c.displayId.value < MaxDisplayId(cards) + 1
  {
    var cards := GetCards(st);
    match CardIndex(cards, card.id)
    case Some(i) =>
      st.(cards := Some(cards[i := card.(displayId := KeptDisplayId(card, cards[i]))]))
    case None =>
      st.(cards := Some(cards + [card.(displayId := Some(MaxDisplayId(cards) + 1))]))
  }

  /** A card with an unstored id lands at the end with the next display number. */
  lemma SaveNewCard(st: Store, card: Cards.Card)
    requires CardIndex(GetCards(st), card.id).None?
    ensures GetCards(SaveCard(st, card)) == GetCards(st) + [card.(displayId := Some(MaxDisplayId(GetCards(st)) + 1))]
  {
  }

  /** Saving keeps every stored id and adds the saved card's. */
  lemma SaveCardKeepsIds(st: Store, card: Cards.Card)
    ensures card.id in Keys(GetCards(SaveCard(st, card)), CardKey)
    ensures forall id :: id in Keys(GetCards(st), CardKey) ==> id in Keys(GetCards(SaveCard(st, card)), CardKey)
  {
    var cards, out := GetCards(st), GetCards(SaveCard(st, card));
    match CardIndex(cards, card.id)
    case Some(i) =>
      assert Keys(out, CardKey)[i] == card.id;
      forall id | id in Keys(cards, CardKey) ensures id in Keys(out, CardKey) {
        var k :| 0 <= k < |cards| && Keys(cards, CardKey)[k] == id;
        if k == i {
          assert HasKey(CardKey, card.id)(cards[i]);
        } else {
          assert Keys(out, CardKey)[k] == id;
        }
      }
    case None =>
      assert Keys(out, CardKey)[|cards|] == card.id;
      forall id | id in Keys(cards, CardKey) ensures id in Keys(out, CardKey) {
        var k :| 0 <= k < |cards| && Keys(cards, CardKey)[k] == id;
        assert out[k] == cards[k];
        assert Keys(out, CardKey)[k] == id;
      }
  }

  /** Saving a stored card back, when ids are unique, changes nothing. */
  lemma SaveStoredCardIsNoOp(st: Store, j: nat)
    requires st.cards.Some? && j < |st.cards.value|
    requires Distinct(Keys(st.cards.value, CardKey))
    ensures SaveCard(st, st.cards.value[j]) == st
  {
    var cards := st.cards.value;
    var card := cards[j];
    assert CardIndex(cards, card.id) == Some(j) by {
      forall i | 0 <= i < j ensures !HasKey(CardKey, card.id)(cards[i]) {
        assert Keys(cards, CardKey)[i] != Keys(cards, CardKey)[j];
      }
    }
    assert cards[j := card] == cards;
  }

  /** The record a store holds for `c`'s id is `c`, up to the displayId a save settles. */
  predicate StoredAs(st: Store, c: Cards.Card)
  {
    var got := Lookup(GetCards(st), CardKey, c.id);
    got.Some? && got.value == c.(displayId := got.value.displayId)
  }

  /** After saving, the card's id finds the saved card and every other id finds what it
      found before. */
  lemma SaveCardLookup(st: Store, card: Cards.Card, v: string)
    ensures StoredAs(SaveCard(st, card), card)
    ensures v != card.id ==> Lookup(GetCards(SaveCard(st, card)), CardKey, v) == Lookup(GetCards(st), CardKey, v)
  {
    var cards := GetCards(st);
    match CardIndex(cards, card.id)
    case Some(i) =>
      var saved := card.(displayId := KeptDisplayId(card, cards[i]));
      assert GetCards(SaveCard(st, card)) == cards[i := saved];
      LookupReplace(cards, i, saved, CardKey, v);
    case None =>
      var saved := card.(displayId := Some(MaxDisplayId(cards) + 1));
      assert GetCards(SaveCard(st, card)) == cards + [saved];
      LookupAppendNew(cards, saved, CardKey, v);
  }

  /** `deleteCard`: removes every card with the id; the rest keep their order. */
  function DeleteCard(st: Store, id: string): (r: Store)
    ensures r.decks == st.decks && r.cards.Some?
    ensures forall c :: c in GetCards(r) <==> c in GetCards(st) && c.id != id
    ensures forall c :: multiset(GetCards(r))[c] == if c.id == id then 0 else multiset(GetCards(st))[c]
    ensures IsSubsequence(GetCards(r), GetCards(st))
  {
    RemoveAllKeepsOrder(GetCards(st), CardKey, id);
    st.(cards := Some(RemoveAll(GetCards(st), CardKey, id)))
  }

  /** `saveDeck`: replaces the first deck with the same id in place, or appends. Cards
      are untouched. */
  function SaveDeck(st: Store, deck: Decks.Deck): (r: Store)
    ensures r.cards == st.cards && r.decks.Some?
    ensures var decks, out := GetDecks(st), GetDecks(r);
      FindIndex(decks, HasKey(DeckKey, deck.id)).Some? ==>
        var i := FindIndex(decks, HasKey(DeckKey, deck.id)).value;
        |out| == |decks| && out[i] == deck && forall k :: 0 <= k < |decks| && k != i ==> out[k] == decks[k]
    ensures var decks, out := GetDecks(st), GetDecks(r);
      FindIndex(decks, HasKey(DeckKey, deck.id)).None? ==> out == decks + [deck]
  {
    var out := Upsert(GetDecks(st), DeckKey, deck);
    assert FindIndex(GetDecks(st), HasKey(DeckKey, deck.id)).None? ==> out == GetDecks(st) + [deck];
    st.(decks := Some(out))
  }

  /** Saving a stored deck back, when ids are unique, changes nothing. */
  lemma SaveStoredDeckIsNoOp(st: Store, j: nat)
    requires st.decks.Some? && j < |st.decks.value|
    requires Distinct(Keys(st.decks.value, DeckKey))
    ensures SaveDeck(st, st.decks.value[j]) == st
  {
    var decks := st.decks.value;
    var deck := decks[j];
    assert FindIndex(decks, HasKey(DeckKey, deck.id)) == Some(j) by {
      forall i | 0 <= i < j ensures !HasKey(DeckKey, deck.id)(decks[i]) {
        assert Keys(decks, DeckKey)[i] != Keys(decks, DeckKey)[j];
      }
    }
    assert decks[j := deck] == decks;
  }

  /** After saving, the deck's id finds the saved deck and every other id finds what it
      found before. */
  lemma SaveDeckLookup(st: Store, deck: Decks.Deck, v: string)
    ensures DeckStoredAs(SaveDeck(st, deck), deck)
    ensures v != deck.id ==> Lookup(GetDecks(SaveDeck(st, deck)), DeckKey, v) == Lookup(GetDecks(st), DeckKey, v)
  {
    UpsertLookup(GetDecks(st), DeckKey, deck, v);
  }

  /** `deleteDeck`: removes every deck with the id; the rest keep their order. */
  function DeleteDeck(st: Store, id: string): (r: Store)
    ensures r.cards == st.cards && r.decks.Some?
    ensures forall d :: d in GetDecks(r) <==> d in GetDecks(st) && d.id != id
    ensures forall d :: multiset(GetDecks(r))[d] == if d.id == id then 0 else multiset(GetDecks(st))[d]
    ensures IsSubsequence(GetDecks(r), GetDecks(st))
  {
    RemoveAllKeepsOrder(GetDecks(st), DeckKey, id);
    st.(decks := Some(RemoveAll(GetDecks(st), DeckKey, id)))
  }

  // ---- import and export --------------------------------------------------------

  /** `exportLibrary`: every stored card. */
  function ExportLibrary(st: Store): (b: LibraryBundle)
    ensures b.cards.Some? && |b.cards.value| == |GetCards(st)|
    ensures forall k :: 0 <= k < |GetCards(st)| ==> b.cards.value[k] == Cards.ToJson(GetCards(st)[k])
  {
    LibraryBundle(Some(Map(GetCards(st), Cards.ToJson)))
  }

  /** `exportDecks`: every stored deck. */
  function ExportDecks(st: Store): (b: DeckBundle)
    ensures b.decks.Some? && |b.decks.value| == |GetDecks(st)|
    ensures forall k :: 0 <= k < |GetDecks(st)| ==> b.decks.value[k] == Decks.ToJson(GetDecks(st)[k])
  {
    DeckBundle(Some(Map(GetDecks(st), Decks.ToJson)))
  }

  /** The `forEach` of `importLibrary` from entry `k` on: each entry becomes a card (entry
      `k` draws `newIds(k)` if it has no id) and is saved. */
  function ImportCards(st: Store, list: seq<Cards.CardJson>, newIds: nat -> string, k: nat): (r: Store)
    ensures r.decks == st.decks
    decreases |list|
  {
    if |list| == 0 then st
    else ImportCards(SaveCard(st, Cards.FromJson(list[0], newIds(k))), list[1..], newIds, k + 1)
  }

  /** `importLibrary`: nothing happens and 0 is reported when the bundle or its card list
      is missing; otherwise every entry is saved and the count is the list's length. */
  function ImportLibrary(st: Store, data: Option<LibraryBundle>, newIds: nat -> string): (r: (Store, nat))
    ensures data.None? || data.value.cards.None? ==> r == (st, 0)
    ensures data.Some? && data.value.cards.Some? ==> r.1 == |data.value.cards.value|
    ensures r.0.decks == st.decks
  {
    if data.None? || data.value.cards.None? then (st, 0)
    else
      var list := data.value.cards.value;
      (ImportCards(st, list, newIds, 0), |list|)
  }

  /** Every imported entry that carries a non-empty id is stored afterwards. */
  lemma {:induction false} ImportedCardsPresent(st: Store, list: seq<Cards.CardJson>, newIds: nat -> string, k: nat)
    ensures forall j :: 0 <= j < |list| && list[j].id.Some? && list[j].id.value != "" ==>
      list[j].id.value in Keys(GetCards(ImportCards(st, list, newIds, k)), CardKey)
    ensures forall id :: id in Keys(GetCards(st), CardKey) ==> id in Keys(GetCards(ImportCards(st, list, newIds, k)), CardKey)
    decreases |list|
  {
    if |list| > 0 {
      var card := Cards.FromJson(list[0], newIds(k));
      var next := SaveCard(st, card);
      SaveCardKeepsIds(st, card);
      ImportedCardsPresent(next, list[1..], newIds, k + 1);
      forall j | 0 <= j < |list| && list[j].id.Some? && list[j].id.value != ""
        ensures list[j].id.value in Keys(GetCards(ImportCards(st, list, newIds, k)), CardKey)
      {
        if j > 0 {
          assert list[1..][j - 1] == list[j];
        }
      }
    }
  }

  /** The cards an import from entry `k` on builds: entry `i` becomes a card that draws
      `newIds(k + i)` when it has no id. */
  function ParsedCards(list: seq<Cards.CardJson>, newIds: nat -> string, k: nat): (r: seq<Cards.Card>)
    ensures |r| == |list|
    ensures forall i :: 0 <= i < |list| ==> r[i] == Cards.FromJson(list[i], newIds(k + i))
    decreases |list|
  {
    if |list| == 0 then []
    else [Cards.FromJson(list[0], newIds(k))] + ParsedCards(list[1..], newIds, k + 1)
  }

  /** Saves the cards one after another. */
  function SaveCards(st: Store, cs: seq<Cards.Card>): (r: Store)
    ensures r.decks == st.decks
    decreases |cs|
  {
    if |cs| == 0 then st else SaveCards(SaveCard(st, cs[0]), cs[1..])
  }

  /** Saving `c` and then `cs` is saving `[c] + cs`. */
  lemma SaveCardsCons(st: Store, c: Cards.Card, cs: seq<Cards.Card>)
    ensures SaveCards(st, [c] + cs) == SaveCards(SaveCard(st, c), cs)
  {
    assert ([c] + cs)[0] == c && ([c] + cs)[1..] == cs;
  }

  /** No card of `cs` after position `j` has `cs[j]`'s id. */
  predicate LastWithId(cs: seq<Cards.Card>, j: nat)
    requires j < |cs|
  {
    forall i :: j < i < |cs| ==> cs[i].id != cs[j].id
  }

  /** No card of `cs` has the id `v`. */
  predicate NoneWithId(cs: seq<Cards.Card>, v: string)
  {
    forall i :: 0 <= i < |cs| ==> cs[i].id != v
  }

  lemma {:induction false} ImportCardsSavesParsed(st: Store, list: seq<Cards.CardJson>, newIds: nat -> string, k: nat)
    ensures ImportCards(st, list, newIds, k) == SaveCards(st, ParsedCards(list, newIds, k))
    decreases |list|
  {
    if |list| > 0 {
      var cs := ParsedCards(list, newIds, k);
      assert cs[0] == Cards.FromJson(list[0], newIds(k));
      assert cs[1..] == ParsedCards(list[1..], newIds, k + 1);
      ImportCardsSavesParsed(SaveCard(st, cs[0]), list[1..], newIds, k + 1);
    }
  }

  /** After saving a run of cards, the last card with an id is the record stored under it
      (up to the displayId the save settles), and an id no card has keeps its record. */
  lemma {:induction false} SaveCardsStored(st: Store, cs: seq<Cards.Card>)
    ensures forall j :: 0 <= j < |cs| && LastWithId(cs, j) ==> StoredAs(SaveCards(st, cs), cs[j])
    ensures forall v :: NoneWithId(cs, v) ==> Lookup(GetCards(SaveCards(st, cs)), CardKey, v) == Lookup(GetCards(st), CardKey, v)
    decreases |cs|
  {
    if |cs| > 0 {
      var next, rest := SaveCard(st, cs[0]), cs[1..];
      assert SaveCards(st, cs) == SaveCards(next, rest);
      SaveCardsStored(next, rest);
      forall j | 0 <= j < |cs| && LastWithId(cs, j) ensures StoredAs(SaveCards(st, cs), cs[j]) {
        if j == 0 {
          SaveCardLookup(st, cs[0], cs[0].id);
          assert NoneWithId(rest, cs[0].id) by {
            forall i | 0 <= i < |rest| ensures rest[i].id != cs[0].id {
              assert rest[i] == cs[i + 1];
            }
          }
        } else {
          assert rest[j - 1] == cs[j];
          assert LastWithId(rest, j - 1) by {
            forall i | j - 1 < i < |rest| ensures rest[i].id != rest[j - 1].id {
              assert rest[i] == cs[i + 1];
            }
          }
        }
      }
      forall v | NoneWithId(cs, v)
        ensures Lookup(GetCards(SaveCards(st, cs)), CardKey, v) == Lookup(GetCards(st), CardKey, v)
      {
        assert cs[0].id != v;
        SaveCardLookup(st, cs[0], v);
        assert NoneWithId(rest, v) by {
          forall i | 0 <= i < |rest| ensures rest[i].id != v {
            assert rest[i] == cs[i + 1];
          }
        }
      }
    }
  }

  /** `cs` numbered on from `m`: the `i`-th card takes display number `m + 1 + i`. */
  function Numbered(cs: seq<Cards.Card>, m: int): (r: seq<Cards.Card>)
    ensures |r| == |cs|
    ensures forall i :: 0 <= i < |cs| ==> r[i] == cs[i].(displayId := Some(m + 1 + i))
    decreases |cs|
  {
    if |cs| == 0 then []
    else [cs[0].(displayId := Some(m + 1))] + Numbered(cs[1..], m + 1)
  }

  lemma NumberedCons(cs: seq<Cards.Card>, m: int)
    requires |cs| > 0
    ensures Numbered(cs, m) == [cs[0].(displayId := Some(m + 1))] + Numbered(cs[1..], m + 1)
  {
  }

  /** The cards' ids are pairwise different and none of them is stored. */
  ghost predicate AllNew(cards: seq<Cards.Card>, cs: seq<Cards.Card>)
  {
    (forall i :: 0 <= i < |cs| ==> CardIndex(cards, cs[i].id).None?)
    && forall i, j :: 0 <= i < j < |cs| ==> cs[i].id != cs[j].id
  }

  /** Appending a card numbered one past the largest display number raises it by one. */
  lemma MaxDisplayIdAppend(cards: seq<Cards.Card>, c: Cards.Card)
    requires c.displayId == Some(MaxDisplayId(cards) + 1)
    ensures MaxDisplayId(cards + [c]) == MaxDisplayId(cards) + 1
  {
    var m, all := MaxDisplayId(cards), cards + [c];
    assert c in all;
    forall d | d in all ensures Cards.OrZero(d.displayId) <= m + 1 {
      if d !in cards {
        assert d == c;
      }
    }
  }

  /** Saving the first of a run of new cards leaves the rest new. */
  lemma AllNewAfterSave(st: Store, cs: seq<Cards.Card>)
    requires |cs| > 0 && AllNew(GetCards(st), cs)
    ensures AllNew(GetCards(SaveCard(st, cs[0])), cs[1..])
  {
    var cards := GetCards(st);
    var made := cs[0].(displayId := Some(MaxDisplayId(cards) + 1));
    assert GetCards(SaveCard(st, cs[0])) == cards + [made];
    forall i | 0 <= i < |cs| - 1 ensures CardIndex(cards + [made], cs[1..][i].id).None? {
      assert cs[1..][i] == cs[i + 1];
      assert CardIndex(cards, cs[i + 1].id).None? && cs[0].id != cs[i + 1].id;
      LookupAppend(cards, made, CardKey, cs[i + 1].id);
    }
    forall i, j | 0 <= i < j < |cs| - 1 ensures cs[1..][i].id != cs[1..][j].id {
      assert cs[1..][i] == cs[i + 1] && cs[1..][j] == cs[j + 1];
    }
  }

  /** Saving a new card appends it with the next display number, which becomes the
      largest, and leaves the rest of a run of new cards new. */
  lemma SaveNewCardStep(st: Store, cs: seq<Cards.Card>)
    requires |cs| > 0 && AllNew(GetCards(st), cs)
    ensures var m := MaxDisplayId(GetCards(st));
      var next := GetCards(SaveCard(st, cs[0]));
      next == GetCards(st) + [cs[0].(displayId := Some(m + 1))]
      && MaxDisplayId(next) == m + 1 && AllNew(next, cs[1..])
  {
    var m := MaxDisplayId(GetCards(st));
    assert CardIndex(GetCards(st), cs[0].id).None?;
    SaveNewCard(st, cs[0]);
    MaxDisplayIdAppend(GetCards(st), cs[0].(displayId := Some(m + 1)));
    AllNewAfterSave(st, cs);
  }

  /** Saving a run of new cards appends them, numbered on from the largest display number. */
  lemma {:induction false} SaveNewCards(st: Store, cs: seq<Cards.Card>)
    requires AllNew(GetCards(st), cs)
    ensures GetCards(SaveCards(st, cs)) == GetCards(st) + Numbered(cs, MaxDisplayId(GetCards(st)))
    decreases |cs|
  {
    if |cs| == 0 {
      assert GetCards(st) + [] == GetCards(st);
    } else {
      var m, next := MaxDisplayId(GetCards(st)), SaveCard(st, cs[0]);
      SaveNewCardStep(st, cs);
      SaveNewCards(next, cs[1..]);
      SaveNewCardsJoin(st, cs, m, MaxDisplayId(GetCards(next)));
    }
  }

  /** The inductive step of `SaveNewCards`: the first card numbered `m + 1`, then the rest
      numbered on. */
  lemma SaveNewCardsJoin(st: Store, cs: seq<Cards.Card>, m: int, m': int)
    requires |cs| > 0 && m' == m + 1
    requires var next := SaveCard(st, cs[0]);
      GetCards(next) == GetCards(st) + [cs[0].(displayId := Some(m + 1))]
      && GetCards(SaveCards(next, cs[1..])) == GetCards(next) + Numbered(cs[1..], m')
    ensures GetCards(SaveCards(st, cs)) == GetCards(st) + Numbered(cs, m)
  {
    var next := SaveCard(st, cs[0]);
    var made := cs[0].(displayId := Some(m + 1));
    assert SaveCards(st, cs) == SaveCards(next, cs[1..]);
    NumberedCons(cs, m);
    AppendOne(GetCards(SaveCards(next, cs[1..])), GetCards(next), GetCards(st), made, Numbered(cs[1..], m + 1));
  }

  /** After `importLibrary`, the card built from the last entry with a given id is stored
      under that id (up to the displayId the save settles), and every id no entry is
      saved under keeps its record. */
  lemma ImportLibraryStores(st: Store, data: Option<LibraryBundle>, newIds: nat -> string)
    ensures data.Some? && data.value.cards.Some? ==>
      var cs := ParsedCards(data.value.cards.value, newIds, 0);
      (forall j :: 0 <= j < |cs| && LastWithId(cs, j) ==> StoredAs(ImportLibrary(st, data, newIds).0, cs[j]))
      && forall v :: NoneWithId(cs, v) ==>
        Lookup(GetCards(ImportLibrary(st, data, newIds).0), CardKey, v) == Lookup(GetCards(st), CardKey, v)
  {
    if data.Some? && data.value.cards.Some? {
      var list := data.value.cards.value;
      ImportCardsSavesParsed(st, list, newIds, 0);
      SaveCardsStored(st, ParsedCards(list, newIds, 0));
    }
  }

  /** Importing a store's own export leaves it unchanged when its card ids are non-empty
      and unique. */
  lemma ImportOfExportIsIdentity(st: Store, newIds: nat -> string)
    requires Distinct(Keys(GetCards(st), CardKey))
    requires forall c :: c in GetCards(st) ==> c.id != ""
    ensures ImportLibrary(st, Some(ExportLibrary(st)), newIds) == (st, |GetCards(st)|)
  {
    var list := ExportLibrary(st).cards.value;
    ReimportSuffix(st, list, newIds, 0);
    assert list[0..] == list;
  }

  lemma {:induction false} ReimportSuffix(st: Store, list: seq<Cards.CardJson>, newIds: nat -> string, j: nat)
    requires Distinct(Keys(GetCards(st), CardKey))
    requires forall c :: c in GetCards(st) ==> c.id != ""
    requires list == Map(GetCards(st), Cards.ToJson) && j <= |list|
    ensures ImportCards(st, list[j..], newIds, j) == st
    decreases |list| - j
  {
    if j < |list| {
      var cards := GetCards(st);
      assert cards[j] in cards;
      Cards.FromJsonOfToJson(cards[j], newIds(j));
      assert st.cards.Some?;
      SaveStoredCardIsNoOp(st, j);
      assert list[j..][1..] == list[j + 1..];
      ReimportSuffix(st, list, newIds, j + 1);
    }
  }

  /** The `forEach` of `importDecks` from entry `k` on. */
  function ImportDeckList(st: Store, list: seq<Decks.DeckJson>, newIds: nat -> string, k: nat): (r: Store)
    ensures r.cards == st.cards
    decreases |list|
  {
    if |list| == 0 then st
    else ImportDeckList(SaveDeck(st, Decks.FromJson(list[0], newIds(k))), list[1..], newIds, k + 1)
  }

  /** `importDecks`: nothing happens and 0 is reported when the bundle or its deck list is
      missing; otherwise every entry is saved and the count is the list's length. */
  function ImportDecks(st: Store, data: Option<DeckBundle>, newIds: nat -> string): (r: (Store, nat))
    ensures data.None? || data.value.decks.None? ==> r == (st, 0)
    ensures data.Some? && data.value.decks.Some? ==> r.1 == |data.value.decks.value|
    ensures r.0.cards == st.cards
  {
    if data.None? || data.value.decks.None? then (st, 0)
    else
      var list := data.value.decks.value;
      (ImportDeckList(st, list, newIds, 0), |list|)
  }

  /** Every imported deck that carries a non-empty id is stored afterwards. */
  lemma {:induction false} ImportedDecksPresent(st: Store, list: seq<Decks.DeckJson>, newIds: nat -> string, k: nat)
    ensures forall j :: 0 <= j < |list| && list[j].id.Some? && list[j].id.value != "" ==>
      list[j].id.value in Keys(GetDecks(ImportDeckList(st, list, newIds, k)), DeckKey)
    ensures forall id :: id in Keys(GetDecks(st), DeckKey) ==> id in Keys(GetDecks(ImportDeckList(st, list, newIds, k)), DeckKey)
    decreases |list|
  {
    if |list| > 0 {
      var deck := Decks.FromJson(list[0], newIds(k));
      var next := SaveDeck(st, deck);
      UpsertKeepsKeys(GetDecks(st), DeckKey, deck);
      ImportedDecksPresent(next, list[1..], newIds, k + 1);
      forall j | 0 <= j < |list| && list[j].id.Some? && list[j].id.value != ""
        ensures list[j].id.value in Keys(GetDecks(ImportDeckList(st, list, newIds, k)), DeckKey)
      {
        if j > 0 {
          assert list[1..][j - 1] == list[j];
        }
      }
    }
  }

  /** The decks an import from entry `k` on builds: entry `i` becomes a deck that draws
      `newIds(k + i)` when it has no id. */
  function ParsedDecks(list: seq<Decks.DeckJson>, newIds: nat -> string, k: nat): (r: seq<Decks.Deck>)
    ensures |r| == |list|
    ensures forall i :: 0 <= i < |list| ==> r[i] == Decks.FromJson(list[i], newIds(k + i))
    decreases |list|
  {
    if |list| == 0 then []
    else [Decks.FromJson(list[0], newIds(k))] + ParsedDecks(list[1..], newIds, k + 1)
  }

  /** Saves the decks one after another. */
  function SaveDecks(st: Store, ds: seq<Decks.Deck>): Store
    decreases |ds|
  {
    if |ds| == 0 then st else SaveDecks(SaveDeck(st, ds[0]), ds[1..])
  }

  /** The record a store holds for `d`'s id is `d`. */
  predicate DeckStoredAs(st: Store, d: Decks.Deck)
  {
    Lookup(GetDecks(st), DeckKey, d.id) == Some(d)
  }

  /** No deck of `ds` after position `j` has `ds[j]`'s id. */
  predicate LastDeckWithId(ds: seq<Decks.Deck>, j: nat)
    requires j < |ds|
  {
    forall i :: j < i < |ds| ==> ds[i].id != ds[j].id
  }

  /** No deck of `ds` has the id `v`. */
  predicate NoDeckWithId(ds: seq<Decks.Deck>, v: string)
  {
    forall i :: 0 <= i < |ds| ==> ds[i].id != v
  }

  lemma {:induction false} ImportDeckListSavesParsed(st: Store, list: seq<Decks.DeckJson>, newIds: nat -> string, k: nat)
    ensures ImportDeckList(st, list, newIds, k) == SaveDecks(st, ParsedDecks(list, newIds, k))
    decreases |list|
  {
    if |list| > 0 {
      var ds := ParsedDecks(list, newIds, k);
      assert ds[0] == Decks.FromJson(list[0], newIds(k));
      assert ds[1..] == ParsedDecks(list[1..], newIds, k + 1);
      ImportDeckListSavesParsed(SaveDeck(st, ds[0]), list[1..], newIds, k + 1);
    }
  }

  /** After saving a run of decks, the last deck with an id is the record stored under it,
      and an id no deck has keeps its record. */
  lemma {:induction false} SaveDecksStored(st: Store, ds: seq<Decks.Deck>)
    ensures forall j :: 0 <= j < |ds| && LastDeckWithId(ds, j) ==> DeckStoredAs(SaveDecks(st, ds), ds[j])
    ensures forall v :: NoDeckWithId(ds, v) ==> Lookup(GetDecks(SaveDecks(st, ds)), DeckKey, v) == Lookup(GetDecks(st), DeckKey, v)
    decreases |ds|
  {
    if |ds| > 0 {
      var next, rest := SaveDeck(st, ds[0]), ds[1..];
      assert SaveDecks(st, ds) == SaveDecks(next, rest);
      SaveDecksStored(next, rest);
      forall j | 0 <= j < |ds| && LastDeckWithId(ds, j) ensures DeckStoredAs(SaveDecks(st, ds), ds[j]) {
        if j == 0 {
          SaveDeckLookup(st, ds[0], ds[0].id);
          assert NoDeckWithId(rest, ds[0].id) by {
            forall i | 0 <= i < |rest| ensures rest[i].id != ds[0].id {
              assert rest[i] == ds[i + 1];
            }
          }
        } else {
          assert rest[j - 1] == ds[j];
          assert LastDeckWithId(rest, j - 1) by {
            forall i | j - 1 < i < |rest| ensures rest[i].id != rest[j - 1].id {
              assert rest[i] == ds[i + 1];
            }
          }
        }
      }
      forall v | NoDeckWithId(ds, v)
        ensures Lookup(GetDecks(SaveDecks(st, ds)), DeckKey, v) == Lookup(GetDecks(st), DeckKey, v)
      {
        assert ds[0].id != v;
        SaveDeckLookup(st, ds[0], v);
        assert NoDeckWithId(rest, v) by {
          forall i | 0 <= i < |rest| ensures rest[i].id != v {
            assert rest[i] == ds[i + 1];
          }
        }
      }
    }
  }

  /** After `importDecks`, the deck built from the last entry with a given id is the
      record stored under that id, and every id no entry is saved under keeps its record. */
  lemma ImportDecksStores(st: Store, data: Option<DeckBundle>, newIds: nat -> string)
    ensures data.Some? && data.value.decks.Some? ==>
      var ds := ParsedDecks(data.value.decks.value, newIds, 0);
      (forall j :: 0 <= j < |ds| && LastDeckWithId(ds, j) ==> DeckStoredAs(ImportDecks(st, data, newIds).0, ds[j]))
      && forall v :: NoDeckWithId(ds, v) ==>
        Lookup(GetDecks(ImportDecks(st, data, newIds).0), DeckKey, v) == Lookup(GetDecks(st), DeckKey, v)
  {
    if data.Some? && data.value.decks.Some? {
      var list := data.value.decks.value;
      ImportDeckListSavesParsed(st, list, newIds, 0);
      SaveDecksStored(st, ParsedDecks(list, newIds, 0));
    }
  }

  /** Importing a store's own deck export leaves it unchanged when its deck ids are
      non-empty and unique. */
  lemma DeckImportOfExportIsIdentity(st: Store, newIds: nat -> string)
    requires Distinct(Keys(GetDecks(st), DeckKey))
    requires forall d :: d in GetDecks(st) ==> d.id != ""
    ensures ImportDecks(st, Some(ExportDecks(st)), newIds) == (st, |GetDecks(st)|)
  {
    var list := ExportDecks(st).decks.value;
    ReimportDeckSuffix(st, list, newIds, 0);
    assert list[0..] == list;
  }

  lemma {:induction false} ReimportDeckSuffix(st: Store, list: seq<Decks.DeckJson>, newIds: nat -> string, j: nat)
    requires Distinct(Keys(GetDecks(st), DeckKey))
    requires forall d :: d in GetDecks(st) ==> d.id != ""
    requires list == Map(GetDecks(st), Decks.ToJson) && j <= |list|
    ensures ImportDeckList(st, list[j..], newIds, j) == st
    decreases |list| - j
  {
    if j < |list| {
      var decks := GetDecks(st);
      assert decks[j] in decks;
      Decks.FromJsonOfToJson(decks[j], newIds(j));
      assert st.decks.Some?;
      SaveStoredDeckIsNoOp(st, j);
      assert list[j..][1..] == list[j + 1..];
      ReimportDeckSuffix(st, list, newIds, j + 1);
    }
  }
}

=== FILE: table.dfy ===
/** The play table (`js/main.js`): wheel zoom, placing a copy of a stored deck, drawing
    from and shuffling a placed deck, and clearing the table. Positions drawn from
    `Math.random` come in as parameters in `[0, 1)`, on-screen boxes as rectangles, and the
    shared z-index counter as a value threaded through. */
module Table {
  import opened Wrappers
  import opened Seqs
  import opened ZIndex
  import opened Geometry
  import opened Records
  import Cards
  import Decks
  import Storage
  import Drag

  /** The zoom limits. */
  const MinScale: real := 0.5
  const MaxScale: real := 2.0

  /** Where a deck's random position starts, and how far it may extend. */
  const Margin: real := 50.0
  const Spread: real := 200.0

  /** How far right of its deck a drawn card is placed. */
  const DrawOffset: real := 160.0

  /** A deck on the table, with its CSS position and z-index. */
  datatype PlacedDeck = PlacedDeck(deck: Decks.Deck, x: real, y: real, z: nat)

  /** A card on the table, with its CSS position and z-index. */
  datatype PlacedCard = PlacedCard(card: Cards.Card, x: real, y: real, z: nat)

  /** The table page's state: `activeDecks`, the cards placed, the zoom, and the counter. */
  datatype Session = Session(decks: seq<PlacedDeck>, cards: seq<PlacedCard>, scale: real, counter: Counter)

  /** Every z-index on the table is at most the counter, so the next one goes on top. */
  predicate CounterOnTop(s: Session)
  {
    (forall i :: 0 <= i < |s.decks| ==> s.decks[i].z <= s.counter)
    && (forall i :: 0 <= i < |s.cards| ==> s.cards[i].z <= s.counter)
  }

  /** The zoom stays between the limits. */
  predicate ScaleInRange(s: Session)
  {
    MinScale <= s.scale <= MaxScale
  }

  /** The wheel handler's new scale: the scale moved by `-deltaY / 1000`, clamped to
      `[0.5, 2]`. */
  function Zoom(scale: real, deltaY: real): (r: real)
    ensures MinScale <= r <= MaxScale
    ensures MinScale <= scale - deltaY / 1000.0 <= MaxScale ==> r == scale - deltaY / 1000.0
    ensures scale - deltaY / 1000.0 < MinScale ==> r == MinScale
    ensures scale - deltaY / 1000.0 > MaxScale ==> r == MaxScale
  {
    Min(Max(MinScale, scale + deltaY * -0.001), MaxScale)
  }

  /** Scrolling further down never zooms in further. */
  lemma ZoomMonotone(scale: real, d1: real, d2: real)
    requires d1 <= d2
    ensures Zoom(scale, d2) <= Zoom(scale, d1)
  {
  }

  /** A wheel event. */
  function Wheel(s: Session, deltaY: real): (r: Session)
    ensures ScaleInRange(r) && r.scale == Zoom(s.scale, deltaY)
    ensures r.decks == s.decks && r.cards == s.cards && r.counter == s.counter
  {
    s.(scale := Zoom(s.scale, deltaY))
  }

  /** The whole wheel handler: the table zooms and the drag engine is handed the new scale
      (`setScale`), so pointer motion during a drag is divided by the scale the table is
      drawn at, and nothing else about the drag changes. */
  function WheelHandler(s: Session, ds: Drag.DragState, deltaY: real): (r: (Session, Drag.DragState))
    ensures r.0.scale == Zoom(s.scale, deltaY) && ScaleInRange(r.0)
    ensures r.0.decks == s.decks && r.0.cards == s.cards && r.0.counter == s.counter
    ensures r.1.scale == r.0.scale
    ensures r.1.(scale := ds.scale) == ds
  {
    var s' := Wheel(s, deltaY);
    (s', Drag.SetScale(ds, s'.scale))
  }

  /** Wheel handlers in turn. */
  function WheelHandlers(s: Session, ds: Drag.DragState, deltas: seq<real>): (Session, Drag.DragState)
    decreases |deltas|
  {
    if |deltas| == 0 then (s, ds)
    else
      var r := WheelHandler(s, ds, deltas[0]);
      WheelHandlers(r.0, r.1, deltas[1..])
  }

  /** Once the drag engine holds the table's scale, any run of wheel events keeps the two in
      step and reaches the same zoom as the table on its own. */
  lemma {:induction false} WheelHandlersInStep(s: Session, ds: Drag.DragState, deltas: seq<real>)
    requires ds.scale == s.scale
    ensures WheelHandlers(s, ds, deltas).1.scale == WheelHandlers(s, ds, deltas).0.scale
    ensures WheelHandlers(s, ds, deltas).0 == Wheels(s, deltas)
    decreases |deltas|
  {
    if |deltas| > 0 {
      var r := WheelHandler(s, ds, deltas[0]);
      WheelHandlersInStep(r.0, r.1, deltas[1..]);
    }
  }

  /** Any sequence of wheel events keeps the zoom within the limits. */
  lemma {:induction false} WheelsKeepRange(s: Session, deltas: seq<real>)
    requires ScaleInRange(s)
    ensures ScaleInRange(Wheels(s, deltas))
    decreases |deltas|
  {
    if |deltas| > 0 {
      WheelsKeepRange(Wheel(s, deltas[0]), deltas[1..]);
    }
  }

  /** Wheel events in turn. */
  function Wheels(s: Session, deltas: seq<real>): Session
    decreases |deltas|
  {
    if |deltas| == 0 then s else Wheels(Wheel(s, deltas[0]), deltas[1..])
  }

  /** `handleAddDeck` with `renderDeckOnTable`: for a selected id found among the stored
      decks, places a copy of the first such deck at `(50 + 200 rx, 50 + 200 ry)` on top of
      everything and appends it to the active decks; otherwise nothing changes. */
  function AddDeck(s: Session, stored: seq<Decks.Deck>, deckId: string, rx: real, ry: real): (r: Session)
    requires 0.0 <= rx < 1.0 && 0.0 <= ry < 1.0
    ensures r.cards == s.cards && r.scale == s.scale
    ensures deckId == "" || FindIndex(stored, HasKey(Storage.DeckKey, deckId)).None? ==> r == s
    ensures deckId != "" && FindIndex(stored, HasKey(Storage.DeckKey, deckId)).Some? ==>
      |r.decks| == |s.decks| + 1 && r.decks[..|s.decks|] == s.decks
      && var p := r.decks[|s.decks|];
         p.deck == stored[FindIndex(stored, HasKey(Storage.DeckKey, deckId)).value]
         && Margin <= p.x < Margin + Spread && Margin <= p.y < Margin + Spread
         && p.z > s.counter && p.z == r.counter
    ensures CounterOnTop(s) ==> CounterOnTop(r)
  {
    if deckId == "" then s
    else
      match FindIndex(stored, HasKey(Storage.DeckKey, deckId))
      case None => s
      case Some(i) =>
        assert HasKey(Storage.DeckKey, deckId)(stored[i]);
        assert Storage.DeckKey(stored[i]) == deckId;
        assert stored[i].id == deckId;
        Decks.FromJsonOfToJson(stored[i], deckId);
        var copy := Decks.FromJson(Decks.ToJson(stored[i]), deckId);
        var a := Next(s.counter);
        var decks := s.decks + [PlacedDeck(copy, Margin + rx * Spread, Margin + ry * Spread, a.z)];
        assert decks[..|s.decks|] == s.decks;
        s.(decks := decks, counter := a.counter)
  }

  /** `drawCard` on placed deck `d`: an empty deck is left alone; otherwise its first id is
      removed, and the first library card with that id, if any, is placed 160 px right of
      the deck's box, on top of everything. An id with no card is consumed silently. */
  function DrawCard(s: Session, d: nat, library: seq<Cards.Card>, deckBox: Rect): (r: Session)
    requires d < |s.decks|
    ensures r.scale == s.scale && |r.decks| == |s.decks|
    ensures |s.decks[d].deck.cardIds| == 0 ==> r == s
    ensures |s.decks[d].deck.cardIds| > 0 ==>
      var ids := s.decks[d].deck.cardIds;
      var found := FindIndex(library, HasKey(Storage.CardKey, ids[0]));
      r.decks == s.decks[d := s.decks[d].(deck := s.decks[d].deck.(cardIds := ids[1..]))]
      && (found.None? ==> r.cards == s.cards && r.counter == s.counter)
      && (found.Some? ==> r.cards == s.cards + [PlacedCard(library[found.value], deckBox.left + DrawOffset, deckBox.top, r.counter)]
                          && r.counter > s.counter)
    ensures CounterOnTop(s) ==> CounterOnTop(r)
  {
    var placed := s.decks[d];
    var ids := placed.deck.cardIds;
    if |ids| == 0 then s
    else
      var decks := s.decks[d := placed.(deck := placed.deck.(cardIds := ids[1..]))];
      assert forall e :: 0 <= e < |decks| ==> decks[e].z == s.decks[e].z;
      match FindIndex(library, HasKey(Storage.CardKey, ids[0]))
      case None => s.(decks := decks)
      case Some(i) =>
        var a := Next(s.counter);
        s.(decks := decks, cards := s.cards + [PlacedCard(library[i], deckBox.left + DrawOffset, deckBox.top, a.z)], counter := a.counter)
  }

  /** Drawing conserves ids: what is left in the deck plus the drawn id is what the deck
      held, and the card placed, if any, carries the drawn id. */
  lemma DrawConservesIds(s: Session, d: nat, library: seq<Cards.Card>, deckBox: Rect)
    requires d < |s.decks| && |s.decks[d].deck.cardIds| > 0
    ensures var r := DrawCard(s, d, library, deckBox);
      var ids := s.decks[d].deck.cardIds;
      multiset(r.decks[d].deck.cardIds) + multiset{ids[0]} == multiset(ids)
      && (|r.cards| == |s.cards| + 1 ==> r.cards[|s.cards|].card.id == ids[0])
  {
    var ids := s.decks[d].deck.cardIds;
    assert ids == [ids[0]] + ids[1..];
    var found := FindIndex(library, HasKey(Storage.CardKey, ids[0]));
    if found.Some? {
      assert HasKey(Storage.CardKey, ids[0])(library[found.value]);
    }
  }

  /** Drawing touches neither the other placed decks nor the placed deck's other fields. */
  lemma DrawTouchesOnlyItsDeck(s: Session, d: nat, library: seq<Cards.Card>, deckBox: Rect)
    requires d < |s.decks|
    ensures var r := DrawCard(s, d, library, deckBox);
      (forall e :: 0 <= e < |s.decks| && e != d ==> r.decks[e] == s.decks[e])
      && r.decks[d] == s.decks[d].(deck := r.decks[d].deck)
      && r.decks[d].deck == s.decks[d].deck.(cardIds := r.decks[d].deck.cardIds)
  {
  }

  /** The shuffle button of placed deck `d`. */
  method ShuffleDeck(s: Session, d: nat, js: seq<nat>) returns (r: Session)
    requires d < |s.decks| && Decks.ValidSwaps(js, |s.decks[d].deck.cardIds|)
    ensures r.cards == s.cards && r.scale == s.scale && r.counter == s.counter && |r.decks| == |s.decks|
    ensures forall e :: 0 <= e < |s.decks| && e != d ==> r.decks[e] == s.decks[e]
    ensures multiset(r.decks[d].deck.cardIds) == multiset(s.decks[d].deck.cardIds)
    ensures r.decks[d] == s.decks[d].(deck := s.decks[d].deck.(cardIds := r.decks[d].deck.cardIds))
    ensures CounterOnTop(s) ==> CounterOnTop(r)
  {
    var shuffled := Decks.Shuffle(s.decks[d].deck, js);
    r := s.(decks := s.decks[d := s.decks[d].(deck := shuffled)]);
  }

  /** `handleResetTable`: clears every deck and card from the table; the zoom and the
      counter carry on. */
  function Reset(s: Session): (r: Session)
    ensures |r.decks| == 0 && |r.cards| == 0
    ensures r.scale == s.scale && r.counter == s.counter
    ensures CounterOnTop(r)
  {
    s.(decks := [], cards := [])
  }

  /** Each placed deck is appended to the active decks, so after a reset and `n` successful
      placements there are exactly `n` active decks. */
  lemma PlacementsAfterReset(s: Session, stored: seq<Decks.Deck>, id: string, rx: real, ry: real)
    requires 0.0 <= rx < 1.0 && 0.0 <= ry < 1.0
    requires id != "" && FindIndex(stored, HasKey(Storage.DeckKey, id)).Some?
    ensures |AddDeck(Reset(s), stored, id, rx, ry).decks| == 1
    ensures |AddDeck(AddDeck(Reset(s), stored, id, rx, ry), stored, id, rx, ry).decks| == 2
  {
  }
}

=== FILE: text.dfy ===
/** The JavaScript string operations the builder's text parsing relies on:
    `trim`, `split` on one character, `parseInt` without a radix, `toLowerCase`
    and `includes`. Strings are sequences of characters. */
module Text {
  import opened Wrappers
  import opened Seqs

  /** The white space and line terminators `String.prototype.trim` removes and `parseInt`
      skips: tab, vertical tab, form feed, space, no-break space, the byte-order mark, the
      other space separators of Unicode category Zs, line feed, carriage return and the two
      Unicode line/paragraph separators. */
  predicate IsSpace(c: char)
  {
    c == '\t' || c == '\n' || c == '\U{0B}' || c == '\U{0C}' || c == '\r' || c == ' '
    || c == '\U{A0}' || c == '\U{1680}' || ('\U{2000}' <= c <= '\U{200A}')
    || c == '\U{2028}' || c == '\U{2029}' || c == '\U{202F}' || c == '\U{205F}'
    || c == '\U{3000}' || c == '\U{FEFF}'
  }

  /** Drops leading white space. */
  function TrimStart(s: string): (r: string)
    ensures |r| <= |s| && r == s[|s| - |r|..]
    ensures forall k :: 0 <= k < |s| - |r| ==> IsSpace(s[k])
    ensures |r| > 0 ==> !IsSpace(r[0])
  {
    if |s| > 0 && IsSpace(s[0]) then TrimStart(s[1..]) else s
  }

  /** Drops trailing white space. */
  function TrimEnd(s: string): (r: string)
    ensures |r| <= |s| && r == s[..|r|]
    ensures forall k :: |r| <= k < |s| ==> IsSpace(s[k])
    ensures |r| > 0 ==> !IsSpace(r[|r| - 1])
  {
    if |s| > 0 && IsSpace(s[|s| - 1]) then TrimEnd(s[..|s| - 1]) else s
  }

  /** `String.prototype.trim`. */
  function Trim(s: string): (r: string)
  {
    TrimEnd(TrimStart(s))
  }

  /** Trimming only removes characters. */
  lemma TrimIsInfix(s: string)
    ensures forall c :: c in Trim(s) ==> c in s
  {
    var t := TrimStart(s);
    assert forall c :: c in t ==> c in s;
  }

  /** A string that neither begins nor ends with white space is its own trim. */
  lemma TrimKeepsTrimmed(s: string)
    requires |s| == 0 || (!IsSpace(s[0]) && !IsSpace(s[|s| - 1]))
    ensures Trim(s) == s
  {
    var t := TrimStart(s);
    assert |s| > 0 ==> |s| - |t| == 0;
    var r := TrimEnd(t);
    assert |t| > 0 ==> |r| == |t|;
  }

  /** Trimmed strings neither begin nor end with white space, and trimming is idempotent. */
  lemma TrimSpec(s: string)
    ensures var r := Trim(s);
      && (|r| > 0 ==> !IsSpace(r[0]) && !IsSpace(r[|r| - 1]))
      && Trim(r) == r
      && (forall k :: 0 <= k < |s| && !IsSpace(s[k]) ==> |r| > 0)
  {
    var t := TrimStart(s);
    var r := TrimEnd(t);
    if |r| > 0 {
      assert r[0] == t[0];
    }
    forall k | 0 <= k < |s| && !IsSpace(s[k]) ensures |r| > 0 {
      assert k >= |s| - |t|;
      assert t[k - (|s| - |t|)] == s[k];
    }
  }

  /** `parts.join(sep)`. */
  function Join(parts: seq<string>, sep: char): string
  {
    if |parts| == 0 then ""
    else if |parts| == 1 then parts[0]
    else parts[0] + [sep] + Join(parts[1..], sep)
  }

  /** `s.split(sep)` for a one-character separator: the maximal separator-free pieces,
      empty ones included, one more than there are separators. */
  function Split(s: string, sep: char): (parts: seq<string>)
    ensures |parts| == multiset(s)[sep] + 1
    ensures forall i :: 0 <= i < |parts| ==> sep !in parts[i]
    ensures Join(parts, sep) == s
    decreases |s|
  {
    match IndexOf(s, sep)
    case None =>
      assert multiset(s)[sep] == 0;
      [s]
    case Some(i) =>
      var rest := Split(s[i + 1..], sep);
      assert s == s[..i] + [sep] + s[i + 1..];
      assert multiset(s) == multiset(s[..i]) + multiset([sep]) + multiset(s[i + 1..]);
      assert ([s[..i]] + rest)[1..] == rest;
      [s[..i]] + rest
  }

  /** A string without the separator is one piece. */
  lemma SplitWithout(s: string, sep: char)
    requires sep !in s
    ensures Split(s, sep) == [s]
  {
    assert IndexOf(s, sep) == None;
  }

  /** Splitting at the first separator: a separator-free head comes off whole. */
  lemma SplitCons(head: string, sep: char, tail: string)
    requires sep !in head
    ensures Split(head + [sep] + tail, sep) == [head] + Split(tail, sep)
  {
    var s := head + [sep] + tail;
    assert s[..|head|] == head && s[|head| + 1..] == tail;
    IndexOfAfterPrefix(head, sep, tail);
  }

  /** Splitting a joined list of separator-free pieces gives the pieces back. */
  lemma {:induction false} SplitJoin(parts: seq<string>, sep: char)
    requires |parts| > 0
    requires forall i :: 0 <= i < |parts| ==> sep !in parts[i]
    ensures Split(Join(parts, sep), sep) == parts
  {
    if |parts| > 1 {
      assert sep !in parts[0];
      SplitCons(parts[0], sep, Join(parts[1..], sep));
      forall i | 0 <= i < |parts[1..]| ensures sep !in parts[1..][i] {
        assert parts[1..][i] == parts[i + 1];
      }
      SplitJoin(parts[1..], sep);
      assert parts == [parts[0]] + parts[1..];
    }
  }

  // ---- parseInt -----------------------------------------------------------

  predicate IsDecimalDigit(c: char)
  {
    '0' <= c <= '9'
  }

  /** The value of `c` as a digit in bases up to 36, if it is one. */
  function DigitValue(c: char): (r: Option<nat>)
    ensures r.Some? ==> r.value < 36
    ensures IsDecimalDigit(c) <==> r.Some? && r.value < 10
  {
    if '0' <= c <= '9' then Some(c as int - '0' as int)
    else if 'a' <= c <= 'z' then Some(c as int - 'a' as int + 10)
    else if 'A' <= c <= 'Z' then Some(c as int - 'A' as int + 10)
    else None
  }

  predicate IsDigit(c: char, radix: nat)
  {
    DigitValue(c).Some? && DigitValue(c).value < radix
  }

  /** The longest prefix of `s` made of digits of `radix`. */
  function DigitPrefix(s: string, radix: nat): (ds: string)
    ensures |ds| <= |s| && ds == s[..|ds|]
    ensures forall k :: 0 <= k < |ds| ==> IsDigit(ds[k], radix)
    ensures |ds| < |s| ==> !IsDigit(s[|ds|], radix)
  {
    if |s| > 0 && IsDigit(s[0], radix) then [s[0]] + DigitPrefix(s[1..], radix) else []
  }

  lemma MulNonNegative(a: nat, b: nat)
    ensures a * b >= 0
  {
  }

  /** The number a digit string denotes in `radix`, most significant digit first. */
  function Value(ds: string, radix: nat): nat
    requires forall k :: 0 <= k < |ds| ==> IsDigit(ds[k], radix)
  {
    if |ds| == 0 then 0
    else
      var init := ds[..|ds| - 1];
      assert forall k :: 0 <= k < |init| ==> init[k] == ds[k];
      assert IsDigit(ds[|ds| - 1], radix);
      var high: nat := Value(init, radix);
      MulNonNegative(high, radix);
      high * radix + DigitValue(ds[|ds| - 1]).value
  }

  /** The unsigned part of `parseInt`: a `0x`/`0X` prefix selects base 16, and the longest
      run of digits that follows is read; `None` when there is no digit at all. */
  function Magnitude(u: string): (r: Option<nat>)
    ensures r.Some? ==> |u| > 0 && IsDecimalDigit(u[0])
  {
    var hex := |u| >= 2 && u[0] == '0' && (u[1] == 'x' || u[1] == 'X');
    var radix := if hex then 16 else 10;
    var ds := DigitPrefix(if hex then u[2..] else u, radix);
    if |ds| == 0 then None
    else
      assert |u| > 0 && (hex ==> u[0] == '0') && (!hex ==> IsDigit(u[0], 10));
      Some(Value(ds, radix))
  }

  /** `parseInt(s)` with no radix: leading white space is skipped and one sign is allowed
      before the magnitude; `None` is `NaN`. */
  function ParseInt(s: string): (r: Option<int>)
    ensures r.Some? ==> var t := TrimStart(s);
      |t| > 0 && (t[0] == '-' || t[0] == '+' || IsDecimalDigit(t[0]))
  {
    var t := TrimStart(s);
    var neg := |t| > 0 && t[0] == '-';
    var u := if |t| > 0 && (t[0] == '-' || t[0] == '+') then t[1..] else t;
    match Magnitude(u)
    case None => None
    case Some(m) => Some(if neg then -(m as int) else m)
  }

  /** The decimal numeral of `n`, as `String(n)` writes it. */
  function Show(n: nat): (s: string)
    ensures |s| > 0 && forall k :: 0 <= k < |s| ==> IsDecimalDigit(s[k])
    ensures n > 0 ==> s[0] != '0'
  {
    if n < 10 then ['0' + n as char]
    else Show(n / 10) + ['0' + (n % 10) as char]
  }

  /** Reading back a decimal numeral gives the number. */
  lemma {:induction false} ValueOfShow(n: nat)
    ensures forall k :: 0 <= k < |Show(n)| ==> IsDigit(Show(n)[k], 10)
    ensures Value(Show(n), 10) == n
  {
    var s := Show(n);
    assert forall k :: 0 <= k < |s| ==> IsDigit(s[k], 10) by {
      forall k | 0 <= k < |s| ensures IsDigit(s[k], 10) {
        assert IsDecimalDigit(s[k]);
      }
    }
    if n >= 10 {
      ValueOfShow(n / 10);
      assert s[..|s| - 1] == Show(n / 10);
    }
  }

  /** The digit run of a numeral followed by a non-digit is exactly the numeral. */
  lemma {:induction false} DigitPrefixOfNumeral(a: string, rest: string)
    requires forall k :: 0 <= k < |a| ==> IsDecimalDigit(a[k])
    requires |rest| == 0 || !IsDecimalDigit(rest[0])
    ensures DigitPrefix(a + rest, 10) == a
  {
    if |a| == 0 {
      assert a + rest == rest;
    } else {
      assert IsDigit(a[0], 10);
      assert (a + rest)[1..] == a[1..] + rest;
      DigitPrefixOfNumeral(a[1..], rest);
    }
  }

  /** `parseInt` reads a run of decimal digits that a non-digit ends, unless the run is a
      lone `0` followed by `x`, which would switch to base 16. */
  lemma ParseIntOfNumeral(a: string, rest: string)
    requires |a| > 0 && forall k :: 0 <= k < |a| ==> IsDecimalDigit(a[k])
    requires |rest| == 0 || !IsDecimalDigit(rest[0])
    requires a == "0" && |rest| > 0 ==> rest[0] != 'x' && rest[0] != 'X'
    ensures forall k :: 0 <= k < |a| ==> IsDigit(a[k], 10)
    ensures ParseInt(a + rest) == Some(Value(a, 10))
  {
    assert IsDecimalDigit((a + rest)[0]);
    ParseIntUnsigned(a + rest);
    MagnitudeOfNumeral(a, rest);
  }

  /** A string that starts with a digit is read as an unsigned magnitude. */
  lemma ParseIntUnsigned(s: string)
    requires |s| > 0 && IsDecimalDigit(s[0])
    ensures ParseInt(s) == Magnitude(s)
  {
    assert !IsSpace(s[0]) && s[0] != '-' && s[0] != '+';
    assert TrimStart(s) == s;
  }

  /** A decimal run that a non-digit ends, and that is not a lone `0` before `x`, is read
      in base 10. */
  lemma MagnitudeOfNumeral(a: string, rest: string)
    requires |a| > 0 && forall k :: 0 <= k < |a| ==> IsDecimalDigit(a[k])
    requires |rest| == 0 || !IsDecimalDigit(rest[0])
    requires a == "0" && |rest| > 0 ==> rest[0] != 'x' && rest[0] != 'X'
    ensures forall k :: 0 <= k < |a| ==> IsDigit(a[k], 10)
    ensures Magnitude(a + rest) == Some(Value(a, 10))
  {
    var s := a + rest;
    assert !(|s| >= 2 && s[0] == '0' && (s[1] == 'x' || s[1] == 'X')) by {
      if |a| == 1 {
        assert a == [a[0]];
      } else {
        assert s[1] == a[1];
      }
    }
    DigitPrefixOfNumeral(a, rest);
    assert forall k :: 0 <= k < |a| ==> IsDigit(a[k], 10);
  }

  /** `parseInt` reads a decimal numeral back, and stops at the first character that
      cannot continue it; only an `x` right after a lone `0` switches to base 16. */
  lemma ParseIntOfShow(n: nat, rest: string)
    requires |rest| == 0 || !IsDecimalDigit(rest[0])
    requires n == 0 && |rest| > 0 ==> rest[0] != 'x' && rest[0] != 'X'
    ensures ParseInt(Show(n) + rest) == Some(n)
  {
    var a := Show(n);
    assert a == "0" ==> n == 0;
    ParseIntOfNumeral(a, rest);
    ValueOfShow(n);
  }

  // ---- case and substring -------------------------------------------------

  /** `toLowerCase` on one character, for the Latin-1 capitals: `A`-`Z` and U+00C0 to U+00DE
      except the multiplication sign U+00D7 move up by 32 to their small letters; every
      other character is kept. */
  function LowerChar(c: char): char
  {
    if 'A' <= c <= 'Z' || ('\U{C0}' <= c <= '\U{DE}' && c != '\U{D7}')
    then (c as int + 32) as char
    else c
  }

  /** `toLowerCase`: every Latin-1 capital becomes its small letter, all else is kept. */
  function Lower(s: string): (r: string)
    ensures |r| == |s|
    ensures forall k :: 0 <= k < |s| ==> r[k] == LowerChar(s[k])
  {
    seq(|s|, k requires 0 <= k < |s| => LowerChar(s[k]))
  }

  /** `s.includes(sub)`: `sub` occurs in `s` as a contiguous block. */
  predicate Contains(s: string, sub: string)
  {
    exists i :: 0 <= i <= |s| - |sub| && sub <= s[i..]
  }
}

=== FILE: wrappers.dfy ===
/** The optional value used wherever the program has `null`, `undefined`, a missing
    JSON field or a failed lookup. */
module Wrappers {

  datatype Option<+T> = None | Some(value: T) {

    /** The value, or `default` when absent (the program's `x || default` for
        values that are never falsy themselves). */
    function GetOr(default: T): T
    {
      match this
      case Some(v) => v
      case None => default
    }
  }
}

=== FILE: zindex.dfy ===
/** The process-wide z-index counter `DragManager.globalZIndex`, shared by the drag
    engine and by the table that places new decks and cards. */
module ZIndex {

  /** The value the counter is initialised to when it is still unset. */
  const Base: nat := 1000

  /** The counter; 0 stands for "not yet set", which `getNextZIndex` detects by falsiness. */
  type Counter = nat

  /** The counter as `getNextZIndex` sees it after its "initialise if unset" step. */
  function Current(g: Counter): nat
  {
    if g == 0 then Base else g
  }

  /** The `DragManager` constructor's initialisation of the counter. */
  function Init(g: Counter): (r: Counter)
    ensures r != 0
    ensures g != 0 ==> r == g
  {
    if g == 0 then Base else g
  }

  /** One z-index together with the counter value it leaves behind. */
  datatype Allocation = Allocation(z: nat, counter: Counter)

  /** `getNextZIndex`: the returned value is the new counter, one above the old one. */
  function Next(g: Counter): (a: Allocation)
    ensures a.z == a.counter
    ensures a.z > g
    ensures g == 0 ==> a.z == Base + 1
    ensures g != 0 ==> a.z == g + 1
  {
    var c := Current(g) + 1;
    Allocation(c, c)
  }

  /** `n` successive calls: the values are consecutive, so strictly increasing. */
  function NextMany(g: Counter, n: nat): (r: (seq<nat>, Counter))
    ensures |r.0| == n
    ensures forall k :: 0 <= k < n ==> r.0[k] == Current(g) + k + 1
    ensures r.1 == if n == 0 then g else Current(g) + n
    decreases n
  {
    if n == 0 then ([], g)
    else
      var a := Next(g);
      var rest := NextMany(a.counter, n - 1);
      ([a.z] + rest.0, rest.1)
  }

  /** From a fresh start the calls return 1001, 1002, ... and never repeat a value. */
  lemma FreshCounterSequence(n: nat)
    ensures forall k :: 0 <= k < n ==> NextMany(0, n).0[k] == 1001 + k
    ensures forall i, j :: 0 <= i < j < n ==> NextMany(0, n).0[i] < NextMany(0, n).0[j]
  {
  }
}
